=== FILE: README.md ===
# ledgerdb-scraper core in Dafny

ledgerdb-scraper logs into online-banking sites, reads the transaction tables of
each account and hands every transaction to a ledger server, which either inserts
it or recognises it as already known. This project models the logic that decides
what reaches the server and in which form:

- the reconciliation session (`ServerSession`, and the older copy inside
  `ScraperDriverBase`): in-run sequence numbers for identical transactions,
  the check of the server's answer, and the processed/inserted counters;
- the statement record (`StatementDTO`): description normalisation, ISO dates,
  exact decimal amounts and the equality used for deduplication;
- the driver lifecycle: the `loggedIn` flag, the idempotent `close`, and the
  try/finally teardown of `Scraper.scrape`;
- the per-institution row readers (PC Financial, Simplii, RBC, MBNA,
  Capital One, and the two older drivers for MBNA and PC Financial): the
  account reference, the header checks, the amount patterns, the debit/credit
  choice and sign, and the rows that are passed over;
- the command-line entry point (instance name, exit codes, driver class
  choice) and `KPScript` (argument list, password masking, output checks,
  `listEntries` filtering).

Pages, the server and the `KPScript` process are inputs. A page is given as the
texts the driver reads off it. The server is a pair of functions from a request
to its reply. A `KPScript` run is a function from the argument list to the exit
value and output. Locale date parsing (`"MMM d, yyyy"`, `"MM/dd/yyyy"`,
`"M/dd/yy"`) is an abstract partial function `DateParser`. ISO formatting is
modelled exactly.

Files, one module each: `wrappers` (Option, Result, Outcome, the error kinds),
`text`, `digits`, `splits` (Java `String.split`), `decimal` (BigDecimal),
`isodate`, `statement`, `session`, `amounts`, `references`, `harness` (the
account loop the drivers share), `lifecycle`, `scraper`, `kpscript`,
`pcfinancial`, `simplii`, `rbc`, `mbna`, `capitalone`, `legacy_mbna`,
`legacy_pcfinancial`.

Where the code and its description disagree, the model follows the code.
`countInserted` goes up when the server's body is anything but `"0"`
(`ServerSession.java:88-89`). `checkStatus` on a non-200 reply always fails with
the plain "Server request failed". The `IllegalStateException` carrying the body
is caught by its own catch-all.

## Model

All paths are under `src/main/java/ledgerdb/scraper/`, written out in full below.

| member | source | states |
|---|---|---|
| Sessions.Open | src/main/java/ledgerdb/scraper/ServerSession.java:26-45 | A new session has recorded nothing, both counters are zero, and it satisfies the session invariant |
| Sessions.Posted | src/main/java/ledgerdb/scraper/ServerSession.java:68-72 | The posted statement equals the given one except for its sequence, which lies between 1 and the number of records plus 1 |
| Sessions.CheckStatus | src/main/java/ledgerdb/scraper/ServerSession.java:92-105 | A reply passes exactly when its status is 200; otherwise the failure is always "server request failed", never the body |
| Sessions.GetAccountId | src/main/java/ledgerdb/scraper/ServerSession.java:47-58 | The lookup goes to url/institution_link/{institution}/{reference}; it yields the decoded accountId exactly when the status is 200, and fails otherwise |
| Sessions.Merge | src/main/java/ledgerdb/scraper/ServerSession.java:60-90 | Merge succeeds exactly when the status is 200 and the body is all digits. On success the numbered statement is appended, processed rises by 1 and inserted rises by 1 exactly when the body is not "0". Failures are a non-200 status or a non-numeric body, and nothing changes then. The invariant (processed = records, inserted <= processed, every record numbered) is kept |
| Sessions.CountRespectsEquals | src/main/java/ledgerdb/scraper/ServerSession.java:68-71 | The number given to a statement does not depend on its own sequence field, nor on anything `equalsExceptSequence` ignores |
| Sessions.SequencedAppend | src/main/java/ledgerdb/scraper/ServerSession.java:68-72 | Appending a statement numbered 1 + its earlier duplicates keeps every record numbered that way |
| Sessions.FreshStartsAtOne | src/main/java/ledgerdb/scraper/ServerSession.java:68-72 | A statement that differs from every record in date, account, amount or description gets sequence 1 |
| Sessions.DuplicatesIncrease | src/main/java/ledgerdb/scraper/ServerSession.java:68-72 | Among recorded duplicates, a later one always has a larger sequence |
| Sessions.RecordedDistinct | src/main/java/ledgerdb/scraper/ServerSession.java:68-86 | No two records of a session are identical, so every POSTed statement differs from the earlier ones |
| Sessions.MergeRows | src/main/java/ledgerdb/scraper/ServerSession.java:60-90 | Merging the rows of a table only extends the records, by at most one per accepted row. Without a failure no row was rejected, and each accepted row was recorded in order |
| Sessions.MergeRowsValid | src/main/java/ledgerdb/scraper/ServerSession.java:60-90 | Merging a run of rows keeps the session invariant: counters match the records, and each record is numbered one past its earlier duplicates |
| Sessions.DuplicateRunNumbering | src/main/java/ledgerdb/scraper/ServerSession.java:68-72 | N merged statements that are equal except for sequence receive consecutive sequences c+1 .. c+N, where c counts earlier equal records (1..N on a fresh session) |
| Sessions.AcceptAll | src/main/java/ledgerdb/scraper/ServerSession.java:60-90 | Statements wrapped as accepted rows come back unchanged as the accepted statements |
| Sessions.LegacyMerge | src/main/java/ledgerdb/scraper/ScraperDriverBase.java:75-104 | The base-class merge appends exactly one record and counts it as processed when it succeeds |
| Sessions.LegacyCountAgrees | src/main/java/ledgerdb/scraper/ScraperDriverBase.java:83-86 | Counting with the base class's field-wise `equals` gives the same number as counting with `equalsExceptSequence` |
| Sessions.LegacyMergeAgrees | src/main/java/ledgerdb/scraper/ScraperDriverBase.java:75-119 | The base-class `merge` and `checkStatus` behave exactly as the session's merge, in the result and in every failure |
| Statements.NormalizeDescription | src/main/java/ledgerdb/scraper/dto/StatementDTO.java:32-36 | The stored description holds no whitespace character other than the plain space, and neither starts nor ends with a character at or below U+0020 |
| Statements.NormalizeIsTrimThenReplace | src/main/java/ledgerdb/scraper/dto/StatementDTO.java:32-36 | Replacing whitespace and then trimming gives the same text as trimming and then replacing |
| Statements.NormalizeIdempotent | src/main/java/ledgerdb/scraper/dto/StatementDTO.java:32-36 | Setting an already stored description again changes nothing |
| Statements.NormalizeKeepsRuns | src/main/java/ledgerdb/scraper/dto/StatementDTO.java:34-35 | Runs of whitespace are not collapsed: a text whose ends are not blank keeps its length, each whitespace character becoming one space and every other character staying in place |
| Statements.WithParsedDate | src/main/java/ledgerdb/scraper/dto/StatementDTO.java:15-20 | Setting the date from text with a format succeeds exactly when the text parses, and then stores the ISO form of the parsed date; otherwise it fails as unparseable |
| Statements.WithSequence | src/main/java/ledgerdb/scraper/dto/StatementDTO.java:39-49 | The sequence set is the one read back; the statement stays equal except for sequence, and its source stays the empty string |
| Statements.EqualsExceptSequenceIgnoresOnlySequence | src/main/java/ledgerdb/scraper/dto/StatementDTO.java:45-49 | Two statements are equal except for sequence exactly when they agree once both sequences are cleared |
| Statements.EqualsExceptSequenceIsEquivalence | src/main/java/ledgerdb/scraper/dto/StatementDTO.java:45-49 | `equalsExceptSequence` is reflexive, symmetric and transitive, missing fields included |
| Statements.LegacyEqualsAgrees | src/main/java/ledgerdb/scraper/ScraperDriverBase.java:159-172 | The reflective `equals` of the base class compares all public fields except sequence (source included), and holds exactly when `equalsExceptSequence` holds |
| Statements.AmountScaleMatters | src/main/java/ledgerdb/scraper/dto/StatementDTO.java:48 | A statement whose amount is rescaled (10.0 to 10.00) keeps the amount's value, yet is equal to the original except for sequence only when the scale did not change |
| Decimals.EqualsIsScaleSensitive | src/main/java/ledgerdb/scraper/dto/StatementDTO.java:48 | BigDecimal equality compares unscaled value and scale: any rescaling keeps the value, and the rescaled amount equals the original only when no digit was appended |
| Decimals.Parse | src/main/java/ledgerdb/scraper/institution/pcfinancial/PcfinancialScraperDriver.java:129 | `new BigDecimal(text)` rejects the empty text, reads a digit string as that integer with scale 0, and yields a negative value only from text starting with "-" |
| Decimals.ParsePlainString | src/main/java/ledgerdb/scraper/institution/pcfinancial/PcfinancialScraperDriver.java:129 | The plain decimal text of a value parses back to the same value and scale |
| Decimals.ParseNegative | src/main/java/ledgerdb/scraper/institution/simplii/SimpliiScraperDriver.java:156-159 | Prefixing "-" to a parseable unsigned text parses to the negation |
| IsoDate.FormatIsoShape | src/main/java/ledgerdb/scraper/dto/StatementDTO.java:15-17 | For the years 0 through 9999 the ISO text is the ten characters "yyyy-MM-dd", each field zero-padded and denoting the date's own field |
| IsoDate.ParseFormatIso | src/main/java/ledgerdb/scraper/dto/StatementDTO.java:15-17 | Reading back the ISO text of any date gives that date |
| IsoDate.FormatIsoInjective | src/main/java/ledgerdb/scraper/dto/StatementDTO.java:15-17 | Different dates never get the same ISO text, so deduplication on the text is deduplication on the date |
| Amounts.ChooseSide | src/main/java/ledgerdb/scraper/institution/pcfinancial/PcfinancialScraperDriver.java:112-126 | A side is chosen exactly when one of debit and credit is empty. It is the debit side exactly when credit is empty, and the chosen text is the non-empty one |
| Amounts.PcfinancialAmount | src/main/java/ledgerdb/scraper/institution/pcfinancial/PcfinancialScraperDriver.java:112-131 | An amount is produced only from a single non-empty side matching `^\$[\d,]+(\.\d\d)?$`. Only a credit can be positive and only a debit can be negative. The value is the number left after dropping all but digits and dots, negated for a debit; with a matching side it fails exactly when that text does not parse |
| Amounts.PcfinancialRoundTrip | src/main/java/ledgerdb/scraper/institution/pcfinancial/PcfinancialScraperDriver.java:112-131 | An amount shown as "$" and its digits reads back as that amount in the credit column, and as its negation in the debit column |
| Amounts.SimpliiAgreesWithPcfinancial | src/main/java/ledgerdb/scraper/institution/simplii/SimpliiScraperDriver.java:139-159 | Prefixing "-" to the text and parsing gives the same result as parsing and negating, failures included |
| Amounts.ToDecimal | src/main/java/ledgerdb/scraper/institution/rbc/RbcScraperDriver.java:102 | The conversion succeeds exactly when the text is a decimal number; otherwise it fails with a number format error |
| Amounts.RbcAmount | src/main/java/ledgerdb/scraper/institution/rbc/RbcScraperDriver.java:95-102 | An amount is produced only when exactly one column is non-blank. A withdrawal must start with "-" and a deposit must not, and both must match `^-?\$[\d,]+\.\d\d$`. The value is the chosen text, with everything but the sign, digits and dot dropped, read as a decimal |
| Amounts.RbcDepositRoundTrip | src/main/java/ledgerdb/scraper/institution/rbc/RbcScraperDriver.java:95-102 | A deposit shown as "$" and its digits with cents reads back as that amount |
| Amounts.RbcWithdrawalRoundTrip | src/main/java/ledgerdb/scraper/institution/rbc/RbcScraperDriver.java:95-102 | A withdrawal shown as "-$" and its digits with cents reads back as the negative amount |
| Amounts.NegatedAmount | src/main/java/ledgerdb/scraper/institution/mbna/MbnaScraperDriver.java:163-166 | An amount is produced only from text matching the signed dollar pattern, and it is the negation of the signed value shown |
| Amounts.NegatedRoundTrip | src/main/java/ledgerdb/scraper/institution/capitalone/CapitalOneScraperDriver.java:89-92 | A charge "$d" is stored as -d and a payment "-$d" is stored as d |
| Amounts.LegacyNegatedAmount | src/main/java/ledgerdb/scraper/institution/mbna/ScraperDriver.java:87-91 | The older MBNA driver produces an amount only from unsigned text matching `^\$[\d,]+(\.\d\d)?$`, and never a positive one |
| Amounts.LegacyNegatedAgrees | src/main/java/ledgerdb/scraper/institution/mbna/ScraperDriver.java:87-91 | On unsigned text the older MBNA amount equals the newer one; any text starting with "-" is rejected |
| Amounts.SeparatorIgnored | src/main/java/ledgerdb/scraper/institution/pcfinancial/PcfinancialScraperDriver.java:129 | A thousands separator anywhere in the text does not change the residue that is parsed |
| Amounts.DollarTextShape | src/main/java/ledgerdb/scraper/institution/pcfinancial/PcfinancialScraperDriver.java:128 | "$" followed by the plain digits of a displayable amount matches the dollar pattern, and the pattern with cents when the scale is 2 |
| Amounts.UnsignedParse | src/main/java/ledgerdb/scraper/institution/pcfinancial/PcfinancialScraperDriver.java:129-131 | Text without "-" never parses to a negative number, so only the debit branch makes an amount negative |
| Amounts.ParseMinus | src/main/java/ledgerdb/scraper/institution/simplii/SimpliiScraperDriver.java:156-159 | A "-" prefix makes unsigned text parse exactly when the text alone does, and the result is then the negation |
| References.ParenReference | src/main/java/ledgerdb/scraper/institution/pcfinancial/PcfinancialScraperDriver.java:69-70 | The reference is the digits of the last "(digits)" group of the name. A name without a group is accepted only if it is all digits. A name with a line terminator is rejected, because `.` does not match it |
| References.ParenReferenceWithoutParen | src/main/java/ledgerdb/scraper/institution/pcfinancial/PcfinancialScraperDriver.java:69-70 | A name with no '(' yields itself when it is all digits, and nothing otherwise |
| References.ParenReferenceOfSuffix | src/main/java/ledgerdb/scraper/institution/simplii/SimpliiScraperDriver.java:92-93 | A name ending in "(digits)" yields those digits |
| References.ParenReferenceRejectsTerminator | src/main/java/ledgerdb/scraper/institution/pcfinancial/PcfinancialScraperDriver.java:69-70 | A name ending in a line break never yields a reference |
| References.RbcLabelNumber | src/main/java/ledgerdb/scraper/institution/rbc/RbcScraperDriver.java:58-61 | A match of `^([A-Za-z]+) ([-0-9]+)$` gives the second group, made of digits and dashes, after letters and one space, before at most a final line terminator |
| References.RbcReference | src/main/java/ledgerdb/scraper/institution/rbc/RbcScraperDriver.java:55-63 | The reference is the label's number with the dashes removed, and is all digits |
| References.RbcReferenceOfLabel | src/main/java/ledgerdb/scraper/institution/rbc/RbcScraperDriver.java:55-63 | "Chequing 12345-1234567" yields "123451234567": branch and account digits joined |
| References.MbnaReference | src/main/java/ledgerdb/scraper/institution/mbna/MbnaScraperDriver.java:49-53 | The reference is the whole digit run after the first "ending in " followed by a digit; there is none exactly when no such place exists |
| References.MbnaReferenceOfFirstMatch | src/main/java/ledgerdb/scraper/institution/mbna/MbnaScraperDriver.java:49-53 | Whatever text precedes the first "ending in " + digits and whatever non-digit text follows, the reference is exactly those digits |
| References.MbnaReferenceOfSuffix | src/main/java/ledgerdb/scraper/institution/mbna/MbnaScraperDriver.java:49-53 | Text without digits before "ending in " + digits yields those digits |
| References.CapitalOneReference | src/main/java/ledgerdb/scraper/institution/capitalone/CapitalOneScraperDriver.java:43-47 | A reference exists exactly when the text is "..." followed by digits only, and it is those digits |
| References.CapitalOneReferenceRoundTrip | src/main/java/ledgerdb/scraper/institution/capitalone/CapitalOneScraperDriver.java:43-47 | "..." + digits yields the digits |
| AccountLoop.Visit | src/main/java/ledgerdb/scraper/institution/pcfinancial/PcfinancialScraperDriver.java:41-137 | The account loop only extends the records and keeps the session invariant. It looks references up in account order. Any unreadable reference ends it with a failure, and a complete run looks up every reference of an account without an alert |
| AccountLoop.AlertSkipped | src/main/java/ledgerdb/scraper/institution/pcfinancial/PcfinancialScraperDriver.java:73-81 | An account showing an alert changes nothing: the run is the same as without it, so its reference is never looked up |
| AccountLoop.AllAlerts | src/main/java/ledgerdb/scraper/institution/simplii/SimpliiScraperDriver.java:96-108 | A run over accounts that all show an alert records nothing and looks nothing up |
| AccountLoop.SingleAccount | src/main/java/ledgerdb/scraper/institution/pcfinancial/PcfinancialScraperDriver.java:81-136 | A completed run over one account records one statement per accepted row, each carrying the accountId the server returned |
| Pcfinancial.ReadRow | src/main/java/ledgerdb/scraper/institution/pcfinancial/PcfinancialScraperDriver.java:95-131 | A row is never passed over. A row without the five classed cells fails the state check, and an unparseable date fails. A row is accepted exactly when its date parses and the amount rule holds, and it then carries the ISO date, the description as shown, the signed amount and sequence 0 |
| Pcfinancial.ReadShownRow | src/main/java/ledgerdb/scraper/institution/pcfinancial/PcfinancialScraperDriver.java:95-131 | A transaction displayed in either column reads back as that transaction, negated in "Funds out" |
| Pcfinancial.ReadTable | src/main/java/ledgerdb/scraper/institution/pcfinancial/PcfinancialScraperDriver.java:84-91 | An empty table or a wrong header fails; otherwise every row after the header is read, in order, with the account's id |
| Pcfinancial.Reference | src/main/java/ledgerdb/scraper/institution/pcfinancial/PcfinancialScraperDriver.java:69-70 | The reference is read exactly when the name has a "(digits)" reference, and fails the state check otherwise |
| Pcfinancial.Accounts | src/main/java/ledgerdb/scraper/institution/pcfinancial/PcfinancialScraperDriver.java:41-56 | One account per summary row, in order |
| Pcfinancial.Scrape | src/main/java/ledgerdb/scraper/institution/pcfinancial/PcfinancialScraperDriver.java:36-137 | An empty deposit list fails, and so does any account without a reference. A completed run looks up exactly the references of the accounts without an alert, in order |
| Pcfinancial.LookupsOfPages | src/main/java/ledgerdb/scraper/institution/pcfinancial/PcfinancialScraperDriver.java:69-81 | The references looked up are those of the pages without an alert |
| Pcfinancial.AlertPageSkipped | src/main/java/ledgerdb/scraper/institution/pcfinancial/PcfinancialScraperDriver.java:73-79 | A page showing an alert can be removed from the summary without changing the run |
| Simplii.ReadRow | src/main/java/ledgerdb/scraper/institution/simplii/SimpliiScraperDriver.java:124-159 | Same acceptance as PC Financial's row reader, with the description normalised and the sign applied to the text |
| Simplii.ReadShownRow | src/main/java/ledgerdb/scraper/institution/simplii/SimpliiScraperDriver.java:124-159 | A displayed transaction reads back with its normalised description, negated in "Funds out" |
| Amounts.SimpliiAmount | src/main/java/ledgerdb/scraper/institution/simplii/SimpliiScraperDriver.java:139-159 | Exactly one of debit and credit must be filled and match the dollar pattern, else the state check fails. The amount is the number left after dropping all but digits and dots, negated for a debit, and fails exactly when that text does not parse |
| Simplii.ReadTable | src/main/java/ledgerdb/scraper/institution/simplii/SimpliiScraperDriver.java:114-120 | At least two rows, reading "Transaction List" and the column header, are required. Data rows start at the third row |
| Simplii.Accounts | src/main/java/ledgerdb/scraper/institution/simplii/SimpliiScraperDriver.java:66-79 | One account per listed row, in order |
| Simplii.ScrapeTable | src/main/java/ledgerdb/scraper/institution/simplii/SimpliiScraperDriver.java:54-110 | A table whose single row says "You don't have any" is skipped without effect, and an empty table fails. Otherwise the accounts are visited |
| Simplii.ScrapeTables | src/main/java/ledgerdb/scraper/institution/simplii/SimpliiScraperDriver.java:40-45 | Tables are visited in the given order, and records only grow |
| Simplii.Scrape | src/main/java/ledgerdb/scraper/institution/simplii/SimpliiScraperDriver.java:40-45 | The four tables DEPOSIT, NON_REGISTERED_INVESTMENT, REGISTERED_INVESTMENT and CREDIT are scraped in that order, keeping the invariant |
| Simplii.OnlyDeposits | src/main/java/ledgerdb/scraper/institution/simplii/SimpliiScraperDriver.java:40-61 | When the other three tables hold only the placeholder row, the run is the DEPOSIT table's run |
| Simplii.PlaceholdersOnly | src/main/java/ledgerdb/scraper/institution/simplii/SimpliiScraperDriver.java:57-61 | Tables that hold only the placeholder row read nothing and record nothing |
| Rbc.Description | src/main/java/ledgerdb/scraper/institution/rbc/RbcScraperDriver.java:91-93 | After collapsing, the description has no two adjacent spaces and no whitespace other than the space |
| Rbc.SingleSpacedNormalized | src/main/java/ledgerdb/scraper/institution/rbc/RbcScraperDriver.java:91-93 | The stored description is single-spaced and trimmed |
| Rbc.ReadRow | src/main/java/ledgerdb/scraper/institution/rbc/RbcScraperDriver.java:84-102 | A row needs 5 cells and a parseable date. It is accepted exactly when the withdrawal/deposit rule holds, and then carries the ISO date, the collapsed description and the signed amount |
| Rbc.ReadShownRow | src/main/java/ledgerdb/scraper/institution/rbc/RbcScraperDriver.java:84-102 | A displayed deposit reads back as its amount and a withdrawal as the negative amount |
| Rbc.ReadTable | src/main/java/ledgerdb/scraper/institution/rbc/RbcScraperDriver.java:79-85 | The first row must read exactly "DATE DESCRIPTION WITHDRAWALS DEPOSIT BALANCE"; every later row is a transaction |
| Rbc.Reference | src/main/java/ledgerdb/scraper/institution/rbc/RbcScraperDriver.java:55-63 | The reference is read exactly when the label yields one; it is all digits |
| Rbc.Accounts | src/main/java/ledgerdb/scraper/institution/rbc/RbcScraperDriver.java:41-53 | One account per link, in order, none with an alert |
| Rbc.Scrape | src/main/java/ledgerdb/scraper/institution/rbc/RbcScraperDriver.java:41-106 | No link fails. A completed run looks up the reference of every link, in order |
| Rbc.EveryLinkLookedUp | src/main/java/ledgerdb/scraper/institution/rbc/RbcScraperDriver.java:41-65 | With readable labels, the references looked up are the labels' references, one per link |
| Mbna.FirstDisplayed | src/main/java/ledgerdb/scraper/institution/mbna/MbnaScraperDriver.java:39-47 | The chosen link is displayed and no earlier link is; there is none exactly when no link is displayed |
| Mbna.Reference | src/main/java/ledgerdb/scraper/institution/mbna/MbnaScraperDriver.java:39-53 | The reference is the "ending in" digits of the first displayed link, and fails the state check otherwise |
| Mbna.ReadRow | src/main/java/ledgerdb/scraper/institution/mbna/MbnaScraperDriver.java:149-166 | A row needs 5 cells. It is passed over exactly when the posting date is empty and the reference is "TEMP". Otherwise it is accepted exactly when the posting date parses and the amount matches, and carries the negated amount |
| Mbna.ReadShownRow | src/main/java/ledgerdb/scraper/institution/mbna/MbnaScraperDriver.java:159-166 | A charge "$d" reads back as -d and a payment "-$d" as d |
| Mbna.TrimBeforeNormalize | src/main/java/ledgerdb/scraper/institution/mbna/MbnaScraperDriver.java:161 | The extra `trim()` before `setDescription` changes nothing |
| Mbna.ReadTable | src/main/java/ledgerdb/scraper/institution/mbna/MbnaScraperDriver.java:134-150 | The header must have five cells with the fixed prefixes, after collapsing whitespace where the code does; every later row is a transaction |
| Mbna.Scrape | src/main/java/ledgerdb/scraper/institution/mbna/MbnaScraperDriver.java:38-79 | No displayed link fails. A completed run looks up exactly one reference, that of the first displayed link |
| Mbna.OneAccountId | src/main/java/ledgerdb/scraper/institution/mbna/MbnaScraperDriver.java:56-77 | The snapshot and statements tables are merged under the same accountId, one after the other |
| CapitalOne.FindElement | src/main/java/ledgerdb/scraper/institution/capitalone/CapitalOneScraperDriver.java:140-147 | It polls at most 10 times and stops at the first success; then one final lookup decides the result |
| CapitalOne.Lookup | src/main/java/ledgerdb/scraper/institution/capitalone/CapitalOneScraperDriver.java:146 | `findElement` returns the element when there is one, and fails as no such element otherwise |
| CapitalOne.DropLetters | src/main/java/ledgerdb/scraper/institution/capitalone/CapitalOneScraperDriver.java:81 | The leading ASCII letters, and only they, are removed |
| CapitalOne.CleanDateOfLabel | src/main/java/ledgerdb/scraper/institution/capitalone/CapitalOneScraperDriver.java:79-81 | A drawer label ("Open Drawer", "Close Drawer") before the date text is removed with the whitespace, leaving the date |
| CapitalOne.ReadRow | src/main/java/ledgerdb/scraper/institution/capitalone/CapitalOneScraperDriver.java:69-92 | A row needs 5 grid cells and a drawer description. It is accepted exactly when the cleaned date parses and the amount matches `^-?\$[\d,]+\.\d\d$`, and carries the negated amount |
| CapitalOne.ReadShownRow | src/main/java/ledgerdb/scraper/institution/capitalone/CapitalOneScraperDriver.java:69-92 | A displayed transaction behind a drawer label reads back with its date, the drawer's description and the negated amount |
| CapitalOne.ReadGrid | src/main/java/ledgerdb/scraper/institution/capitalone/CapitalOneScraperDriver.java:63-97 | There is no header row: every row is read, in page order |
| CapitalOne.Reference | src/main/java/ledgerdb/scraper/institution/capitalone/CapitalOneScraperDriver.java:43-47 | The reference is read exactly when the text is "..." and digits |
| CapitalOne.Scrape | src/main/java/ledgerdb/scraper/institution/capitalone/CapitalOneScraperDriver.java:40-61 | A bad reference fails before any lookup; a completed run looks up exactly the digits after "..." |
| LegacyMbna.Reference | src/main/java/ledgerdb/scraper/institution/mbna/ScraperDriver.java:32-41 | There must be exactly two links, the first hidden and the second displayed; the reference is the "ending in" digits of the second |
| LegacyMbna.ReferenceKeptByNewerDriver | src/main/java/ledgerdb/scraper/institution/mbna/ScraperDriver.java:32-41 | Where the older driver finds a reference, the newer driver finds the same one |
| LegacyMbna.ReadRow | src/main/java/ledgerdb/scraper/institution/mbna/ScraperDriver.java:72-91 | TEMP rows are passed over. Otherwise a row is accepted exactly when the posting date parses and the amount is unsigned "$" text, and carries the raw description and the negated amount |
| LegacyMbna.ReadShownCharge | src/main/java/ledgerdb/scraper/institution/mbna/ScraperDriver.java:82-91 | A charge "$d" reads back as -d with the ISO posting date |
| LegacyMbna.ShownPaymentRejected | src/main/java/ledgerdb/scraper/institution/mbna/ScraperDriver.java:87-88 | A payment shown as "-$d" fails the amount check |
| LegacyMbna.ReadTable | src/main/java/ledgerdb/scraper/institution/mbna/ScraperDriver.java:53-73 | The header checks are those of the newer driver; every later row is a transaction |
| LegacyMbna.MergeTable | src/main/java/ledgerdb/scraper/institution/mbna/ScraperDriver.java:66-101 | The driver's own list grows by exactly what the session records. Records only grow, and a completed table had no rejected row |
| LegacyMbna.MergeTableValid | src/main/java/ledgerdb/scraper/institution/mbna/ScraperDriver.java:66-101 | The table loop keeps the session invariant |
| LegacyMbna.LocalSequenceOverwritten | src/main/java/ledgerdb/scraper/institution/mbna/ScraperDriver.java:93-97 | The sequence the driver computes is overwritten by `merge`, so it does not affect what is posted |
| LegacyMbna.MergeTableAgrees | src/main/java/ledgerdb/scraper/institution/mbna/ScraperDriver.java:66-101 | The table loop with its own counter merges what the shared row loop merges and stops where it stops |
| LegacyMbna.Scrape | src/main/java/ledgerdb/scraper/institution/mbna/ScraperDriver.java:32-101 | A bad link set fails before any lookup, and the driver's list is exactly what this run recorded |
| LegacyMbna.ScrapeIsVisit | src/main/java/ledgerdb/scraper/institution/mbna/ScraperDriver.java:32-101 | The older driver behaves as the shared account loop over its one account |
| LegacyMbna.FreshDriverCountsAlike | src/main/java/ledgerdb/scraper/institution/mbna/ScraperDriver.java:93-98 | On a fresh session the driver's list is the session's records, and the number it computes is the one `merge` assigns |
| LegacyPcfinancial.ReadRow | src/main/java/ledgerdb/scraper/institution/pcfinancial/ScraperDriver.java:120-157 | A row is read exactly when it has the five classed cells, its date parses and its amount is valid. It then carries the reference, the ISO date, the raw description and the signed amount. Source is empty |
| LegacyPcfinancial.ReadShownRow | src/main/java/ledgerdb/scraper/institution/pcfinancial/ScraperDriver.java:120-157 | A displayed transaction passes every row assertion and reads back negated in "Funds out", positive in "Funds in" |
| LegacyPcfinancial.ReadTable | src/main/java/ledgerdb/scraper/institution/pcfinancial/ScraperDriver.java:116-134 | The first row is skipped as the header, and each later row is read with the account's reference |
| LegacyPcfinancial.MergeInfos | src/main/java/ledgerdb/scraper/institution/pcfinancial/ScraperDriver.java:159-165 | A row is added to the list only after `merge` accepted it, as that row up to its sequence, and a completed pass adds every row |
| LegacyPcfinancial.MergeInfosNumbered | src/main/java/ledgerdb/scraper/institution/pcfinancial/ScraperDriver.java:159-165 | The list stays numbered: each row gets 1 + the count of its earlier equal rows |
| LegacyPcfinancial.CountSameIgnoresSequence | src/main/java/ledgerdb/scraper/institution/pcfinancial/ScraperDriver.java:159-162 | The count of equal rows does not depend on the row's own sequence |
| LegacyPcfinancial.NumberedAppend | src/main/java/ledgerdb/scraper/institution/pcfinancial/ScraperDriver.java:159-165 | Appending a row numbered 1 + its earlier equal rows keeps the list numbered |
| LegacyPcfinancial.ScrapeAccount | src/main/java/ledgerdb/scraper/institution/pcfinancial/ScraperDriver.java:95-168 | An alerted account sends nothing. Every row sent carries the account's reference and is numbered within the account, and a completed account sends one row per table row after the header |
| LegacyPcfinancial.ScrapeFrom | src/main/java/ledgerdb/scraper/institution/pcfinancial/ScraperDriver.java:67-169 | Every account's list is numbered and starts at sequence 1 |
| LegacyPcfinancial.Scrape | src/main/java/ledgerdb/scraper/institution/pcfinancial/ScraperDriver.java:60-179 | The browser is quit exactly when the run completes, and a missing sign-off landmark fails the run |
| LegacyPcfinancial.SequencesRestartPerAccount | src/main/java/ledgerdb/scraper/institution/pcfinancial/ScraperDriver.java:113 | Each account's list starts again at sequence 1 |
| LegacyPcfinancial.DuplicatesNumberedInOrder | src/main/java/ledgerdb/scraper/institution/pcfinancial/ScraperDriver.java:159-162 | Among equal rows of one account, a later row has a larger sequence |
| Lifecycle.LogIn | src/main/java/ledgerdb/scraper/institution/pcfinancial/PcfinancialScraperDriver.java:142-174 | The flag is set only when every page check passed, as the last step; a failed check leaves the driver unchanged |
| Lifecycle.LogOut | src/main/java/ledgerdb/scraper/institution/pcfinancial/PcfinancialScraperDriver.java:176-183 | The flag is cleared only once the signed-off landmark was found; otherwise nothing changes |
| Lifecycle.BaseClose | src/main/java/ledgerdb/scraper/ScraperDriverBase.java:121-130 | The base `close` always reports the counts and calls `quit` only when a browser is held. It succeeds exactly when no browser is held or `quit` returns, and then holds none; a throwing `quit` is passed on and the browser stays held |
| Lifecycle.BaseCloseTwice | src/main/java/ledgerdb/scraper/ScraperDriverBase.java:125-129 | A second base `close` reports again, and calls `quit` again only if the first call threw |
| Lifecycle.Close | src/main/java/ledgerdb/scraper/institution/pcfinancial/PcfinancialScraperDriver.java:185-189 | The driver logs out exactly when logged in and runs the base `close` only if that returned. It succeeds exactly when the logout it needed and the `quit` it needed both returned; a failed logout leaves everything as it was, and a failed `quit` is passed on |
| Lifecycle.CloseAtMostOnce | src/main/java/ledgerdb/scraper/ScraperDriverBase.java:121-130 | However often `close` is called, the driver logs out at most once, and only if it was logged in; `quit` is called at most once plus once per call of it that threw |
| Lifecycle.ClosedStaysClosed | src/main/java/ledgerdb/scraper/institution/pcfinancial/PcfinancialScraperDriver.java:185-189 | Once logged out and released, further calls quit nothing and log out nothing, whatever logout and `quit` would do |
| Lifecycle.PcfinancialRun | src/main/java/ledgerdb/scraper/institution/pcfinancial/PcfinancialScraperDriver.java:25-140 | `run` succeeds exactly when login, scrape and logout all do, and a successful run ends logged out |
| Lifecycle.RunThenClose | src/main/java/ledgerdb/scraper/institution/pcfinancial/PcfinancialScraperDriver.java:139-189 | After a successful run `close` does not log out again. After a failure following login, `close` logs out exactly once. When `quit` returns, a successful run closes cleanly and holds no browser |
| Lifecycle.MbnaLogIn | src/main/java/ledgerdb/scraper/institution/mbna/MbnaScraperDriver.java:109-118 | An error message on the landing page fails the login before the flag can be set |
| ScraperMain.InstanceName | src/main/java/ledgerdb/scraper/Scraper.java:119-123 | The name is "ledgerdb" without `-i` and "ledgerdb-" + value with it |
| ScraperMain.InstanceNameRoundTrip | src/main/java/ledgerdb/scraper/Scraper.java:119-123 | The `-i` value is recovered from the instance name |
| ScraperMain.ExitCode | src/main/java/ledgerdb/scraper/Scraper.java:131-143 | The constructor ends the program exactly when it does not go on to scrape; status 0 only after a listing that completed, 1 when `list()` threw |
| ScraperMain.Start | src/main/java/ledgerdb/scraper/Scraper.java:99-135 | Exit code 2 happens exactly on a parse error, on `-h`, or when `-s` is missing without `-l`. Exit code 0 happens exactly when `-s` is missing with `-l` and the listing completes, and 1 when the listing throws. Scraping uses the site and the derived instance name |
| ScraperMain.List | src/main/java/ledgerdb/scraper/Scraper.java:137-142 | Listing fails as opening the database fails (missing file, unreadable password file); otherwise it is KPScript's `listEntries`, whose password lines start with the mask |
| ScraperMain.SiteWins | src/main/java/ledgerdb/scraper/Scraper.java:108-123 | With `-s` and without `-h`, scraping starts whether or not `-l` is given |
| ScraperMain.DriverPackage | src/main/java/ledgerdb/scraper/Scraper.java:167-169 | Driver classes are searched in ledgerdb.scraper.institution.<institution> |
| ScraperMain.SelectDriverClass | src/main/java/ledgerdb/scraper/Scraper.java:165-177 | The first driver class in listing order is chosen; with none the run fails |
| ScraperMain.SelectDriverClassPrefers | src/main/java/ledgerdb/scraper/Scraper.java:171-175 | Classes listed later never displace an earlier driver class |
| ScraperMain.SeleniumDriverClass | src/main/java/ledgerdb/scraper/Scraper.java:213-221 | The "org.openqa.selenium." name is chosen when it exists, otherwise the name as given when that exists; with neither, `Class.forName` throws `ClassNotFoundException` |
| ScraperMain.Teardown | src/main/java/ledgerdb/scraper/Scraper.java:192-202 | The session is always closed. Without `--keep` the driver is closed and then the browser quit; with it neither happens. The driver's `close` includes the base class's `quit`, whose exception is passed on like any other. An exception in teardown replaces the one from `run`, and success needs both to return |
| ScraperMain.ShutDown | src/main/java/ledgerdb/scraper/Scraper.java:197-200 | `scraperDriver.close()` logs out only when logged in, and `driver.quit()` runs only if close returned, that is if the logout and the base class's `quit` returned |
| ScraperMain.TeardownOrder | src/main/java/ledgerdb/scraper/Scraper.java:195-200 | When the logout and the base class's `quit` return, the order is session close, logout if logged in, count report, browser release if held, browser quit, whatever `run` did |
| ScraperMain.CloseTrace | src/main/java/ledgerdb/scraper/institution/pcfinancial/PcfinancialScraperDriver.java:185-189 | A `close` whose logout returns logs out if logged in, reports the counts, then calls the base class's `quit` if a browser is held |
| ScraperMain.KeepLeavesBrowser | src/main/java/ledgerdb/scraper/Scraper.java:197 | With `--keep` the browser and the login are left as they are, and a successful run is reported as such |
| Splits.JavaSplit | src/main/java/ledgerdb/scraper/KPScript.java:91 | `split` drops trailing empty strings, unless the text holds no separator at all |
| Splits.SplitAllJoin | src/main/java/ledgerdb/scraper/KPScript.java:91 | Joining the full split with the separator gives back the text |
| Splits.JavaSplitJoin | src/main/java/ledgerdb/scraper/KPScript.java:91-97 | The text is the join of Java's split followed by one separator per dropped empty string |
| KeePass.Open | src/main/java/ledgerdb/scraper/KPScript.java:28-38 | A missing file fails. A password without "@" is kept, "@path" is replaced by the first line of that file, and an empty file fails |
| KeePass.Argv | src/main/java/ledgerdb/scraper/KPScript.java:64-69 | The arguments are "KPScript", "-c:"+command, the file and "-pw:"+password, followed by the extra arguments |
| KeePass.Masked | src/main/java/ledgerdb/scraper/KPScript.java:70-75 | Every argument starting with "-pw:" is replaced by the mask, and the others are left unchanged |
| KeePass.MaskedArgvHidesPassword | src/main/java/ledgerdb/scraper/KPScript.java:64-75 | The logged command line shows the mask in place of the password |
| KeePass.Interpret | src/main/java/ledgerdb/scraper/KPScript.java:86-97 | A non-zero exit fails with that exit value. Success needs at least two lines, the last one the OK line, and returns the other lines so that the output is value + EOL + OK line + trailing EOLs |
| KeePass.InterpretKeepsOutput | src/main/java/ledgerdb/scraper/KPScript.java:91-97 | The returned value, the OK line and the dropped line separators make up the whole output |
| KeePass.InterpretOneLine | src/main/java/ledgerdb/scraper/KPScript.java:91-97 | Any one-line value followed by the OK line and a final newline is returned as that value |
| KeePass.GetEntry | src/main/java/ledgerdb/scraper/KPScript.java:40-45 | The tool is run with "-c:GetEntryString", "-ref-Title:"+title, "-FailIfNoEntry" and "-Field:"+field |
| KeePass.MaskPassword | src/main/java/ledgerdb/scraper/KPScript.java:57 | A "S: Password =" line shows the mask up to the first line terminator; other lines are unchanged |
| KeePass.ShownLines | src/main/java/ledgerdb/scraper/KPScript.java:55-58 | Only "S: " lines are printed, and a password line is printed masked |
| KeePass.ListEntries | src/main/java/ledgerdb/scraper/KPScript.java:47-61 | Every printed line is empty or an "S: " line, and every password line starts with the mask; it fails exactly when the tool call fails |
| KeePass.BlankLinePerBlock | src/main/java/ledgerdb/scraper/KPScript.java:49-60 | Exactly one empty line is printed per block that is not the recycle bin group |
| Text.CollapseKeepsContent | src/main/java/ledgerdb/scraper/institution/rbc/RbcScraperDriver.java:92 | Collapsing whitespace runs keeps every other character, in order |

## Left out

- Selenium navigation, clicks, waits and page landmarks (titles, headings, the RBC "Bank Accounts" caption and summary checks, the Capital One "Open Drawer" link). A page is its cell texts; a landmark that is not found is a failure given as input.
- Account lists are read once. The drivers re-read the summary before each account and stop when it has shrunk (`i >= accountList.size()`). The model assumes the list is stable.
- HTTP transport, Jersey basic authentication and the reachability probe of the `ServerSession` constructor. A reply is a (status, body) input.
- Jackson/JSON encoding and decoding, including `InstitutionLinkDTO`: the lookup reply carries the decoded accountId.
- `ServerSession.close`, which `Scraper.scrape` calls, is not part of this model; its outcome is an input to `ScraperMain.Teardown`.
- `ObjectBuilder`, `SiteInfoBuilder`, `ScraperDriverFactory` and Guice injection: reflection and library calls. Driver choice is modelled as `ScraperMain.SelectDriverClass` over the class listing.
- Locale-dependent `DateTimeFormatter` parsing, an abstract `DateParser`; only ISO formatting is concrete.
- The `KPScript` process (spawning, waiting, reading output) and reading the password file; both are inputs.
- KeePass.ListEntries: promises only that a password line starts with the mask. `replaceFirst("^(S: Password =) .*", …)` stops at the first line terminator, so any part of a stored password after a `\n`, `\r`, U+0085, U+2028 or U+2029 is printed, as `KeePass.MaskPassword` states.
- commons-cli parsing: the parsed command line is an input.
- `Sleeper` and all timing; logging and console output (including the accountId trace in `merge`).
- Legacy PC Financial: its Java `assert`s only run with `-ea`. The header, non-empty account list and reference checks are taken as preconditions (`LegacyPcfinancial.ScrapeAccount`, `LegacyPcfinancial.ScrapeFrom`, `LegacyPcfinancial.Scrape`). The per-row asserts are not assumed: `LegacyPcfinancial.ReadRow` fails such a row instead.
- LegacyPcfinancial.ReadRow: a row failing the cell-shape, one-side or amount assertion is a state-check failure, as it would be with assertions on; without `-ea` the code would continue with an unchecked row.
- LegacyPcfinancial.MergeInfos: `StatementInfo` is not part of this model. Its `equals` is taken to compare every field but `sequence`, and the base-class `merge` it calls is an input accepting or rejecting each row.
- MBNA's username-refresh loop in `logIn` and the MFA page handling: page navigation.
- Lifecycle.LogIn: the Simplii (`SimpliiScraperDriver.java:195,205`) and RBC (`RbcScraperDriver.java:149,163`) drivers set and clear the same flag at the same points; one model stands for all of them.
- Sessions.LegacyMerge: states only the record and count growth; the full agreement with `Merge` is `Sessions.LegacyMergeAgrees`.
- A failed `list()` reaches the JVM as an uncaught exception; `ScraperMain.ExitCode` gives it the JVM's status 1.
- 32-bit `int` overflow of the counters and sequence numbers is not modelled; the numbers are unbounded.

=== FILE: account_loop.dfy ===
/** The account loop the institution drivers share: read the account's reference,
    pass over an account showing an alert, look the account up on the server, then
    merge the rows of its transaction table one by one. The first exception ends the
    run, whatever was merged before it stays merged.

    Page navigation is not modelled: an account is given as what the driver reads
    off its pages. A header check that fails is the rejected first row of its table. */
module AccountLoop {
  import opened Wrappers
  import opened Statements
  import opened Sessions

  /** One account: the reference read from its label (or the `checkState` that
      failed on it), whether an alert is shown, and the rows its transaction table
      turns into for a given accountId. */
  datatype Account = Account(reference: Result<string, Error>, alert: bool, rows: int -> seq<Row>)

  /** Where a run got to: the session, the references looked up in order, and the
      exception that ended the run, if any. */
  datatype Progress = Progress(session: Session, lookups: seq<string>, failure: Option<Error>)

  /** The references a run looks up, by definition: those of the accounts without an
      alert, up to the first account whose reference cannot be read. */
  function Lookups(accounts: seq<Account>): seq<string>
    decreases |accounts|
  {
    if |accounts| == 0 || accounts[0].reference.Failure? then []
    else (if accounts[0].alert then [] else [accounts[0].reference.value]) + Lookups(accounts[1..])
  }

  predicate Readable(accounts: seq<Account>) {
    forall i :: 0 <= i < |accounts| ==> accounts[i].reference.Success?
  }

  /** `for (account : accounts) { ... }` of the drivers. */
  function Visit(sess: Session, accounts: seq<Account>, institution: string, server: Server): (p: Progress)
    ensures Valid(sess) ==> Valid(p.session)
    ensures p.session.url == sess.url && p.session.institution == sess.institution
    ensures |sess.recorded| <= |p.session.recorded| && p.session.recorded[..|sess.recorded|] == sess.recorded
    ensures |p.lookups| <= |Lookups(accounts)| && p.lookups == Lookups(accounts)[..|p.lookups|]
    ensures !Readable(accounts) ==> p.failure.Some?
    ensures p.failure.None? ==> p.lookups == Lookups(accounts)
    decreases |accounts|
  {
    if |accounts| == 0 then Progress(sess, [], None)
    else
      var a := accounts[0];
      if a.reference.Failure? then Progress(sess, [], Some(a.reference.error))
      else
        LookupsCons(accounts);
        if a.alert then Visit(sess, accounts[1..], institution, server)
        else
          var reference := a.reference.value;
          match GetAccountId(sess, institution, reference, server)
          case Failure(e) => Progress(sess, [reference], Some(e))
          case Success(id) =>
            var m := MergeRows(sess, a.rows(id), server);
            MergeRowsValid(sess, a.rows(id), server);
            if m.failure.Some? then Progress(m.session, [reference], m.failure)
            else
              var rest := Visit(m.session, accounts[1..], institution, server);
              PrefixCons(reference, rest.lookups, Lookups(accounts[1..]));
              PrefixOfPrefix(rest.session.recorded, m.session.recorded, sess.recorded);
              Progress(rest.session, [reference] + rest.lookups, rest.failure)
  }

  /** `Lookups` and `Readable` of a list whose first reference can be read. */
  lemma {:induction false} LookupsCons(accounts: seq<Account>)
    requires |accounts| > 0 && accounts[0].reference.Success?
    ensures Lookups(accounts) ==
            (if accounts[0].alert then [] else [accounts[0].reference.value]) + Lookups(accounts[1..])
    ensures Readable(accounts) <==> Readable(accounts[1..])
  {
    assert forall i :: 1 <= i < |accounts| ==> accounts[i] == accounts[1..][i - 1];
  }

  /** Readable accounts none of which shows an alert are all looked up, in order. */
  lemma {:induction false} LookupsOfAlertFree(accounts: seq<Account>)
    requires Readable(accounts)
    requires forall i :: 0 <= i < |accounts| ==> !accounts[i].alert
    ensures |Lookups(accounts)| == |accounts|
    ensures forall i :: 0 <= i < |accounts| ==> Lookups(accounts)[i] == accounts[i].reference.value
    decreases |accounts|
  {
    if |accounts| > 0 {
      LookupsOfAlertFree(accounts[1..]);
    }
  }

  lemma PrefixCons<T>(x: T, a: seq<T>, b: seq<T>)
    requires |a| <= |b| && a == b[..|a|]
    ensures [x] + a == ([x] + b)[..1 + |a|]
  {
  }

  /** An account showing an alert might as well not be there: the run is the same
      without it, so its reference is never looked up and none of its rows is read. */
  lemma {:induction false} AlertSkipped(sess: Session, accounts: seq<Account>, i: nat, institution: string, server: Server)
    requires i < |accounts| && accounts[i].alert && accounts[i].reference.Success?
    ensures Visit(sess, accounts, institution, server) ==
            Visit(sess, accounts[..i] + accounts[i + 1..], institution, server)
    decreases i
  {
    var without := accounts[..i] + accounts[i + 1..];
    if i == 0 {
      assert without == accounts[1..];
    } else {
      assert without[0] == accounts[0];
      assert without[1..] == accounts[1..][..i - 1] + accounts[1..][i..];
      var a := accounts[0];
      if a.reference.Success? && !a.alert {
        var id := GetAccountId(sess, institution, a.reference.value, server);
        if id.Success? {
          var m := MergeRows(sess, a.rows(id.value), server);
          if m.failure.None? {
            AlertSkipped(m.session, accounts[1..], i - 1, institution, server);
          }
        }
      } else if a.reference.Success? {
        AlertSkipped(sess, accounts[1..], i - 1, institution, server);
      }
    }
  }

  /** A run over accounts that all show an alert reads nothing and records nothing. */
  lemma {:induction false} AllAlerts(sess: Session, accounts: seq<Account>, institution: string, server: Server)
    requires forall i :: 0 <= i < |accounts| ==> accounts[i].alert && accounts[i].reference.Success?
    ensures Visit(sess, accounts, institution, server) == Progress(sess, [], None)
    decreases |accounts|
  {
    if |accounts| > 0 {
      AllAlerts(sess, accounts[1..], institution, server);
    }
  }

  /** Rows that all name one account yield statements that all name it. */
  lemma {:induction false} AcceptedAccount(rows: seq<Row>, accountId: int)
    requires forall j :: 0 <= j < |rows| && rows[j].Accept? ==> rows[j].statement.accountId == accountId
    ensures forall k :: 0 <= k < |Accepted(rows)| ==> Accepted(rows)[k].accountId == accountId
    decreases |rows|
  {
    if |rows| > 0 {
      assert forall j :: 1 <= j < |rows| ==> rows[1..][j - 1] == rows[j];
      AcceptedAccount(rows[1..], accountId);
    }
  }

  /** A run over one account that completes records, after what was there, exactly
      one statement per accepted row of that account, each naming the account the
      server linked. */
  lemma {:induction false} SingleAccount(sess: Session, a: Account, institution: string, server: Server)
    requires a.reference.Success? && !a.alert
    requires var id := server.lookup(AccountTarget(sess.url, institution, a.reference.value)).accountId;
             forall j :: 0 <= j < |a.rows(id)| && a.rows(id)[j].Accept? ==> a.rows(id)[j].statement.accountId == id
    ensures var p := Visit(sess, [a], institution, server);
            var id := server.lookup(AccountTarget(sess.url, institution, a.reference.value)).accountId;
            p.failure.None? ==>
              && |p.session.recorded| == |sess.recorded| + |Accepted(a.rows(id))|
              && forall k :: |sess.recorded| <= k < |p.session.recorded| ==> p.session.recorded[k].accountId == id
  {
    var p := Visit(sess, [a], institution, server);
    var id := server.lookup(AccountTarget(sess.url, institution, a.reference.value)).accountId;
    if p.failure.None? {
      var look := GetAccountId(sess, institution, a.reference.value, server);
      assert look.Success? && look.value == id;
      var m := MergeRows(sess, a.rows(id), server);
      assert m.failure.None?;
      assert [a][1..] == [];
      assert Visit(m.session, [a][1..], institution, server) == Progress(m.session, [], None);
      assert p.session == m.session;
      AcceptedAccount(a.rows(id), id);
      forall k | |sess.recorded| <= k < |p.session.recorded|
        ensures p.session.recorded[k].accountId == id
      {
        assert EqualsExceptSequence(m.session.recorded[|sess.recorded| + (k - |sess.recorded|)],
                                    Accepted(a.rows(id))[k - |sess.recorded|]);
      }
    }
  }
}

=== FILE: amounts.dfy ===
/** The amount cells of the institution pages: the pattern each driver demands, the
    characters it keeps, and how the debit/credit (or withdrawal/deposit) column
    decides the sign. */
module Amounts {
  import opened Wrappers
  import opened Text
  import opened Digits
  import opened Decimals

  /** `[\d,]+`: digits with thousands separators, at least one character. */
  predicate IsGrouped(s: string) {
    |s| > 0 && forall i :: 0 <= i < |s| ==> IsDigit(s[i]) || s[i] == ','
  }

  /** `\.\d\d`. */
  predicate IsCents(s: string) {
    |s| == 3 && s[0] == '.' && IsDigit(s[1]) && IsDigit(s[2])
  }

  /** `amount.matches("^\\$[\\d,]+(\\.\\d\\d)?$")`. */
  predicate MatchesDollars(t: string) {
    && |t| >= 2 && t[0] == '$'
    && (IsGrouped(t[1..]) || (|t| >= 5 && IsGrouped(t[1..|t| - 3]) && IsCents(t[|t| - 3..])))
  }

  /** `amount.matches("^\\$[\\d,]+\\.\\d\\d$")`. */
  predicate MatchesDollarsCents(t: string) {
    |t| >= 5 && t[0] == '$' && IsGrouped(t[1..|t| - 3]) && IsCents(t[|t| - 3..])
  }

  /** The text after an optional leading minus sign: `-?`. */
  function Unsigned(t: string): (u: string)
    ensures |u| <= |t|
  {
    if |t| > 0 && t[0] == '-' then t[1..] else t
  }

  /** `amount.matches("^-?\\$[\\d,]+(\\.\\d\\d)?$")`. */
  predicate MatchesSignedDollars(t: string) {
    MatchesDollars(Unsigned(t))
  }

  /** `amount.matches("^-?\\$[\\d,]+\\.\\d\\d$")`. */
  predicate MatchesSignedDollarsCents(t: string) {
    MatchesDollarsCents(Unsigned(t))
  }

  predicate IsDigitOrDot(c: char) {
    IsDigit(c) || c == '.'
  }

  predicate IsSignDigitOrDot(c: char) {
    IsDigit(c) || c == '.' || c == '-'
  }

  /** `amount.replaceAll("[^\\d.]", "")`. */
  function DigitsAndDot(t: string): (r: string)
    ensures forall i :: 0 <= i < |r| ==> IsDigitOrDot(r[i])
  {
    Filter(t, IsDigitOrDot)
  }

  /** `amount.replaceAll("[^-\\d.]", "")`. */
  function SignDigitsAndDot(t: string): (r: string)
    ensures forall i :: 0 <= i < |r| ==> IsSignDigitOrDot(r[i])
  {
    Filter(t, IsSignDigitOrDot)
  }

  /** `new BigDecimal(text)`, failing with `NumberFormatException`. */
  function ToDecimal(text: string): (r: Result<Decimal, Error>)
    ensures r.Success? <==> Parse(text).Some?
    ensures r.Success? ==> r.value == Parse(text).value
    ensures r.Failure? ==> r.error == NumberFormat
  {
    match Parse(text)
    case None => Failure(NumberFormat)
    case Some(d) => Success(d)
  }

  /** The amount column a row uses: `checkState(dr.equals("") != cr.equals(""))`, then
      the non-empty one, flagged as a debit when the credit is the empty one. */
  datatype Side = Side(text: string, debit: bool)

  function ChooseSide(dr: string, cr: string): (r: Result<Side, Error>)
    ensures r.Success? <==> (dr == "") != (cr == "")
    ensures r.Success? ==> (r.value.debit <==> cr == "")
    ensures r.Success? ==> r.value.text == (if cr == "" then dr else cr) && r.value.text != ""
    ensures r.Failure? ==> r.error == StateCheckFailed
  {
    if (dr == "") == (cr == "") then Failure(StateCheckFailed)
    else if cr == "" then Success(Side(dr, true))
    else Success(Side(cr, false))
  }

  /** `PcfinancialScraperDriver.run`: the unsigned residue as a decimal, negated when it
      came from the debit ("Funds out") column. */
  function PcfinancialAmount(dr: string, cr: string): (r: Result<Decimal, Error>)
    ensures r.Success? ==> ChooseSide(dr, cr).Success? && MatchesDollars(ChooseSide(dr, cr).value.text)
    ensures r.Success? ==> r.value.unscaled <= 0 || cr != ""
    ensures r.Success? ==> r.value.unscaled >= 0 || dr != ""
    ensures r.Success? ==>
              var side := ChooseSide(dr, cr).value;
              var v := Parse(DigitsAndDot(side.text));
              v.Some? && r.value == (if side.debit then Negate(v.value) else v.value)
    ensures ChooseSide(dr, cr).Success? && MatchesDollars(ChooseSide(dr, cr).value.text) ==>
              (r.Success? <==> Parse(DigitsAndDot(ChooseSide(dr, cr).value.text)).Some?)
  {
    var side :- ChooseSide(dr, cr);
    if !MatchesDollars(side.text) then Failure(StateCheckFailed)
    else
      var d :- ToDecimal(DigitsAndDot(side.text));
      UnsignedParse(DigitsAndDot(side.text));
      Success(if side.debit then Negate(d) else d)
  }

  /** `SimpliiScraperDriver.scrapeTable`: the unsigned residue, prefixed with "-" when it
      came from the debit column, then read as a decimal. */
  function SimpliiAmount(dr: string, cr: string): (r: Result<Decimal, Error>)
    ensures ChooseSide(dr, cr).Failure? ==> r == Failure(StateCheckFailed)
    ensures ChooseSide(dr, cr).Success? && !MatchesDollars(ChooseSide(dr, cr).value.text) ==> r == Failure(StateCheckFailed)
    ensures ChooseSide(dr, cr).Success? && MatchesDollars(ChooseSide(dr, cr).value.text) ==>
              var v := Parse(DigitsAndDot(ChooseSide(dr, cr).value.text));
              && (r.Success? <==> v.Some?)
              && (r.Success? ==> r.value == if ChooseSide(dr, cr).value.debit then Negate(v.value) else v.value)
  {
    var side :- ChooseSide(dr, cr);
    if !MatchesDollars(side.text) then Failure(StateCheckFailed)
    else
      var residue := DigitsAndDot(side.text);
      assert forall i :: 0 <= i < |residue| ==> residue[i] != '-';
      ParseMinus(residue);
      ToDecimal(if side.debit then "-" + residue else residue)
  }

  /** Text without a minus sign never parses to a negative number. */
  lemma {:induction false} UnsignedParse(body: string)
    requires forall i :: 0 <= i < |body| ==> body[i] != '-'
    ensures Parse(body).Some? ==> Parse(body).value.unscaled >= 0
  {
  }

  /** Parsing "-" followed by unsigned text negates what the text alone parses to; the
      empty text fails either way. */
  lemma {:induction false} ParseMinus(body: string)
    requires forall i :: 0 <= i < |body| ==> body[i] != '-'
    ensures Parse("-" + body).Some? <==> Parse(body).Some?
    ensures Parse(body).Some? ==> Parse("-" + body).value == Negate(Parse(body).value)
  {
    assert ("-" + body)[1..] == body;
  }

  /** Negating the decimal (one site) and prefixing the text with "-" (the other) give
      the same amount, failures included. */
  lemma {:induction false} SimpliiAgreesWithPcfinancial(dr: string, cr: string)
    ensures SimpliiAmount(dr, cr) == PcfinancialAmount(dr, cr)
  {
    var side := ChooseSide(dr, cr);
    if side.Success? && MatchesDollars(side.value.text) {
      var residue := DigitsAndDot(side.value.text);
      assert forall i :: 0 <= i < |residue| ==> residue[i] != '-';
      ParseMinus(residue);
    }
  }

  /** `RbcScraperDriver.scrape`: exactly one of withdrawals/deposit is non-blank, the
      chosen text matches `^-?\$[\d,]+\.\d\d$`, it carries a "-" exactly when it is the
      withdrawal, and the signed residue is the amount. */
  function RbcAmount(withdrawals: string, deposit: string): (r: Result<Decimal, Error>)
    ensures r.Success? ==> IsBlank(withdrawals) != IsBlank(deposit)
    ensures r.Success? && IsBlank(deposit) ==> StartsWith(withdrawals, "-") && MatchesSignedDollarsCents(withdrawals)
    ensures r.Success? && IsBlank(withdrawals) ==> !StartsWith(deposit, "-") && MatchesDollarsCents(deposit)
    ensures r.Success? ==>
              var amount := if IsBlank(withdrawals) then deposit else withdrawals;
              Parse(SignDigitsAndDot(amount)).Some? && r.value == Parse(SignDigitsAndDot(amount)).value
  {
    if IsBlank(withdrawals) == IsBlank(deposit) then Failure(StateCheckFailed)
    else
      var fromWithdrawals := !IsBlank(withdrawals);
      var amount := if fromWithdrawals then withdrawals else deposit;
      if !MatchesSignedDollarsCents(amount) then Failure(StateCheckFailed)
      // `amount == (amount.startsWith("-") ? amount1 : amount2)` compares references:
      // the two cell texts are distinct objects, so it holds exactly when the sign
      // agrees with the column.
      else if StartsWith(amount, "-") != fromWithdrawals then Failure(StateCheckFailed)
      else ToDecimal(SignDigitsAndDot(amount))
  }

  /** MBNA (`^-?\$[\d,]+(\.\d\d)?$`) and Capital One (`^-?\$[\d,]+\.\d\d$`): the signed
      residue, negated. `withCents` selects the Capital One pattern. */
  function NegatedAmount(amount: string, withCents: bool): (r: Result<Decimal, Error>)
    ensures r.Success? ==> (if withCents then MatchesSignedDollarsCents(amount) else MatchesSignedDollars(amount))
    ensures r.Success? ==> Parse(SignDigitsAndDot(amount)).Some? && r.value == Negate(Parse(SignDigitsAndDot(amount)).value)
  {
    var matches := if withCents then MatchesSignedDollarsCents(amount) else MatchesSignedDollars(amount);
    if !matches then Failure(StateCheckFailed)
    else
      match ToDecimal(SignDigitsAndDot(amount))
      case Failure(e) => Failure(e)
      case Success(d) => Success(Negate(d))
  }

  /** The legacy MBNA driver: `^\$[\d,]+(\.\d\d)?$`, so a signed text is rejected; the
      unsigned residue is negated. */
  function LegacyNegatedAmount(amount: string): (r: Result<Decimal, Error>)
    ensures r.Success? ==> MatchesDollars(amount) && !StartsWith(amount, "-")
    ensures r.Success? ==> r.value.unscaled <= 0
  {
    if !MatchesDollars(amount) then Failure(StateCheckFailed)
    else
      var d :- ToDecimal(DigitsAndDot(amount));
      UnsignedParse(DigitsAndDot(amount));
      Success(Negate(d))
  }

  /** Two filters that decide alike on every character of `s` keep the same text. */
  lemma {:induction false} FilterAlike(s: string, a: char -> bool, b: char -> bool)
    requires forall i :: 0 <= i < |s| ==> a(s[i]) == b(s[i])
    ensures Filter(s, a) == Filter(s, b)
    decreases |s|
  {
    if |s| > 0 {
      assert forall i :: 0 <= i < |s| - 1 ==> s[1..][i] == s[i + 1];
      FilterAlike(s[1..], a, b);
    }
  }

  /** A text of the unsigned dollar pattern holds no minus sign anywhere. */
  lemma {:induction false} DollarsUnsigned(t: string)
    requires MatchesDollars(t)
    ensures forall i :: 0 <= i < |t| ==> t[i] != '-'
  {
    forall i | 0 < i < |t|
      ensures t[i] != '-'
    {
      if IsGrouped(t[1..]) {
        assert t[1..][i - 1] == t[i];
      } else if i < |t| - 3 {
        assert t[1..|t| - 3][i - 1] == t[i];
      } else {
        assert t[|t| - 3..][i - (|t| - 3)] == t[i];
      }
    }
  }

  /** The legacy MBNA reading and the newer one agree on every text without a leading
      minus sign; a text with one, which the newer driver reads as a payment, the
      legacy driver rejects. */
  lemma {:induction false} LegacyNegatedAgrees(t: string)
    ensures !StartsWith(t, "-") ==> LegacyNegatedAmount(t) == NegatedAmount(t, false)
    ensures StartsWith(t, "-") ==> LegacyNegatedAmount(t) == Failure(StateCheckFailed)
  {
    if StartsWith(t, "-") {
      assert t[..1][0] == '-';
    } else {
      assert |t| == 0 || t[0] != '-' by {
        if |t| > 0 {
          assert t[..1][0] == t[0];
        }
      }
      assert Unsigned(t) == t;
      if MatchesDollars(t) {
        DollarsUnsigned(t);
        FilterAlike(t, IsDigitOrDot, IsSignDigitOrDot);
      }
    }
  }

  // ----- Round trips: a decimal shown the way the sites show it is read back -----

  /** The amount texts a site shows for `d >= 0` with no or two fraction digits. */
  predicate IsDisplayable(d: Decimal) {
    d.unscaled >= 0 && (d.scale == 0 || d.scale == 2)
  }

  lemma {:induction false} PlainDigitsShape(m: nat, scale: nat)
    requires scale == 0 || scale == 2
    ensures var p := PlainDigits(m, scale);
            && (forall i :: 0 <= i < |p| ==> IsDigitOrDot(p[i]))
            && (scale == 0 ==> IsGrouped(p))
            && (scale == 2 ==> |p| >= 4 && IsGrouped(p[..|p| - 3]) && IsCents(p[|p| - 3..]))
  {
    var p := PlainDigits(m, scale);
    if scale == 2 {
      var w := Show(ShiftRight(m, 2));
      var f := PadLeft(Show(LowDigits(m, 2)), 2);
      ShowWidth(LowDigits(m, 2), 2);
      assert p == w + "." + f;
      assert p[..|p| - 3] == w;
      assert p[|p| - 3..] == "." + f;
    }
  }

  /** "$" followed by the plain rendering passes the unsigned pattern, and its residue
      is the plain rendering again. */
  lemma {:induction false} DollarTextShape(d: Decimal)
    requires IsDisplayable(d)
    ensures var t := "$" + PlainString(d);
            && MatchesDollars(t) && DigitsAndDot(t) == PlainString(d)
            && (d.scale == 2 ==> MatchesDollarsCents(t))
  {
    var p := PlainString(d);
    assert p == PlainDigits(Magnitude(d), d.scale);
    PlainDigitsShape(Magnitude(d), d.scale);
    DollarMatches(p);
    DollarResidue(p);
  }

  lemma {:induction false} DollarMatches(p: string)
    requires IsGrouped(p) || (|p| >= 4 && IsGrouped(p[..|p| - 3]) && IsCents(p[|p| - 3..]))
    ensures MatchesDollars("$" + p)
    ensures |p| >= 4 && IsGrouped(p[..|p| - 3]) && IsCents(p[|p| - 3..]) ==> MatchesDollarsCents("$" + p)
  {
    var t := "$" + p;
    assert t[1..] == p;
    if |p| >= 4 {
      assert t[1..|t| - 3] == p[..|p| - 3];
      assert t[|t| - 3..] == p[|p| - 3..];
    }
  }

  lemma {:induction false} DollarResidue(p: string)
    requires forall i :: 0 <= i < |p| ==> IsDigitOrDot(p[i])
    ensures DigitsAndDot("$" + p) == p
  {
    FilterConcat("$", p, IsDigitOrDot);
  }

  /** A credit shown as "$" + its plain text is read back as itself, and the same text
      in the debit column as its negation. */
  lemma {:induction false} PcfinancialRoundTrip(d: Decimal)
    requires IsDisplayable(d)
    ensures PcfinancialAmount("", "$" + PlainString(d)) == Success(d)
    ensures PcfinancialAmount("$" + PlainString(d), "") == Success(Negate(d))
  {
    DollarTextShape(d);
    ParsePlainString(d);
  }

  /** When the checks pass, RBC's amount is the signed residue of the chosen text. */
  lemma {:induction false} RbcAmountAccepts(withdrawals: string, deposit: string, amount: string)
    requires IsBlank(withdrawals) != IsBlank(deposit)
    requires amount == if IsBlank(withdrawals) then deposit else withdrawals
    requires MatchesSignedDollarsCents(amount)
    requires StartsWith(amount, "-") == !IsBlank(withdrawals)
    ensures RbcAmount(withdrawals, deposit) == ToDecimal(SignDigitsAndDot(amount))
  {
  }

  /** A text starting with '$' or '-' is not blank. */
  lemma {:induction false} NotBlank(t: string)
    requires |t| > 0 && (t[0] == '$' || t[0] == '-')
    ensures !IsBlank(t)
  {
    assert !IsWhitespace(t[0]);
  }

  /** RBC shows a deposit as "$" + plain text; it is read back as itself. */
  lemma {:induction false} RbcDepositRoundTrip(d: Decimal)
    requires IsDisplayable(d) && d.scale == 2
    ensures RbcAmount("", "$" + PlainString(d)) == Success(d)
  {
    var p := PlainString(d);
    DollarTextShape(d);
    ParseFirstDigit(d);
    SignedResidue("$" + p, p);
    RbcDeposit("$" + p, p, d);
  }

  lemma {:induction false} RbcDeposit(t: string, p: string, d: Decimal)
    requires t == "$" + p && MatchesDollarsCents(t)
    requires SignDigitsAndDot(t) == p && Parse(p) == Some(d)
    ensures RbcAmount("", t) == Success(d)
  {
    NotBlank(t);
    assert IsBlank("");
    assert Unsigned(t) == t;
    assert !StartsWith(t, "-") by {
      assert t[..1][0] == '$';
    }
    RbcAmountAccepts("", t, t);
  }

  /** RBC shows a withdrawal as "-$" + plain text; it is read back negated. */
  lemma {:induction false} RbcWithdrawalRoundTrip(d: Decimal)
    requires IsDisplayable(d) && d.scale == 2
    ensures RbcAmount("-$" + PlainString(d), "") == Success(Negate(d))
  {
    var p := PlainString(d);
    var t := "$" + p;
    var w := "-" + t;
    assert "-$" + p == w;
    DollarTextShape(d);
    NotBlank(w);
    assert Unsigned(w) == t;
    assert StartsWith(w, "-");
    SignedResidue(t, p);
    ParseFirstDigit(d);
    ParseNegative(p);
    RbcAmountAccepts(w, "", w);
  }

  /** The plain rendering of a non-negative decimal starts with a digit and parses. */
  lemma {:induction false} ParseFirstDigit(d: Decimal)
    requires d.unscaled >= 0
    ensures var p := PlainString(d);
            |p| > 0 && IsDigit(p[0]) && Parse(p) == Some(d)
  {
    ParsePlainDigits(Magnitude(d), d.scale);
    assert PlainString(d) == PlainDigits(Magnitude(d), d.scale);
  }

  /** The signed residue of an unsigned dollar text is its unsigned residue, and a
      leading "-" survives. */
  lemma {:induction false} SignedResidue(t: string, p: string)
    requires t == "$" + p && forall i :: 0 <= i < |p| ==> IsDigitOrDot(p[i])
    ensures SignDigitsAndDot(t) == p
    ensures SignDigitsAndDot("-" + t) == "-" + p
  {
    FilterConcat("$", p, IsSignDigitOrDot);
    FilterConcat("-", t, IsSignDigitOrDot);
  }

  /** Thousands separators are dropped before the text is read: a comma anywhere does
      not change the residue. */
  lemma {:induction false} SeparatorIgnored(a: string, b: string)
    ensures DigitsAndDot(a + "," + b) == DigitsAndDot(a + b)
    ensures SignDigitsAndDot(a + "," + b) == SignDigitsAndDot(a + b)
  {
    FilterSkips(a, ',', b, IsDigitOrDot);
    FilterSkips(a, ',', b, IsSignDigitOrDot);
  }

  /** A character the filter rejects leaves no trace. */
  lemma {:induction false} FilterSkips(a: string, c: char, b: string, keep: char -> bool)
    requires !keep(c)
    ensures Filter(a + [c] + b, keep) == Filter(a + b, keep)
  {
    assert a + [c] + b == a + ([c] + b);
    FilterConcat(a, [c] + b, keep);
    FilterConcat([c], b, keep);
    FilterConcat(a, b, keep);
  }

  /** MBNA and Capital One show a charge as "$" + plain text and a payment as
      "-$" + plain text; the stored amount is the charge negated, the payment as is. */
  lemma {:induction false} NegatedRoundTrip(d: Decimal, withCents: bool)
    requires IsDisplayable(d) && (withCents ==> d.scale == 2)
    ensures NegatedAmount("$" + PlainString(d), withCents) == Success(Negate(d))
    ensures NegatedAmount("-$" + PlainString(d), withCents) == Success(d)
  {
    ChargeNegated(d, withCents);
    PaymentKept(d, withCents);
  }

  lemma {:induction false} ChargeNegated(d: Decimal, withCents: bool)
    requires IsDisplayable(d) && (withCents ==> d.scale == 2)
    ensures NegatedAmount("$" + PlainString(d), withCents) == Success(Negate(d))
  {
    var p := PlainString(d);
    var t := "$" + p;
    DollarTextShape(d);
    assert Unsigned(t) == t;
    SignedResidue(t, p);
    ParseFirstDigit(d);
  }

  lemma {:induction false} PaymentKept(d: Decimal, withCents: bool)
    requires IsDisplayable(d) && (withCents ==> d.scale == 2)
    ensures NegatedAmount("-$" + PlainString(d), withCents) == Success(d)
  {
    var p := PlainString(d);
    var t := "$" + p;
    var w := "-" + t;
    assert "-$" + p == w;
    DollarTextShape(d);
    assert Unsigned(w) == t;
    assert if withCents then MatchesSignedDollarsCents(w) else MatchesSignedDollars(w);
    SignedResidue(t, p);
    ParseFirstDigit(d);
    ParseNegative(p);
    assert Parse(SignDigitsAndDot(w)) == Some(Negate(d));
    assert Negate(Negate(d)) == d;
  }
}

=== FILE: capitalone.dfy ===
/** `CapitalOneScraperDriver.scrape`: the one account whose masked number "...digits"
    is the reference, and its posted-transactions grid, each row read together with
    the description its drawer shows once opened. */
module CapitalOne {
  import opened Wrappers
  import opened Text
  import opened Decimals
  import opened IsoDate
  import opened Statements
  import opened Sessions
  import opened Amounts
  import opened References
  import opened AccountLoop

  const Institution: string := "capitalone"

  /** How often `findElement` polls before its final lookup, at most. */
  const MaxPolls: nat := 10

  /** How many `findElements` calls `findElement` makes, counting from poll `i`: up to
      and including the first that finds something, and no more than `MaxPolls`.
      `found(j)` is what call `j` finds; the page may change between calls. */
  function PollCount(found: nat -> Option<string>, i: nat): (n: nat)
    requires i <= MaxPolls
    ensures i <= n <= MaxPolls
    decreases MaxPolls - i
  {
    if i == MaxPolls then MaxPolls
    else if found(i).Some? then i + 1
    else PollCount(found, i + 1)
  }

  /** What a `findElement` lookup returns: the element, or `NoSuchElementException`. */
  function Lookup(found: Option<string>): (r: Result<string, Error>)
    ensures r.Success? <==> found.Some?
    ensures r.Success? ==> r.value == found.value
    ensures r.Failure? ==> r.error == NoSuchElement
  {
    match found
    case None => Failure(NoSuchElement)
    case Some(e) => Success(e)
  }

  /** `findElement(parent, xpath)`: poll until something is found, at most `MaxPolls`
      times (the one-second sleeps are left out), then look it up once more; that last
      lookup decides. */
  method FindElement(found: nat -> Option<string>) returns (r: Result<string, Error>, polls: nat)
    ensures 1 <= polls <= MaxPolls && polls == PollCount(found, 0)
    ensures forall j :: 0 <= j < polls - 1 ==> found(j).None?
    ensures polls < MaxPolls ==> found(polls - 1).Some?
    ensures r == Lookup(found(polls))
  {
    polls := 0;
    while polls < MaxPolls
      invariant polls <= MaxPolls
      invariant forall j :: 0 <= j < polls ==> found(j).None?
      invariant PollCount(found, polls) == PollCount(found, 0)
    {
      if found(polls).Some? {
        polls := polls + 1;
        break;
      }
      polls := polls + 1;
    }
    r := Lookup(found(polls));
  }

  /** Drops the leading ASCII letters: `replaceFirst("^[A-Za-z]+", "")`. */
  function DropLetters(s: string): (r: string)
    ensures |r| <= |s| && r == s[|s| - |r|..]
    ensures forall k :: 0 <= k < |s| - |r| ==> IsAsciiLetter(s[k])
    ensures |r| > 0 ==> !IsAsciiLetter(r[0])
  {
    if |s| > 0 && IsAsciiLetter(s[0]) then DropLetters(s[1..]) else s
  }

  /** The date cell without its drawer label: every whitespace character removed, then
      the leading letters ("OpenDrawer", "CloseDrawer"). */
  function CleanDate(text: string): string {
    DropLetters(Filter(text, IsNotRegexSpace))
  }

  /** A date written after a drawer label of letters and spaces comes out as written. */
  lemma {:induction false} CleanDateOfLabel(tag: string, date: string)
    requires forall k :: 0 <= k < |tag| ==> IsAsciiLetter(tag[k]) || IsRegexSpace(tag[k])
    requires forall k :: 0 <= k < |date| ==> IsNotRegexSpace(date[k])
    requires |date| > 0 ==> !IsAsciiLetter(date[0])
    ensures CleanDate(tag + date) == date
  {
    FilterConcat(tag, date, IsNotRegexSpace);
    FilteredLetters(tag);
    DropLettersPrefix(Filter(tag, IsNotRegexSpace), date);
  }

  /** Letters and spaces without the spaces are letters. */
  lemma {:induction false} FilteredLetters(tag: string)
    requires forall k :: 0 <= k < |tag| ==> IsAsciiLetter(tag[k]) || IsRegexSpace(tag[k])
    ensures forall k :: 0 <= k < |Filter(tag, IsNotRegexSpace)| ==> IsAsciiLetter(Filter(tag, IsNotRegexSpace)[k])
    decreases |tag|
  {
    if |tag| > 0 {
      assert forall k :: 1 <= k < |tag| ==> tag[1..][k - 1] == tag[k];
      FilteredLetters(tag[1..]);
      var head: string := if IsNotRegexSpace(tag[0]) then [tag[0]] else [];
      var tail := Filter(tag[1..], IsNotRegexSpace);
      assert forall j :: 0 <= j < |tail| ==> IsAsciiLetter(tail[j]);
      assert Filter(tag, IsNotRegexSpace) == head + tail;
      forall k | 0 <= k < |head + tail|
        ensures IsAsciiLetter((head + tail)[k])
      {
        if k >= |head| {
          assert (head + tail)[k] == tail[k - |head|];
        } else {
          assert (head + tail)[k] == tag[0] && IsNotRegexSpace(tag[0]);
        }
      }
    }
  }

  lemma {:induction false} DropLettersPrefix(letters: string, rest: string)
    requires forall k :: 0 <= k < |letters| ==> IsAsciiLetter(letters[k])
    requires |rest| > 0 ==> !IsAsciiLetter(rest[0])
    ensures DropLetters(letters + rest) == rest
    decreases |letters|
  {
    if |letters| > 0 {
      assert (letters + rest)[1..] == letters[1..] + rest;
      DropLettersPrefix(letters[1..], rest);
    } else {
      assert letters + rest == rest;
    }
  }

  /** A row of the grid: the texts of its `gridcell`s, and what each lookup of the
      "appears_as" text in its opened drawer finds. */
  datatype GridRow = GridRow(cells: seq<string>, drawer: nat -> Option<string>)

  /** One transaction row: five cells, the drawer's description (as `FindElement`
      finds it), the cleaned "M/dd/yy" date, and the negated amount. */
  function ReadRow(cells: seq<string>, appearsAs: Result<string, Error>, accountId: int, parse: DateParser): (r: Row)
    ensures !r.Skip?
    ensures |cells| != 5 ==> r == Reject(StateCheckFailed)
    ensures |cells| == 5 && appearsAs.Failure? ==> r == Reject(appearsAs.error)
    ensures r.Accept? <==>
              |cells| == 5 && appearsAs.Success? && parse(CleanDate(cells[0])).Some?
              && NegatedAmount(cells[4], true).Success?
    ensures r.Accept? ==>
              && r.statement.accountId == accountId && r.statement.sequence == 0
              && r.statement.date == Some(FormatIso(parse(CleanDate(cells[0])).value))
              && r.statement.description == Some(NormalizeDescription(appearsAs.value))
              && r.statement.amount == Some(NegatedAmount(cells[4], true).value)
  {
    if |cells| != 5 then Reject(StateCheckFailed)
    else match appearsAs
      case Failure(e) => Reject(e)
      case Success(text) =>
        match WithParsedDate(Blank.(accountId := accountId), CleanDate(cells[0]), parse)
        case Failure(e) => Reject(e)
        case Success(dated) =>
          var described := WithDescription(dated, text);
          match NegatedAmount(cells[4], true)
          case Failure(e) => Reject(e)
          case Success(amount) => Accept(described.(amount := Some(amount)))
  }

  /** The cells of a transaction as the grid shows it: the date after the drawer
      label, a charge as "$" + its digits, a payment as "-$" + its digits. */
  function Shown(tag: string, date: string, middle: seq<string>, amount: Decimal, payment: bool): seq<string> {
    [tag + date] + middle + [(if payment then "-$" else "$") + PlainString(amount)]
  }

  /** A transaction shown in the grid is read back with charges negative and
      payments positive, whatever drawer label precedes its date. */
  lemma {:induction false} ReadShownRow(d: LocalDate, tag: string, date: string, middle: seq<string>, description: string,
                     amount: Decimal, payment: bool, accountId: int, parse: DateParser)
    requires forall k :: 0 <= k < |tag| ==> IsAsciiLetter(tag[k]) || IsRegexSpace(tag[k])
    requires forall k :: 0 <= k < |date| ==> IsNotRegexSpace(date[k])
    requires |date| > 0 ==> !IsAsciiLetter(date[0])
    requires parse(date) == Some(d) && IsDisplayable(amount) && amount.scale == 2 && |middle| == 3
    ensures ReadRow(Shown(tag, date, middle, amount, payment), Success(description), accountId, parse) ==
            Accept(Statement(Some(FormatIso(d)), accountId, Some(if payment then amount else Negate(amount)),
                             Some(NormalizeDescription(description)), 0))
  {
    var cells := Shown(tag, date, middle, amount, payment);
    assert |cells| == 5 && cells[0] == tag + date;
    assert cells[4] == (if payment then "-$" else "$") + PlainString(amount);
    CleanDateOfLabel(tag, date);
    NegatedRoundTrip(amount, true);
  }

  /** The drawer's description as `findElement` ends up finding it. */
  function Drawer(row: GridRow): Result<string, Error> {
    Lookup(row.drawer(PollCount(row.drawer, 0)))
  }

  /** The grid has no header row: every row is a transaction, in page order. */
  function ReadGrid(grid: seq<GridRow>, accountId: int, parse: DateParser): (rows: seq<Row>)
    ensures |rows| == |grid|
    ensures forall j :: 0 <= j < |grid| ==> rows[j] == ReadRow(grid[j].cells, Drawer(grid[j]), accountId, parse)
  {
    seq(|grid|, j requires 0 <= j < |grid| => ReadRow(grid[j].cells, Drawer(grid[j]), accountId, parse))
  }

  /** `checkState(ref.startsWith("..."))`, then `checkState` that the rest is digits. */
  function Reference(text: string): (r: Result<string, Error>)
    ensures r.Success? <==> StartsWith(text, "...") && IsDigits(text[3..])
    ensures r.Success? ==> text == "..." + r.value
    ensures r.Failure? ==> r.error == StateCheckFailed
  {
    match CapitalOneReference(text)
    case None => Failure(StateCheckFailed)
    case Some(digits) => Success(digits)
  }

  function Scrape(sess: Session, number: string, grid: seq<GridRow>, server: Server, parse: DateParser): (p: Progress)
    ensures Valid(sess) ==> Valid(p.session)
    ensures Reference(number).Failure? ==> p == Progress(sess, [], Some(StateCheckFailed))
    ensures p.failure.None? ==> p.lookups == [number[3..]]
  {
    Visit(sess, [Account(Reference(number), false, id => ReadGrid(grid, id, parse))], Institution, server)
  }
}

=== FILE: decimal.dfy ===
/** Exact decimals, standing for `java.math.BigDecimal` as the statement amounts use
    it: construction from a string, negation, and scale-sensitive equality. */
module Decimals {
  import opened Wrappers
  import opened Text
  import opened Digits

  /** The number `unscaled × 10^-scale`. `BigDecimal.equals` compares both
      components, so `==` on this datatype is that `equals`: 10.0 is not 10.00. */
  datatype Decimal = Decimal(unscaled: int, scale: nat)

  /** `BigDecimal.negate()`. */
  function Negate(d: Decimal): Decimal {
    Decimal(-d.unscaled, d.scale)
  }

  /** `a.compareTo(b) == 0`: the same number whatever the scales. */
  predicate SameValue(a: Decimal, b: Decimal) {
    a.unscaled * Pow10(b.scale) == b.unscaled * Pow10(a.scale)
  }

  /** `setScale(d.scale + k)`: `k` zeros appended to the unscaled value. */
  function Rescale(d: Decimal, k: nat): Decimal {
    Decimal(d.unscaled * Pow10(k), d.scale + k)
  }

  /** Equality of amounts is scale-sensitive: rescaling keeps the value but, unless
      nothing was appended, makes a different amount (10.0 is not 10.00). */
  lemma {:induction false} EqualsIsScaleSensitive(d: Decimal, k: nat)
    ensures SameValue(d, Rescale(d, k))
    ensures d == Rescale(d, k) <==> k == 0
  {
    var p, q := Pow10(d.scale), Pow10(k);
    Pow10Add(d.scale, k);
    calc {
      d.unscaled * Pow10(d.scale + k);
      d.unscaled * (p * q);
      { MulAssoc(d.unscaled, p, q); }
      (d.unscaled * q) * p;
    }
  }

  lemma {:induction false} MulAssoc(a: int, p: int, q: int)
    ensures a * (p * q) == (a * q) * p
  {
  }

  /** `new BigDecimal(s)` on numerals made of an optional '-', digits and at most one
      '.', with at least one digit; the scale is the number of fraction digits.
      `None` is the `NumberFormatException`. */
  function Parse(s: string): (r: Option<Decimal>)
    ensures r.Some? ==> 0 < |s| && r.value.scale < |s|
    ensures r.Some? && r.value.unscaled < 0 ==> s[0] == '-'
    ensures OnlyDigits(s) ==> (r.Some? <==> |s| > 0)
    ensures OnlyDigits(s) && |s| > 0 ==> r == Some(Decimal(Value(s), 0))
  {
    if |s| > 0 && s[0] == '-' then
      match ParseUnsigned(s[1..])
      case None => None
      case Some(d) => Some(Negate(d))
    else ParseUnsigned(s)
  }

  /** The numeral after the optional sign: whole digits, then optionally '.' and the
      fraction digits. */
  function ParseUnsigned(body: string): (r: Option<Decimal>)
    ensures r.Some? ==> 0 < |body| && r.value.scale < |body| && r.value.unscaled >= 0
    ensures OnlyDigits(body) ==> (r.Some? <==> |body| > 0)
    ensures OnlyDigits(body) && |body| > 0 ==> r == Some(Decimal(Value(body), 0))
  {
    var k := IndexOf(body, '.');
    var whole := body[..k];
    var fraction := if k < |body| then body[k + 1..] else "";
    if OnlyDigits(whole) && OnlyDigits(fraction) && |whole| + |fraction| > 0 then
      assert OnlyDigits(body) ==> whole == body && fraction == "" && whole + fraction == body;
      Some(Decimal(Value(whole + fraction), |fraction|))
    else
      None
  }

  /** `BigDecimal.toPlainString()`: sign, whole digits, and exactly `scale` fraction
      digits after a point when the scale is positive. */
  function PlainString(d: Decimal): string {
    var sign := if d.unscaled < 0 then "-" else "";
    sign + PlainDigits(Magnitude(d), d.scale)
  }

  function Magnitude(d: Decimal): nat {
    if d.unscaled < 0 then -d.unscaled else d.unscaled
  }

  /** The unsigned part of `toPlainString()` for `magnitude × 10^-scale`. */
  function PlainDigits(magnitude: nat, scale: nat): string {
    if scale == 0 then Show(magnitude)
    else Show(ShiftRight(magnitude, scale)) + "." + PadLeft(Show(LowDigits(magnitude, scale)), scale)
  }

  /** Parsing is a left inverse of rendering: every decimal survives the trip through
      its plain string, scale included. */
  lemma {:induction false} ParsePlainString(d: Decimal)
    ensures Parse(PlainString(d)) == Some(d)
  {
    var body := PlainDigits(Magnitude(d), d.scale);
    ParsePlainDigits(Magnitude(d), d.scale);
    if d.unscaled < 0 {
      ParseNegative(body);
      assert PlainString(d) == "-" + body;
    } else {
      assert PlainString(d) == body;
    }
  }

  lemma {:induction false} ParsePlainDigits(magnitude: nat, scale: nat)
    ensures var body := PlainDigits(magnitude, scale);
            |body| > 0 && IsDigit(body[0]) && Parse(body) == Some(Decimal(magnitude, scale))
  {
    if scale == 0 {
      assert OnlyDigits(Show(magnitude));
    } else {
      ParseFraction(magnitude, scale);
    }
  }

  lemma {:induction false} ParseFraction(magnitude: nat, scale: nat)
    requires scale > 0
    ensures var body := PlainDigits(magnitude, scale);
            |body| > 0 && IsDigit(body[0]) && Parse(body) == Some(Decimal(magnitude, scale))
  {
    var q := ShiftRight(magnitude, scale);
    var m := LowDigits(magnitude, scale);
    var w := Show(q);
    var f := PadLeft(Show(m), scale);
    assert |f| == scale && Value(f) == m by {
      ShowWidth(m, scale);
      PadLeftValue(Show(m), scale);
    }
    assert Value(w + f) == magnitude by {
      ValueConcat(w, f);
      ShiftSplit(magnitude, scale);
    }
    assert PlainDigits(magnitude, scale) == w + "." + f;
    ParseFields(w, f);
  }

  /** Whole digits, a point and fraction digits: the fraction's width is the scale. */
  lemma {:induction false} ParseFields(w: string, f: string)
    requires |w| > 0 && OnlyDigits(w) && |f| > 0 && OnlyDigits(f)
    ensures IsDigit((w + "." + f)[0])
    ensures Parse(w + "." + f) == Some(Decimal(Value(w + f), |f|))
  {
    var body := w + "." + f;
    assert body[0] == w[0];
    assert body[|w|] == '.';
    assert forall i :: 0 <= i < |w| ==> body[i] == w[i];
    assert IndexOf(body, '.') == |w|;
    assert body[..|w|] == w;
    assert body[|w| + 1..] == f;
  }

  /** A leading minus sign negates what the rest parses to. */
  lemma {:induction false} ParseNegative(body: string)
    requires |body| > 0 && IsDigit(body[0]) && Parse(body).Some?
    ensures Parse("-" + body) == Some(Negate(Parse(body).value))
  {
    assert ("-" + body)[1..] == body;
  }
}

=== FILE: digits.dfy ===
/** Decimal digit strings: their value, the shortest rendering of a natural number,
    and zero padding. These are the building blocks of `BigDecimal` parsing and of
    ISO date formatting. */
module Digits {
  import opened Text

  /** Every character is `[0-9]`; the empty string qualifies. */
  predicate OnlyDigits(s: string) {
    forall i :: 0 <= i < |s| ==> IsDigit(s[i])
  }

  function DigitValue(c: char): nat
    requires IsDigit(c)
  {
    c as int - '0' as int
  }

  function DigitChar(d: nat): (c: char)
    requires d < 10
    ensures IsDigit(c) && DigitValue(c) == d
  {
    (d + '0' as int) as char
  }

  function Pow10(k: nat): (r: nat)
    ensures r >= 1
  {
    if k == 0 then 1 else 10 * Pow10(k - 1)
  }

  lemma {:induction false} Pow10Monotone(a: nat, b: nat)
    requires a <= b
    ensures Pow10(a) <= Pow10(b)
    decreases b
  {
    if a < b {
      Pow10Monotone(a, b - 1);
    }
  }

  lemma {:induction false} Pow10Add(a: nat, b: nat)
    ensures Pow10(a + b) == Pow10(a) * Pow10(b)
    decreases b
  {
    if b > 0 {
      Pow10Add(a, b - 1);
      assert Pow10(a + b) == 10 * Pow10(a + (b - 1));
    }
  }

  /** `a / 10^k` and `a % 10^k`, written as repeated subtraction so that the solver
      never reasons about a division by a non-constant. */
  function ShiftRight(a: nat, k: nat): nat
    decreases a
  {
    if a < Pow10(k) then 0 else 1 + ShiftRight(a - Pow10(k), k)
  }

  function LowDigits(a: nat, k: nat): (r: nat)
    ensures r < Pow10(k)
    decreases a
  {
    if a < Pow10(k) then a else LowDigits(a - Pow10(k), k)
  }

  lemma {:induction false} ShiftSplit(a: nat, k: nat)
    ensures ShiftRight(a, k) * Pow10(k) + LowDigits(a, k) == a
    decreases a
  {
    if a >= Pow10(k) {
      ShiftSplit(a - Pow10(k), k);
      var q := ShiftRight(a - Pow10(k), k);
      assert (1 + q) * Pow10(k) == Pow10(k) + q * Pow10(k);
    }
  }

  /** The number a digit string denotes, leading zeros allowed; "" denotes 0. */
  function Value(s: string): nat
    requires OnlyDigits(s)
  {
    if |s| == 0 then 0 else 10 * Value(s[..|s| - 1]) + DigitValue(s[|s| - 1])
  }

  /** The shortest decimal rendering of `n`, as `Integer.toString` and
      `Long.toString` give it for `n >= 0`. */
  function Show(n: nat): (r: string)
    ensures |r| > 0 && OnlyDigits(r)
    ensures Value(r) == n
    ensures n < Pow10(|r|)
    ensures |r| > 1 ==> Pow10(|r| - 1) <= n
    decreases n
  {
    if n < 10 then [DigitChar(n)]
    else
      var front := Show(n / 10);
      var r := front + [DigitChar(n % 10)];
      assert r[..|r| - 1] == front;
      r
  }

  /** A number below 10^w needs at most w digits. */
  lemma {:induction false} ShowWidth(n: nat, w: nat)
    requires w >= 1 && n < Pow10(w)
    ensures |Show(n)| <= w
  {
    var r := Show(n);
    if |r| > w {
      Pow10Monotone(w, |r| - 1);
    }
  }

  function Zeros(k: nat): (r: string)
    ensures |r| == k && OnlyDigits(r)
    ensures forall i :: 0 <= i < k ==> r[i] == '0'
  {
    if k == 0 then "" else "0" + Zeros(k - 1)
  }

  /** Left-pads `s` with zeros to width `w`; a longer `s` is kept whole. */
  function PadLeft(s: string, w: nat): (r: string)
    ensures |r| == if |s| < w then w else |s|
    ensures r == Zeros(|r| - |s|) + s
  {
    if |s| < w then Zeros(w - |s|) + s else s
  }

  /** The value of a concatenation: the front shifted by the back's width. */
  lemma {:induction false} ValueConcat(a: string, b: string)
    requires OnlyDigits(a) && OnlyDigits(b)
    ensures OnlyDigits(a + b)
    ensures Value(a + b) == Value(a) * Pow10(|b|) + Value(b)
    decreases |b|
  {
    if |b| == 0 {
      assert a + b == a;
    } else {
      var b' := b[..|b| - 1];
      var c := b[|b| - 1];
      assert a + b == (a + b') + [c] && b == b' + [c];
      ValueConcat(a, b');
      ValueSnoc(a + b', c);
      ValueSnoc(b', c);
      ShiftStep(Value(a), Pow10(|b'|), Value(b'), DigitValue(c));
    }
  }

  /** Appending a digit: ten times the value, plus the digit. */
  lemma {:induction false} ValueSnoc(s: string, c: char)
    requires OnlyDigits(s) && IsDigit(c)
    ensures OnlyDigits(s + [c])
    ensures Value(s + [c]) == 10 * Value(s) + DigitValue(c)
  {
    assert (s + [c])[..|s|] == s;
  }

  lemma {:induction false} ShiftStep(x: int, p: int, v: int, d: int)
    ensures 10 * (x * p + v) + d == x * (10 * p) + (10 * v + d)
  {
  }

  /** Leading zeros do not change the value. */
  lemma {:induction false} ValueZeros(k: nat)
    ensures Value(Zeros(k)) == 0
    decreases k
  {
    if k > 0 {
      ValueConcat("0", Zeros(k - 1));
      ValueZeros(k - 1);
    }
  }

  /** Padding keeps the value. */
  lemma {:induction false} PadLeftValue(s: string, w: nat)
    requires OnlyDigits(s)
    ensures OnlyDigits(PadLeft(s, w)) && Value(PadLeft(s, w)) == Value(s)
  {
    var r := PadLeft(s, w);
    ValueConcat(Zeros(|r| - |s|), s);
    ValueZeros(|r| - |s|);
  }
}

=== FILE: isodate.dfy ===
/** Calendar dates and their ISO-8601 text, standing for `java.time.LocalDate` and
    `DateTimeFormatter.ISO_LOCAL_DATE` as the statement record uses them.

    Site-specific patterns ("MMM d, yyyy", "MM/dd/yyyy", "M/dd/yy") are parsed by the
    locale-dependent `DateTimeFormatter.ofPattern`; the model takes such a parse as a
    parameter of type `DateParser` instead of defining it. */
module IsoDate {
  import opened Wrappers
  import opened Text
  import opened Digits

  datatype Date = Date(year: int, month: int, day: int)

  /** `IsoChronology.isLeapYear`, proleptic Gregorian. */
  predicate IsLeapYear(y: int) {
    y % 4 == 0 && (y % 100 != 0 || y % 400 == 0)
  }

  function DaysInMonth(y: int, m: int): int
    requires 1 <= m <= 12
  {
    if m == 2 then (if IsLeapYear(y) then 29 else 28)
    else if m == 4 || m == 6 || m == 9 || m == 11 then 30
    else 31
  }

  /** `Year.MIN_VALUE` and `Year.MAX_VALUE`. */
  const MinYear: int := -999_999_999
  const MaxYear: int := 999_999_999

  predicate IsValid(d: Date) {
    && MinYear <= d.year <= MaxYear
    && 1 <= d.month <= 12
    && 1 <= d.day <= DaysInMonth(d.year, d.month)
  }

  /** A `LocalDate`: only real days of the proleptic Gregorian calendar. */
  type LocalDate = d: Date | IsValid(d) witness Date(1970, 1, 1)

  /** A locale-dependent `LocalDate.parse(text, DateTimeFormatter.ofPattern(p))` for a
      fixed pattern `p`; `None` is the `DateTimeParseException`. */
  type DateParser = string -> Option<LocalDate>

  /** The year field of `ISO_LOCAL_DATE`: at least four digits, a '+' once the year
      needs more than four, a '-' for years before year 0. */
  function YearText(y: int): string {
    if 0 <= y <= 9999 then PadLeft(Show(y), 4)
    else if y > 9999 then "+" + Show(y)
    else "-" + PadLeft(Show(-y), 4)
  }

  function TwoDigits(n: nat): string {
    PadLeft(Show(n), 2)
  }

  /** `date.format(DateTimeFormatter.ISO_LOCAL_DATE)`. */
  function FormatIso(d: LocalDate): string {
    YearText(d.year) + "-" + TwoDigits(d.month) + "-" + TwoDigits(d.day)
  }

  /** Reads the year field back: exactly four digits, or a sign followed by at least
      five ('+') or four ('-') digits. */
  function ParseYear(t: string): Option<int> {
    if |t| == 4 && OnlyDigits(t) then Some(Value(t))
    else if |t| >= 6 && t[0] == '+' && OnlyDigits(t[1..]) then Some(Value(t[1..]))
    else if |t| >= 5 && t[0] == '-' && OnlyDigits(t[1..]) then Some(-(Value(t[1..]) as int))
    else None
  }

  /** Reads ISO text "year-MM-dd" back into a date; `None` unless the text has that
      shape and names a real day. */
  function ParseIso(s: string): Option<LocalDate> {
    var n := |s|;
    if n < 10 || s[n - 6] != '-' || s[n - 3] != '-' then None
    else
      var month := s[n - 5..n - 3];
      var day := s[n - 2..];
      var year := ParseYear(s[..n - 6]);
      if year.None? || !OnlyDigits(month) || !OnlyDigits(day) then None
      else
        var d := Date(year.value, Value(month), Value(day));
        if IsValid(d) then Some(d) else None
  }

  lemma {:induction false} TwoDigitsValue(n: nat)
    requires n < 100
    ensures |TwoDigits(n)| == 2 && OnlyDigits(TwoDigits(n)) && Value(TwoDigits(n)) == n
  {
    ShowWidth(n, 2);
    PadLeftValue(Show(n), 2);
  }

  lemma {:induction false} FourDigits(n: nat)
    requires n <= 9999
    ensures var t := PadLeft(Show(n), 4);
            |t| == 4 && OnlyDigits(t) && Value(t) == n
  {
    ShowWidth(n, 4);
    PadLeftValue(Show(n), 4);
  }

  lemma {:induction false} LongYear(y: nat)
    requires y > 9999
    ensures |Show(y)| >= 5
  {
    var w := Show(y);
    if |w| <= 4 {
      Pow10Monotone(|w|, 4);
    }
  }

  lemma {:induction false} YearTextParses(y: int)
    requires MinYear <= y <= MaxYear
    ensures |YearText(y)| >= 4
    ensures ParseYear(YearText(y)) == Some(y)
  {
    if 0 <= y <= 9999 {
      FourDigits(y);
    } else if y > 9999 {
      LongYearParses(y);
    } else {
      NegativeYearParses(y);
    }
  }

  lemma {:induction false} LongYearParses(y: int)
    requires y > 9999
    ensures |YearText(y)| >= 6 && ParseYear(YearText(y)) == Some(y)
  {
    var t := YearText(y);
    LongYear(y);
    assert t[0] == '+' && t[1..] == Show(y);
  }

  lemma {:induction false} NegativeYearParses(y: int)
    requires y < 0
    ensures |YearText(y)| >= 5 && ParseYear(YearText(y)) == Some(y)
  {
    var t := YearText(y);
    var w := PadLeft(Show(-y), 4);
    PadLeftValue(Show(-y), 4);
    assert t[0] == '-' && t[1..] == w;
  }

  /** For the years 0 through 9999 the ISO text is the ten characters yyyy-MM-dd,
      each field zero-padded and denoting the date's own field. */
  lemma {:induction false} FormatIsoShape(d: LocalDate)
    requires 0 <= d.year <= 9999
    ensures var r := FormatIso(d);
            && |r| == 10 && r[4] == '-' && r[7] == '-'
            && OnlyDigits(r[..4]) && OnlyDigits(r[5..7]) && OnlyDigits(r[8..])
            && Value(r[..4]) == d.year && Value(r[5..7]) == d.month && Value(r[8..]) == d.day
  {
    FourDigits(d.year);
    TwoDigitsValue(d.month);
    TwoDigitsValue(d.day);
    FieldsOfIsoText(YearText(d.year), TwoDigits(d.month), TwoDigits(d.day));
  }

  /** Parsing inverts formatting, so no two dates share an ISO text. */
  lemma {:induction false} ParseFormatIso(d: LocalDate)
    ensures ParseIso(FormatIso(d)) == Some(d)
  {
    YearTextParses(d.year);
    TwoDigitsValue(d.month);
    TwoDigitsValue(d.day);
    ParseIsoOfFields(YearText(d.year), TwoDigits(d.month), TwoDigits(d.day), d);
  }

  /** `ParseIso` on a text built from fields that each read back as the date's. */
  lemma {:induction false} ParseIsoOfFields(y: string, m: string, dd: string, d: LocalDate)
    requires |y| >= 4 && |m| == 2 && |dd| == 2
    requires ParseYear(y) == Some(d.year)
    requires OnlyDigits(m) && OnlyDigits(dd) && Value(m) == d.month && Value(dd) == d.day
    ensures ParseIso(y + "-" + m + "-" + dd) == Some(d)
  {
    FieldsOfIsoText(y, m, dd);
  }

  /** Where `ParseIso` looks for the fields of a text built from them. */
  lemma {:induction false} FieldsOfIsoText(y: string, m: string, dd: string)
    requires |y| >= 4 && |m| == 2 && |dd| == 2
    ensures var s := y + "-" + m + "-" + dd;
            var n := |s|;
            && n == |y| + 6 && s[..n - 6] == y && s[n - 6] == '-' && s[n - 3] == '-'
            && s[n - 5..n - 3] == m && s[n - 2..] == dd
  {
  }

  lemma {:induction false} FormatIsoInjective(a: LocalDate, b: LocalDate)
    requires FormatIso(a) == FormatIso(b)
    ensures a == b
  {
    ParseFormatIso(a);
    ParseFormatIso(b);
  }
}

=== FILE: kpscript.dfy ===
/** `KPScript`: the KeePass command-line tool the scraper reads its credentials from.
    Starting the process is outside the model; a `Process` maps the argument vector
    to the exit value and the combined output the tool would produce. */
module KeePass {
  import opened Wrappers
  import opened Text
  import opened Splits

  /** A finished `KPScript` process: exit value and merged stdout/stderr text. */
  datatype Completed = Completed(exitValue: int, output: string)

  type Process = seq<string> -> Completed

  /** The database file and the resolved password (`null` stays `None`). */
  datatype KPScript = KPScript(file: string, pw: Option<string>)

  const DefaultKdbxFile: string := "ledgerdb-scraper.kdbx"
  const DefaultKdbxPw: string := "@ledgerdb-scraper.pw"
  const OkLine: string := "OK: Operation completed successfully."

  /** `System.lineSeparator()` on the platforms Java supports. */
  predicate IsLineSeparator(eol: string) {
    eol == "\n" || eol == "\r\n"
  }

  /** The constructor: the database file must exist; a password "@path" is replaced
      by the first line of that file (`IndexOutOfBoundsException` when it is empty). */
  function Open(file: string, pw: Option<string>, fileExists: string -> bool,
                readLines: string -> Result<seq<string>, Error>): (r: Result<KPScript, Error>)
    ensures r.Success? ==> fileExists(file) && r.value.file == file
    ensures !fileExists(file) ==> r == Failure(FileNotFound)
    ensures fileExists(file) && (pw.None? || !StartsWith(pw.value, "@")) ==> r == Success(KPScript(file, pw))
    ensures r.Success? && pw.Some? && StartsWith(pw.value, "@") ==>
              && readLines(pw.value[1..]).Success? && |readLines(pw.value[1..]).value| > 0
              && r.value.pw == Some(readLines(pw.value[1..]).value[0])
    ensures fileExists(file) && pw.Some? && StartsWith(pw.value, "@") && readLines(pw.value[1..]) == Success([]) ==>
              r == Failure(IndexOutOfBounds)
  {
    if !fileExists(file) then Failure(FileNotFound)
    else if pw.Some? && StartsWith(pw.value, "@") then
      var lines :- readLines(pw.value[1..]);
      if |lines| == 0 then Failure(IndexOutOfBounds) else Success(KPScript(file, Some(lines[0])))
    else Success(KPScript(file, pw))
  }

  /** "-pw:" + pw, where string concatenation renders `null` as "null". */
  function PwArg(pw: Option<string>): string {
    "-pw:" + (if pw.None? then "null" else pw.value)
  }

  /** The process arguments of `call`. */
  function Argv(kp: KPScript, command: string, args: seq<string>): (r: seq<string>)
    ensures |r| == 4 + |args| && r[4..] == args
    ensures r[0] == "KPScript" && r[1] == "-c:" + command && r[2] == kp.file && r[3] == PwArg(kp.pw)
  {
    ["KPScript", "-c:" + command, kp.file, PwArg(kp.pw)] + args
  }

  const MaskedPw: string := "-pw:******"

  /** The logged command line: every argument starting with "-pw:" is replaced by
      "-pw:******", every other argument is kept. */
  function Masked(argv: seq<string>): (r: seq<string>)
    ensures |r| == |argv|
    ensures forall i :: 0 <= i < |argv| ==> r[i] == (if StartsWith(argv[i], "-pw:") then MaskedPw else argv[i])
  {
    if |argv| == 0 then [] else [if StartsWith(argv[0], "-pw:") then MaskedPw else argv[0]] + Masked(argv[1..])
  }

  /** The logged line never shows the password: its fourth word is the mask, and the
      command name and command are shown as they are. */
  lemma {:induction false} MaskedArgvHidesPassword(kp: KPScript, command: string, args: seq<string>)
    ensures var m := Masked(Argv(kp, command, args));
            && m[3] == MaskedPw
            && m[0] == "KPScript" && m[1] == "-c:" + command
            && forall i :: 4 <= i < |m| && !StartsWith(args[i - 4], "-pw:") ==> m[i] == args[i - 4]
  {
    var argv := Argv(kp, command, args);
    assert StartsWith(argv[3], "-pw:") by {
      assert argv[3][..4] == "-pw:";
    }
    assert !StartsWith(argv[1], "-pw:") by {
      assert argv[1][1] == 'c';
    }
    assert !StartsWith(argv[0], "-pw:") by {
      assert argv[0][0] == 'K';
    }
  }

  /** The output check of `call`: exit value 0, at least two lines, the last one the
      OK line; the value is every line but the last, joined again. */
  function Interpret(done: Completed, eol: string): (r: Result<string, Error>)
    requires IsLineSeparator(eol)
    ensures done.exitValue != 0 <==> r == Failure(KPScriptExit(done.exitValue))
    ensures r.Failure? && done.exitValue == 0 ==> r.error == KPScriptFailed
    ensures r.Success? ==> exists k: nat :: done.output == r.value + eol + OkLine + Repeat(eol, k)
  {
    if done.exitValue != 0 then Failure(KPScriptExit(done.exitValue))
    else
      var lines := JavaSplit(done.output, eol);
      if |lines| < 2 || lines[|lines| - 1] != OkLine then Failure(KPScriptFailed)
      else
        var value := Join(lines[..|lines| - 1], eol);
        InterpretKeepsOutput(done.output, eol, lines);
        Success(value)
  }

  /** The output is the returned value, the OK line and nothing but line separators. */
  lemma {:induction false} InterpretKeepsOutput(output: string, eol: string, lines: seq<string>)
    requires IsLineSeparator(eol) && lines == JavaSplit(output, eol)
    requires |lines| >= 2 && lines[|lines| - 1] == OkLine
    ensures output == Join(lines[..|lines| - 1], eol) + eol + OkLine + Repeat(eol, Trailing(output, eol))
  {
    JavaSplitJoin(output, eol);
    var front := lines[..|lines| - 1];
    assert lines == front + [OkLine];
    JoinSnoc(front, OkLine, eol);
  }

  /** A one-line value followed by the OK line and a final line separator is
      accepted as that value. */
  lemma {:induction false} InterpretOneLine(line: string)
    requires forall j :: 0 <= j < |line| ==> line[j] != '\n'
    ensures Interpret(Completed(0, line + "\n" + OkLine + "\n"), "\n") == Success(line)
  {
    var out := line + "\n" + OkLine + "\n";
    SplitOneLine(line, out);
    assert DropTrailingEmpty([line, OkLine, ""]) == [line, OkLine] by {
      assert [line, OkLine, ""][..2] == [line, OkLine];
    }
    var lines := JavaSplit(out, "\n");
    assert lines[..1] == [line];
  }

  lemma {:induction false} SplitOneLine(line: string, out: string)
    requires forall j :: 0 <= j < |line| ==> line[j] != '\n'
    requires out == line + "\n" + OkLine + "\n"
    ensures Find(out, "\n", 0) == |line|
    ensures SplitAll(out, "\n") == [line, OkLine, ""]
  {
    FindLineEnd(line, OkLine + "\n", out);
    SplitAllStep(out, "\n", |line|);
    var rest := out[|line| + 1..];
    assert rest == OkLine + "\n";
    SplitOkLine(rest);
    assert out[..|line|] == line;
  }

  /** The first newline of a line, a newline and anything after is the one ending
      the line. */
  lemma {:induction false} FindLineEnd(line: string, rest: string, out: string)
    requires forall j :: 0 <= j < |line| ==> line[j] != '\n'
    requires out == line + "\n" + rest
    ensures Find(out, "\n", 0) == |line|
  {
    forall j | 0 <= j < |line|
      ensures !At(out, j, "\n")
    {
      assert out[j..j + 1][0] == line[j];
    }
    assert At(out, |line|, "\n") by {
      assert out[|line|..|line| + 1] == "\n";
    }
    FindIs(out, "\n", |line|);
  }

  lemma {:induction false} SplitOkLine(rest: string)
    requires rest == OkLine + "\n"
    ensures SplitAll(rest, "\n") == [OkLine, ""]
  {
    assert forall j :: 0 <= j < |OkLine| ==> OkLine[j] != '\n';
    SplitLastLine(OkLine);
  }

  /** A line without a newline, followed by one, splits into the line and "". */
  lemma {:induction false} SplitLastLine(line: string)
    requires forall j :: 0 <= j < |line| ==> line[j] != '\n'
    ensures SplitAll(line + "\n", "\n") == [line, ""]
  {
    var rest := line + "\n";
    FindNewline(line);
    SplitAllStep(rest, "\n", |line|);
    assert rest[..|line|] == line && rest[|line| + 1..] == "";
    assert SplitAll("", "\n") == [""];
  }

  lemma {:induction false} FindNewline(line: string)
    requires forall j :: 0 <= j < |line| ==> line[j] != '\n'
    ensures Find(line + "\n", "\n", 0) == |line|
  {
    var rest := line + "\n";
    forall j | 0 <= j < |line|
      ensures !At(rest, j, "\n")
    {
      assert rest[j..j + 1][0] == line[j];
    }
    assert At(rest, |line|, "\n") by {
      assert rest[|line|..|line| + 1] == "\n";
    }
    FindIs(rest, "\n", |line|);
  }

  /** `call(command, args…)`. */
  function Call(kp: KPScript, command: string, args: seq<string>, process: Process, eol: string): Result<string, Error>
    requires IsLineSeparator(eol)
  {
    Interpret(process(Argv(kp, command, args)), eol)
  }

  function GetEntryArgs(title: string, field: string): seq<string> {
    ["-ref-Title:" + title, "-FailIfNoEntry", "-Field:" + field]
  }

  /** `getEntry(title, field)`: the tool is run with exactly these arguments. */
  function GetEntry(kp: KPScript, title: string, field: string, process: Process, eol: string): (r: Result<string, Error>)
    requires IsLineSeparator(eol)
    ensures r == Interpret(process(["KPScript", "-c:GetEntryString", kp.file, PwArg(kp.pw),
                                     "-ref-Title:" + title, "-FailIfNoEntry", "-Field:" + field]), eol)
  {
    assert "-c:" + "GetEntryString" == "-c:GetEntryString";
    assert Argv(kp, "GetEntryString", GetEntryArgs(title, field)) ==
           ["KPScript", "-c:GetEntryString", kp.file, PwArg(kp.pw),
            "-ref-Title:" + title, "-FailIfNoEntry", "-Field:" + field];
    Call(kp, "GetEntryString", GetEntryArgs(title, field), process, eol)
  }

  const RecycleBin: string := "GRPN: Recycle Bin"
  const PasswordPrefix: string := "S: Password = "
  const MaskedPassword: string := "S: Password = ********"

  /** The first line terminator at or after `i`, or `|s|`. */
  function LineEnd(s: string, i: nat): (k: nat)
    requires i <= |s|
    ensures i <= k <= |s|
    ensures k < |s| ==> IsLineTerminator(s[k])
    ensures forall j :: i <= j < k ==> !IsLineTerminator(s[j])
    decreases |s| - i
  {
    if i == |s| || IsLineTerminator(s[i]) then i else LineEnd(s, i + 1)
  }

  /** `replaceFirst("^(S: Password =) .*", "$1 ********")`: `.*` stops at the first
      line terminator, and what follows it is kept. */
  function MaskPassword(line: string): (r: string)
    ensures StartsWith(line, PasswordPrefix) ==>
              StartsWith(r, MaskedPassword) && (|r| == |MaskedPassword| || IsLineTerminator(r[|MaskedPassword|]))
    ensures !StartsWith(line, PasswordPrefix) ==> r == line
  {
    if StartsWith(line, PasswordPrefix) then
      var rest := line[LineEnd(line, |PasswordPrefix|)..];
      assert (MaskedPassword + rest)[..|MaskedPassword|] == MaskedPassword;
      MaskedPassword + rest
    else line
  }

  /** The lines of a block that `listEntries` prints: the "S: " lines, masked. */
  function ShownLines(lines: seq<string>): (r: seq<string>)
    ensures |r| <= |lines|
    ensures forall i :: 0 <= i < |r| ==> StartsWith(r[i], "S: ")
    ensures forall i :: 0 <= i < |r| && StartsWith(r[i], PasswordPrefix) ==>
              StartsWith(r[i], MaskedPassword) && (|r[i]| == |MaskedPassword| || IsLineTerminator(r[i][|MaskedPassword|]))
  {
    if |lines| == 0 then []
    else if StartsWith(lines[0], "S: ") then
      var m := MaskPassword(lines[0]);
      assert StartsWith(m, "S: ") by {
        if StartsWith(lines[0], PasswordPrefix) {
          assert m[..3] == MaskedPassword[..3];
        }
      }
      [m] + ShownLines(lines[1..])
    else ShownLines(lines[1..])
  }

  /** One block of `listEntries`: nothing for the recycle bin group, otherwise the
      shown lines and an empty line. */
  function ListBlock(block: string, eol: string): (r: seq<string>)
    requires IsLineSeparator(eol)
    ensures RecycleBin in JavaSplit(block, eol) <==> r == []
    ensures r != [] ==> r[|r| - 1] == "" && r[..|r| - 1] == ShownLines(JavaSplit(block, eol))
  {
    var lines := JavaSplit(block, eol);
    if RecycleBin in lines then [] else ShownLines(lines) + [""]
  }

  function ListBlocks(blocks: seq<string>, eol: string): (r: seq<string>)
    requires IsLineSeparator(eol)
    ensures forall i :: 0 <= i < |r| ==> r[i] == "" || StartsWith(r[i], "S: ")
    ensures forall i :: 0 <= i < |r| && StartsWith(r[i], PasswordPrefix) ==> StartsWith(r[i], MaskedPassword)
  {
    if |blocks| == 0 then [] else ListBlock(blocks[0], eol) + ListBlocks(blocks[1..], eol)
  }

  /** `listEntries`: the lines it prints. Blocks are separated by an empty line. */
  function ListEntries(kp: KPScript, process: Process, eol: string): (r: Result<seq<string>, Error>)
    requires IsLineSeparator(eol)
    ensures r.Success? ==> forall i :: 0 <= i < |r.value| ==> r.value[i] == "" || StartsWith(r.value[i], "S: ")
    ensures r.Success? ==> forall i :: 0 <= i < |r.value| && StartsWith(r.value[i], PasswordPrefix) ==>
                             StartsWith(r.value[i], MaskedPassword)
    ensures r.Failure? <==> Call(kp, "ListEntries", [], process, eol).Failure?
  {
    var output :- Call(kp, "ListEntries", [], process, eol);
    Success(ListBlocks(JavaSplit(output, eol + eol), eol))
  }

  /** The blocks `listEntries` prints, the recycle bin group left out. */
  function Listed(blocks: seq<string>, eol: string): nat
    requires IsLineSeparator(eol)
  {
    if |blocks| == 0 then 0
    else (if RecycleBin in JavaSplit(blocks[0], eol) then 0 else 1) + Listed(blocks[1..], eol)
  }

  /** Each listed block ends with exactly one printed empty line, and no other
      printed line is empty. */
  lemma {:induction false} BlankLinePerBlock(blocks: seq<string>, eol: string)
    requires IsLineSeparator(eol)
    ensures Blanks(ListBlocks(blocks, eol)) == Listed(blocks, eol)
    decreases |blocks|
  {
    if |blocks| > 0 {
      BlankLinePerBlock(blocks[1..], eol);
      BlanksConcat(ListBlock(blocks[0], eol), ListBlocks(blocks[1..], eol));
      var lines := JavaSplit(blocks[0], eol);
      if RecycleBin !in lines {
        ShownNoBlanks(lines);
        BlanksConcat(ShownLines(lines), [""]);
      }
    }
  }

  /** The number of empty lines printed. */
  function Blanks(lines: seq<string>): nat {
    if |lines| == 0 then 0 else (if lines[0] == "" then 1 else 0) + Blanks(lines[1..])
  }

  lemma {:induction false} BlanksConcat(a: seq<string>, b: seq<string>)
    ensures Blanks(a + b) == Blanks(a) + Blanks(b)
    decreases |a|
  {
    if |a| > 0 {
      assert (a + b)[1..] == a[1..] + b;
      BlanksConcat(a[1..], b);
    } else {
      assert a + b == b;
    }
  }

  lemma {:induction false} ShownNoBlanks(lines: seq<string>)
    ensures Blanks(ShownLines(lines)) == 0
    decreases |lines|
  {
    if |lines| > 0 {
      ShownNoBlanks(lines[1..]);
      if StartsWith(lines[0], "S: ") {
        var m := MaskPassword(lines[0]);
        assert m != "" by {
          assert StartsWith(ShownLines(lines)[0], "S: ");
        }
        assert ShownLines(lines) == [m] + ShownLines(lines[1..]);
      }
    }
  }
}

=== FILE: legacy_mbna.dfy ===
/** The older MBNA driver `institution.mbna.ScraperDriver`: exactly two "Account
    Snapshot" links, the second one shown; one transaction table; and a duplicate
    counter of its own (`ss`) kept next to the one the base-class `merge` keeps. */
module LegacyMbna {
  import opened Wrappers
  import opened Text
  import opened Decimals
  import opened IsoDate
  import opened Statements
  import opened Sessions
  import opened Amounts
  import opened References
  import opened AccountLoop
  import Mbna

  type Link = Mbna.Link
  type TableRow = Mbna.TableRow

  /** `checkState(a.size() == 2)`, the first link hidden, the second displayed, and
      "ending in <digits>" in the second one's text. */
  function Reference(links: seq<Link>): (r: Result<string, Error>)
    ensures r.Success? <==>
              |links| == 2 && !links[0].displayed && links[1].displayed && MbnaReference(links[1].text).Some?
    ensures r.Success? ==> r.value == MbnaReference(links[1].text).value
    ensures r.Failure? ==> r.error == StateCheckFailed
  {
    if |links| != 2 || links[0].displayed || !links[1].displayed then Failure(StateCheckFailed)
    else match MbnaReference(links[1].text)
      case None => Failure(StateCheckFailed)
      case Some(digits) => Success(digits)
  }

  /** Where the older driver finds a reference, the newer one (first displayed link)
      finds the same one. */
  lemma {:induction false} ReferenceKeptByNewerDriver(links: seq<Link>)
    requires Reference(links).Success?
    ensures Mbna.Reference(links) == Reference(links)
  {
    assert Mbna.FirstDisplayed(links) == Some(1);
  }

  /** One transaction row: five cells; a pending one is passed over; otherwise the
      posting date, the description exactly as shown, and the negated amount, which
      must be "$" and digits. */
  function ReadRow(cells: seq<string>, accountId: int, parse: DateParser): (r: Row)
    ensures |cells| != 5 ==> r == Reject(StateCheckFailed)
    ensures r.Skip? <==> |cells| == 5 && Mbna.Pending(cells)
    ensures |cells| == 5 && !Mbna.Pending(cells) && parse(cells[1]).None? ==> r == Reject(DateUnparseable)
    ensures r.Accept? <==>
              |cells| == 5 && !Mbna.Pending(cells) && parse(cells[1]).Some? && LegacyNegatedAmount(cells[4]).Success?
    ensures r.Accept? ==>
              && r.statement.accountId == accountId && r.statement.sequence == 0
              && r.statement.date == Some(FormatIso(parse(cells[1]).value))
              && r.statement.description == Some(cells[2])
              && r.statement.amount == Some(LegacyNegatedAmount(cells[4]).value)
  {
    if |cells| != 5 then Reject(StateCheckFailed)
    else if Mbna.Pending(cells) then Skip
    else match parse(cells[1])
      case None => Reject(DateUnparseable)
      case Some(d) =>
        match LegacyNegatedAmount(cells[4])
        case Failure(e) => Reject(e)
        case Success(amount) =>
          Accept(Blank.(accountId := accountId, date := Some(FormatIso(d)),
                        description := Some(cells[2]), amount := Some(amount)))
  }

  /** A charge shown as "$" + its digits is read back negated, as the newer driver
      reads it (up to the description, which the newer driver normalises). */
  lemma {:induction false} ReadShownCharge(d: LocalDate, transactionDate: string, postingDate: string, description: string,
                        reference: string, amount: Decimal, accountId: int, parse: DateParser)
    requires parse(postingDate) == Some(d) && IsDisplayable(amount)
    requires postingDate != "" || reference != "TEMP"
    ensures ReadRow(Mbna.Shown(transactionDate, postingDate, description, reference, amount, false), accountId, parse) ==
            Accept(Statement(Some(FormatIso(d)), accountId, Some(Negate(amount)), Some(description), 0))
  {
    var cells := Mbna.Shown(transactionDate, postingDate, description, reference, amount, false);
    assert |cells| == 5 && cells[1] == postingDate && cells[2] == description && cells[3] == reference;
    assert cells[4] == "$" + PlainString(amount);
    NegatedRoundTrip(amount, false);
    LegacyNegatedAgrees(cells[4]);
  }

  /** A payment, shown as "-$" + its digits, fails the amount check: the run ends at
      the first payment on the page. */
  lemma {:induction false} ShownPaymentRejected(transactionDate: string, postingDate: string, description: string,
                             reference: string, amount: Decimal, accountId: int, parse: DateParser)
    requires parse(postingDate).Some?
    requires postingDate != "" || reference != "TEMP"
    ensures ReadRow(Mbna.Shown(transactionDate, postingDate, description, reference, amount, true), accountId, parse) ==
            Reject(StateCheckFailed)
  {
    var cells := Mbna.Shown(transactionDate, postingDate, description, reference, amount, true);
    assert |cells| == 5 && cells[1] == postingDate && cells[3] == reference;
    assert cells[4] == "-$" + PlainString(amount);
    assert StartsWith(cells[4], "-") by {
      assert cells[4][..1] == "-";
    }
    LegacyNegatedAgrees(cells[4]);
  }

  /** The transaction table: at least the header row, which must pass the same checks
      as in the newer driver; every later row is a transaction. */
  function ReadTable(table: seq<TableRow>, accountId: int, parse: DateParser): (rows: seq<Row>)
    ensures |table| == 0 || !Mbna.HeaderOk(table[0].head) ==> rows == [Reject(StateCheckFailed)]
    ensures |table| > 0 && Mbna.HeaderOk(table[0].head) ==>
              |rows| == |table| - 1 && forall j :: 0 <= j < |rows| ==> rows[j] == ReadRow(table[j + 1].cells, accountId, parse)
    ensures forall j :: 0 <= j < |rows| && rows[j].Accept? ==> rows[j].statement.accountId == accountId
  {
    ReadHeaded(table, (row: TableRow) => Mbna.HeaderOk(row.head), (row: TableRow) => ReadRow(row.cells, accountId, parse))
  }

  /** The merge calls of the table loop together with the driver's own list `ss`.
      `ss.add(s)` adds the object `merge` has just numbered and recorded, so the list
      grows by exactly what the session records. */
  datatype Run = Run(session: Session, local: seq<Statement>, failure: Option<Error>)

  function MergeTable(sess: Session, ss: seq<Statement>, rows: seq<Row>, server: Server): (r: Run)
    ensures |sess.recorded| <= |r.session.recorded| && r.session.recorded[..|sess.recorded|] == sess.recorded
    ensures r.local == ss + r.session.recorded[|sess.recorded|..]
    ensures r.failure.None? ==> forall k :: 0 <= k < |rows| ==> !rows[k].Reject?
    decreases |rows|
  {
    if |rows| == 0 then Run(sess, ss, None)
    else
      assert forall k :: 1 <= k < |rows| ==> rows[k] == rows[1..][k - 1];
      match rows[0]
      case Reject(e) => Run(sess, ss, Some(e))
      case Skip => MergeTable(sess, ss, rows[1..], server)
      case Accept(s) =>
        var numbered := s.(sequence := 1 + LegacyCount(ss, s));
        LegacyMergeAgrees(sess, numbered, server);
        match LegacyMerge(sess, numbered, server)
        case Failure(e) => Run(sess, ss, Some(e))
        case Success(next) =>
          var added := next.recorded[|next.recorded| - 1];
          var rest := MergeTable(next, ss + [added], rows[1..], server);
          RecordedAfter(sess.recorded, next.recorded, rest.session.recorded);
          rest
  }

  /** Records that extend `next`, which is `before` and one more, extend `before`, and
      what they add to it is that one record and then what they add to `next`. */
  lemma {:induction false} RecordedAfter(before: seq<Statement>, next: seq<Statement>, after: seq<Statement>)
    requires |next| == |before| + 1 && next[..|before|] == before
    requires |next| <= |after| && after[..|next|] == next
    ensures |before| <= |after| && after[..|before|] == before
    ensures after[|before|..] == [next[|next| - 1]] + after[|next|..]
  {
    PrefixOfPrefix(after, next, before);
    assert after[|before|..] == after[|before|..|next|] + after[|next|..];
  }

  /** The table loop keeps a session well-formed. */
  lemma {:induction false} MergeTableValid(sess: Session, ss: seq<Statement>, rows: seq<Row>, server: Server)
    ensures Valid(sess) ==> Valid(MergeTable(sess, ss, rows, server).session)
  {
    MergeTableAgrees(sess, ss, rows, server);
    MergeRowsValid(sess, rows, server);
  }

  /** The number the driver writes into `s.sequence` before `merge(s)` is lost:
      `merge` overwrites it with its own count. */
  lemma {:induction false} LocalSequenceOverwritten(sess: Session, s: Statement, k: int, server: Server)
    ensures LegacyMerge(sess, s.(sequence := k), server) == LegacyMerge(sess, s, server)
  {
    LegacyCountAgrees(sess.recorded, s);
    LegacyCountAgrees(sess.recorded, s.(sequence := k));
    CountRespectsEquals(sess.recorded, s.(sequence := k), s);
  }

  /** The driver's own counter changes nothing: the table loop merges what the shared
      row loop merges and stops where it stops. */
  lemma {:induction false} MergeTableAgrees(sess: Session, ss: seq<Statement>, rows: seq<Row>, server: Server)
    ensures var r := MergeTable(sess, ss, rows, server);
            Merged(r.session, r.failure) == MergeRows(sess, rows, server)
    decreases |rows|
  {
    if |rows| > 0 {
      match rows[0]
      case Reject(_) =>
      case Skip =>
        MergeTableAgrees(sess, ss, rows[1..], server);
      case Accept(s) =>
        var numbered := s.(sequence := 1 + LegacyCount(ss, s));
        LocalSequenceOverwritten(sess, s, 1 + LegacyCount(ss, s), server);
        LegacyMergeAgrees(sess, s, server);
        var merged := Merge(sess, s, server);
        if merged.Success? {
          var next := merged.value;
          MergeTableAgrees(next, ss + [next.recorded[|next.recorded| - 1]], rows[1..], server);
        }
    }
  }

  /** `run` after `logIn`: the reference, the account lookup with the site's
      institution, then the one table. */
  function Scrape(sess: Session, links: seq<Link>, table: seq<TableRow>, institution: string,
                  server: Server, parse: DateParser): (r: Run)
    ensures Valid(sess) ==> Valid(r.session)
    ensures Reference(links).Failure? ==> r == Run(sess, [], Some(StateCheckFailed))
    ensures |sess.recorded| <= |r.session.recorded| && r.session.recorded[..|sess.recorded|] == sess.recorded
    ensures r.local == r.session.recorded[|sess.recorded|..]
  {
    match Reference(links)
    case Failure(e) => Run(sess, [], Some(e))
    case Success(reference) =>
      match GetAccountId(sess, institution, reference, server)
      case Failure(e) => Run(sess, [], Some(e))
      case Success(id) =>
        MergeTableValid(sess, [], ReadTable(table, id, parse), server);
        MergeTable(sess, [], ReadTable(table, id, parse), server)
  }

  /** The older driver is the shared account loop over its one account: the same
      statements are merged, and the run stops at the same exception. */
  lemma {:induction false} ScrapeIsVisit(sess: Session, links: seq<Link>, table: seq<TableRow>, institution: string,
                      server: Server, parse: DateParser)
    ensures var r := Scrape(sess, links, table, institution, server, parse);
            var p := Visit(sess, [Account(Reference(links), false, id => ReadTable(table, id, parse))],
                           institution, server);
            r.session == p.session && r.failure == p.failure
  {
    var a := Account(Reference(links), false, id => ReadTable(table, id, parse));
    assert [a][1..] == [];
    if a.reference.Success? {
      var look := GetAccountId(sess, institution, a.reference.value, server);
      if look.Success? {
        assert a.rows(look.value) == ReadTable(table, look.value, parse);
        MergeTableAgrees(sess, [], ReadTable(table, look.value, parse), server);
        var m := MergeRows(sess, a.rows(look.value), server);
        if m.failure.None? {
          assert Visit(m.session, [a][1..], institution, server) == Progress(m.session, [], None);
        }
      }
    }
  }

  /** On a driver that has merged nothing yet, `ss` is the list of records, and the
      number the driver computes from it is the one `merge` assigns. */
  lemma {:induction false} FreshDriverCountsAlike(sess: Session, links: seq<Link>, table: seq<TableRow>, institution: string,
                               server: Server, parse: DateParser)
    requires Valid(sess) && sess.recorded == []
    ensures var r := Scrape(sess, links, table, institution, server, parse);
            && r.local == r.session.recorded
            && forall k :: 0 <= k < |r.local| ==> r.local[k].sequence == 1 + LegacyCount(r.local[..k], r.local[k])
  {
    var r := Scrape(sess, links, table, institution, server, parse);
    assert r.session.recorded[0..] == r.session.recorded;
    forall k | 0 <= k < |r.local|
      ensures r.local[k].sequence == 1 + LegacyCount(r.local[..k], r.local[k])
    {
      LegacyCountAgrees(r.local[..k], r.local[k]);
    }
  }
}

=== FILE: legacy_pcfinancial.dfy ===
/** The older President's Choice Financial driver `institution.pcfinancial.ScraperDriver`.
    It opens a browser of its own, walks the deposit accounts, and hands each row to
    `merge` as a `StatementInfo` carrying the account's reference instead of an
    accountId. It numbers duplicates against a list it creates afresh for every
    account.

    Its shape checks are Java `assert` statements, which do nothing unless the JVM
    runs with assertions enabled; the model takes them as preconditions on the pages.
    `StatementInfo` and the `merge` it is passed to are not part of this model: `merge`
    is a parameter giving the outcome of each call, and two infos count as duplicates
    when every field but the sequence agrees. */
module LegacyPcfinancial {
  import opened Wrappers
  import opened Decimals
  import opened IsoDate
  import opened Amounts
  import opened References
  import Pcfinancial
  import Sessions

  type Cell = Pcfinancial.Cell
  type TableRow = Pcfinancial.TableRow
  type AccountPage = Pcfinancial.AccountPage

  /** A `StatementInfo` as the driver fills it in. */
  datatype Info = Info(reference: string, date: string, description: string, amount: Decimal,
                       source: string, sequence: int)

  predicate SameExceptSequence(a: Info, b: Info) {
    a.(sequence := 0) == b.(sequence := 0)
  }

  /** How many infos of `list` are duplicates of `si`. */
  function CountSame(list: seq<Info>, si: Info): (n: nat)
    ensures n <= |list|
  {
    if |list| == 0 then 0
    else CountSame(list[..|list| - 1], si) + (if SameExceptSequence(list[|list| - 1], si) then 1 else 0)
  }

  /** Every info in `list` carries one more than the number of its duplicates before it. */
  predicate Numbered(list: seq<Info>) {
    forall i :: 0 <= i < |list| ==> list[i].sequence == 1 + CountSame(list[..i], list[i])
  }

  /** The `assert`s on one row: five cells classed date, transactions, debit, credit,
      balance; exactly one of debit and credit non-empty; and that one "$" and digits. */
  predicate RowAsserts(cells: seq<Cell>) {
    && Pcfinancial.Shaped(cells)
    && ChooseSide(cells[2].text, cells[3].text).Success?
    && MatchesDollars(ChooseSide(cells[2].text, cells[3].text).value.text)
  }

  /** The `assert`s on a transaction table: there is a first row, and it reads exactly
      the column names. The `assert`s on the later rows are not assumed: `ReadRow`
      fails a row that does not pass them. */
  predicate TableAsserts(table: seq<TableRow>) {
    |table| > 0 && table[0].text == Pcfinancial.Header
  }

  /** The `assert`s on the summary: a deposit account is listed, every selected
      account name holds a "(digits)" reference, and every account without an alert
      has a well-formed table. */
  predicate PagesAsserts(pages: seq<AccountPage>) {
    && |pages| > 0
    && forall i :: 0 <= i < |pages| ==>
         && ParenReference(pages[i].name).Some?
         && (!pages[i].alert ==> TableAsserts(pages[i].table))
  }

  /** One row as an info, its sequence not yet set. A row of the wrong shape fails as
      the `assert` would with assertions enabled; once the asserts hold, only the date
      parse and the decimal conversion can throw. */
  function ReadRow(cells: seq<Cell>, reference: string, parse: DateParser): (r: Result<Info, Error>)
    ensures !Pcfinancial.Shaped(cells) ==> r == Failure(StateCheckFailed)
    ensures Pcfinancial.Shaped(cells) && parse(cells[0].text).None? ==> r == Failure(DateUnparseable)
    ensures r.Success? <==>
              Pcfinancial.Shaped(cells) && parse(cells[0].text).Some? && PcfinancialAmount(cells[2].text, cells[3].text).Success?
    ensures r.Success? ==>
              && r.value.reference == reference && r.value.source == "" && r.value.sequence == 0
              && r.value.date == FormatIso(parse(cells[0].text).value)
              && r.value.description == cells[1].text
              && r.value.amount == PcfinancialAmount(cells[2].text, cells[3].text).value
  {
    if !Pcfinancial.Shaped(cells) then Failure(StateCheckFailed)
    else match parse(cells[0].text)
    case None => Failure(DateUnparseable)
    case Some(d) =>
      match PcfinancialAmount(cells[2].text, cells[3].text)
      case Failure(e) => Failure(e)
      case Success(amount) => Success(Info(reference, FormatIso(d), cells[1].text, amount, "", 0))
  }

  /** A transaction shown on the page is read back as the newer driver reads it: its
      amount negated when it sits in the "Funds out" column. */
  lemma {:induction false} ReadShownRow(d: LocalDate, dateText: string, description: string, amount: Decimal, debit: bool,
                     balance: string, reference: string, parse: DateParser)
    requires parse(dateText) == Some(d) && IsDisplayable(amount)
    ensures var cells := Pcfinancial.Shown(dateText, description, amount, debit, balance);
            && RowAsserts(cells)
            && ReadRow(cells, reference, parse) ==
               Success(Info(reference, FormatIso(d), description, if debit then Negate(amount) else amount, "", 0))
  {
    var cells := Pcfinancial.Shown(dateText, description, amount, debit, balance);
    var shown := "$" + PlainString(amount);
    assert cells[0].text == dateText && cells[1].text == description;
    assert cells[2].text == (if debit then shown else "") && cells[3].text == (if debit then "" else shown);
    assert Pcfinancial.Shaped(cells);
    assert shown != "";
    DollarTextShape(amount);
    PcfinancialRoundTrip(amount);
  }

  /** The infos that reached `merge` and returned, in order, and the exception that
      ended the loop, if any. */
  datatype Sent = Sent(list: seq<Info>, failure: Option<Error>)

  /** The rows after the header, each read as an info. The driver reads a row and
      merges it before reading the next; reading has no effect, so reading them all
      first and merging in order up to the first failure is the same. */
  function ReadTable(table: seq<TableRow>, reference: string, parse: DateParser): (infos: seq<Result<Info, Error>>)
    requires |table| > 0
    ensures |infos| == |table| - 1
    ensures forall j :: 0 <= j < |infos| ==> infos[j] == ReadRow(table[j + 1].cells, reference, parse)
    ensures forall j :: 0 <= j < |infos| && infos[j].Success? ==> infos[j].value.reference == reference
  {
    Sessions.ReadRows(table, 1, (row: TableRow) => ReadRow(row.cells, reference, parse))
  }

  /** The body of `forEach` from `infos` on, given `siList` so far: number the info
      against `siList`, `merge` it, then add it to `siList`. The result holds what was
      added to `siList`. */
  function MergeInfos(infos: seq<Result<Info, Error>>, siList: seq<Info>, merge: Info -> Outcome<Error>): (r: Sent)
    ensures |r.list| <= |infos|
    ensures r.failure.None? <==> |r.list| == |infos|
    ensures forall j :: 0 <= j < |r.list| ==>
              && infos[j].Success? && SameExceptSequence(r.list[j], infos[j].value)
              && merge(r.list[j]).Pass?
    decreases |infos|
  {
    if |infos| == 0 then Sent([], None)
    else
      match infos[0]
      case Failure(e) => Sent([], Some(e))
      case Success(si) =>
        var numbered := si.(sequence := 1 + CountSame(siList, si));
        match merge(numbered)
        case Fail(e) => Sent([], Some(e))
        case Pass =>
          var rest := MergeInfos(infos[1..], siList + [numbered], merge);
          assert forall j :: 0 < j < |infos| ==> infos[1..][j - 1] == infos[j];
          Sent([numbered] + rest.list, rest.failure)
  }

  /** What the loop adds to `siList` keeps it numbered: each info one past the
      infos before it that it duplicates. */
  lemma {:induction false} MergeInfosNumbered(infos: seq<Result<Info, Error>>, siList: seq<Info>, merge: Info -> Outcome<Error>)
    ensures Numbered(siList) ==> Numbered(siList + MergeInfos(infos, siList, merge).list)
    decreases |infos|
  {
    if |infos| > 0 && infos[0].Success? {
      var si := infos[0].value;
      var numbered := si.(sequence := 1 + CountSame(siList, si));
      if merge(numbered).Pass? {
        var rest := MergeInfos(infos[1..], siList + [numbered], merge);
        assert MergeInfos(infos, siList, merge).list == [numbered] + rest.list;
        CountSameIgnoresSequence(siList, si, numbered.sequence);
        MergeInfosNumbered(infos[1..], siList + [numbered], merge);
        NumberedStep(siList, numbered, rest.list);
        return;
      }
    }
    assert MergeInfos(infos, siList, merge).list == [];
    assert siList + [] == siList;
  }

  /** An info numbered against `list`, then more that keep the longer list numbered. */
  lemma {:induction false} NumberedStep(list: seq<Info>, si: Info, more: seq<Info>)
    requires si.sequence == 1 + CountSame(list, si)
    requires Numbered(list + [si]) ==> Numbered(list + [si] + more)
    ensures Numbered(list) ==> Numbered(list + ([si] + more))
  {
    NumberedAppend(list, si);
    assert list + ([si] + more) == list + [si] + more;
  }

  lemma {:induction false} CountSameIgnoresSequence(list: seq<Info>, si: Info, k: int)
    ensures CountSame(list, si.(sequence := k)) == CountSame(list, si)
    decreases |list|
  {
    if |list| > 0 {
      CountSameIgnoresSequence(list[..|list| - 1], si, k);
    }
  }

  lemma {:induction false} NumberedAppend(list: seq<Info>, si: Info)
    requires si.sequence == 1 + CountSame(list, si)
    ensures Numbered(list) ==> Numbered(list + [si])
  {
    var grown := list + [si];
    assert grown[..|list|] == list;
    forall i | 0 <= i < |list|
      ensures grown[..i] == list[..i]
    {
    }
  }

  /** One account of the loop, after the reference was read. An alert skips it; the
      header row is passed over and each account starts from an empty `siList`. */
  function ScrapeAccount(page: AccountPage, parse: DateParser, merge: Info -> Outcome<Error>): (r: Sent)
    requires !page.alert ==> TableAsserts(page.table)
    requires ParenReference(page.name).Some?
    ensures page.alert ==> r == Sent([], None)
    ensures Numbered(r.list)
    ensures forall k :: 0 <= k < |r.list| ==> r.list[k].reference == ParenReference(page.name).value
    ensures r.failure.None? ==> |r.list| == (if page.alert then 0 else |page.table| - 1)
  {
    if page.alert then Sent([], None)
    else
      var reference := ParenReference(page.name).value;
      var r := MergeInfos(ReadTable(page.table, reference, parse), [], merge);
      MergeInfosNumbered(ReadTable(page.table, reference, parse), [], merge);
      assert [] + r.list == r.list;
      r
  }

  /** How `run` ended: the infos merged for each account without an alert, the
      exception that ended it, and whether the browser it opened was quit. */
  datatype Ended = Ended(accounts: seq<seq<Info>>, failure: Option<Error>, browserQuit: bool)

  /** The account loop from `start`. */
  function ScrapeFrom(pages: seq<AccountPage>, start: nat, parse: DateParser,
                      merge: Info -> Outcome<Error>): (r: (seq<seq<Info>>, Option<Error>))
    requires PagesAsserts(pages) && start <= |pages|
    ensures forall a :: 0 <= a < |r.0| ==> Numbered(r.0[a])
    ensures forall a :: 0 <= a < |r.0| ==> |r.0[a]| == 0 || r.0[a][0].sequence == 1
    decreases |pages| - start
  {
    if start == |pages| then ([], None)
    else
      var page := pages[start];
      var sent := ScrapeAccount(page, parse, merge);
      var here := if page.alert then [] else [sent.list];
      if sent.failure.Some? then (here, sent.failure)
      else
        var rest := ScrapeFrom(pages, start + 1, parse, merge);
        (here + rest.0, rest.1)
  }

  /** `run` after the login: the accounts, the sign-out, whose landmark check is
      `signedOff`, and only then `driver.quit()`; an exception anywhere leaves the
      browser open. */
  function Scrape(pages: seq<AccountPage>, parse: DateParser, merge: Info -> Outcome<Error>,
                  signedOff: Outcome<Error>): (r: Ended)
    requires PagesAsserts(pages)
    ensures r.browserQuit <==> r.failure.None?
    ensures signedOff.Fail? ==> r.failure.Some?
    ensures forall a :: 0 <= a < |r.accounts| ==> Numbered(r.accounts[a])
  {
    var (accounts, failure) := ScrapeFrom(pages, 0, parse, merge);
    if failure.Some? then Ended(accounts, failure, false)
    else match signedOff
      case Fail(e) => Ended(accounts, Some(e), false)
      case Pass => Ended(accounts, None, true)
  }

  /** Sequences restart with every account: the same transaction in two accounts'
      tables is numbered 1 in each, since each count only looks at its own account. */
  lemma {:induction false} SequencesRestartPerAccount(pages: seq<AccountPage>, parse: DateParser, merge: Info -> Outcome<Error>,
                                   signedOff: Outcome<Error>)
    requires PagesAsserts(pages)
    ensures var r := Scrape(pages, parse, merge, signedOff);
            forall a :: 0 <= a < |r.accounts| && |r.accounts[a]| > 0 ==> r.accounts[a][0].sequence == 1
  {
    var _ := ScrapeFrom(pages, 0, parse, merge);
  }

  /** Within one account, duplicates are numbered 1, 2, 3, ... in page order. */
  lemma {:induction false} DuplicatesNumberedInOrder(list: seq<Info>, i: nat, j: nat)
    requires Numbered(list) && i < j < |list| && SameExceptSequence(list[i], list[j])
    ensures list[i].sequence < list[j].sequence
  {
    CountSameMonotone(list, i + 1, j, list[j]);
    assert list[..i + 1][..i] == list[..i];
    CountSameIgnoresSequence(list[..i], list[i], list[j].sequence);
    assert list[i].(sequence := list[j].sequence) == list[j];
  }

  lemma {:induction false} CountSameMonotone(list: seq<Info>, i: nat, j: nat, si: Info)
    requires i <= j <= |list|
    ensures CountSame(list[..i], si) <= CountSame(list[..j], si)
    decreases j - i
  {
    if i < j {
      assert list[..j][..j - 1] == list[..j - 1];
      CountSameMonotone(list, i, j - 1, si);
    }
  }
}

=== FILE: lifecycle.dfy ===
/** The driver lifecycle: the `loggedIn` flag of the institution drivers, the
    idempotent `close` of `ScraperDriverBase`, and `PcfinancialScraperDriver.close`,
    which logs out first when still logged in.

    Page interaction is reduced to its completion: each login or logout is given
    the `Outcome` of its page checks (`findElement` and `checkState` on the landing
    page), `Pass` when every check succeeded. */
module Lifecycle {
  import opened Wrappers

  /** Observable effects, in the order they happen. `LoggedIn` and `LoggedOut` record
      the flag changing; the others record the call being made. */
  datatype Event =
    | LoggedIn
    | LoggedOut
    /** The "%d processed, %d inserted" report of `ScraperDriverBase.close`. */
    | CountsReported
    /** `driver.quit()` inside `ScraperDriverBase.close`. */
    | BrowserQuit
    /** `serverSession.close()` in `Scraper.scrape`. */
    | SessionClosed
    /** `driver.quit()` in `Scraper.scrape`. */
    | WebDriverQuit

  /** A driver object: its `loggedIn` flag, whether the base class still holds a
      browser (`driver != null`), and the effects so far. */
  datatype Driver = Driver(loggedIn: bool, browser: bool, trace: seq<Event>)

  /** A driver after a call that may have thrown. */
  datatype Step = Step(driver: Driver, outcome: Outcome<Error>)

  function Occurrences(t: seq<Event>, e: Event): (n: nat)
    ensures n <= |t|
  {
    if |t| == 0 then 0
    else Occurrences(t[..|t| - 1], e) + (if t[|t| - 1] == e then 1 else 0)
  }

  lemma {:induction false} OccurrencesAppend(t: seq<Event>, u: seq<Event>, e: Event)
    ensures Occurrences(t + u, e) == Occurrences(t, e) + Occurrences(u, e)
    decreases |u|
  {
    if |u| > 0 {
      var front := u[..|u| - 1];
      assert (t + u)[..|t + u| - 1] == t + front;
      OccurrencesAppend(t, front, e);
    } else {
      assert t + u == t;
    }
  }

  function Record(d: Driver, e: Event): (r: Driver)
    ensures r.loggedIn == d.loggedIn && r.browser == d.browser
    ensures forall x :: Occurrences(r.trace, x) == Occurrences(d.trace, x) + (if x == e then 1 else 0)
  {
    var r := d.(trace := d.trace + [e]);
    assert r.trace[..|r.trace| - 1] == d.trace;
    r
  }

  /** `logIn`: the flag is set only as the last step, once every page check passed;
      a failed check throws and leaves the driver as it was. */
  function LogIn(d: Driver, checks: Outcome<Error>): (r: Step)
    ensures r.outcome == checks
    ensures r.driver.loggedIn <==> d.loggedIn || checks.Pass?
    ensures r.driver.browser == d.browser
    ensures checks.Fail? ==> r.driver == d
    ensures forall x :: Occurrences(r.driver.trace, x) ==
              Occurrences(d.trace, x) + (if x == LoggedIn && checks.Pass? then 1 else 0)
  {
    match checks
    case Fail(_) => Step(d, checks)
    case Pass => Step(Record(d, LoggedIn).(loggedIn := true), Pass)
  }

  /** `logOut`: the flag is cleared only after the signed-off landmark was found. */
  function LogOut(d: Driver, signedOff: Outcome<Error>): (r: Step)
    ensures r.outcome == signedOff
    ensures r.driver.loggedIn <==> d.loggedIn && signedOff.Fail?
    ensures r.driver.browser == d.browser
    ensures signedOff.Fail? ==> r.driver == d
    ensures forall x :: Occurrences(r.driver.trace, x) ==
              Occurrences(d.trace, x) + (if x == LoggedOut && signedOff.Pass? then 1 else 0)
  {
    match signedOff
    case Fail(_) => Step(d, signedOff)
    case Pass => Step(Record(d, LoggedOut).(loggedIn := false), Pass)
  }

  /** `ScraperDriverBase.close`: always reports the counts; calls `driver.quit()` only
      while a browser is held, and lets the browser go only once that call returned.
      `quit` is what that call does; when it throws, `driver` is still set, so the next
      `close` calls it again. */
  function BaseClose(d: Driver, quit: Outcome<Error>): (r: Step)
    ensures r.driver.loggedIn == d.loggedIn
    ensures r.outcome.Pass? <==> !d.browser || quit.Pass?
    ensures r.outcome.Fail? ==> r.outcome == quit
    ensures r.driver.browser <==> d.browser && quit.Fail?
    ensures Occurrences(r.driver.trace, CountsReported) == Occurrences(d.trace, CountsReported) + 1
    ensures Occurrences(r.driver.trace, BrowserQuit) == Occurrences(d.trace, BrowserQuit) + (if d.browser then 1 else 0)
    ensures Occurrences(r.driver.trace, LoggedOut) == Occurrences(d.trace, LoggedOut)
    ensures Occurrences(r.driver.trace, LoggedIn) == Occurrences(d.trace, LoggedIn)
    ensures Occurrences(r.driver.trace, SessionClosed) == Occurrences(d.trace, SessionClosed)
    ensures Occurrences(r.driver.trace, WebDriverQuit) == Occurrences(d.trace, WebDriverQuit)
  {
    var reported := Record(d, CountsReported);
    if !d.browser then Step(reported, Pass)
    else
      var called := Record(reported, BrowserQuit);
      match quit
      case Fail(_) => Step(called, quit)
      case Pass => Step(called.(browser := false), Pass)
  }

  /** A second `close` reports the counts again, and calls `driver.quit()` again only
      when the first call threw. */
  lemma {:induction false} BaseCloseTwice(d: Driver, first: Outcome<Error>, second: Outcome<Error>)
    ensures var once := BaseClose(d, first).driver;
            var twice := BaseClose(once, second).driver;
            && Occurrences(twice.trace, BrowserQuit) ==
                 Occurrences(d.trace, BrowserQuit) + (if d.browser then 1 else 0) + (if d.browser && first.Fail? then 1 else 0)
            && Occurrences(twice.trace, CountsReported) == Occurrences(d.trace, CountsReported) + 2
  {
    var once := BaseClose(d, first).driver;
    assert once.browser <==> d.browser && first.Fail?;
  }

  /** `PcfinancialScraperDriver.close`: `logOut` iff logged in, then `super.close()`.
      A failing logout throws before `super.close()`, so the browser is kept; a
      throwing `driver.quit()` in `super.close()` makes `close` throw with it. */
  function Close(d: Driver, signedOff: Outcome<Error>, quit: Outcome<Error>): (r: Step)
    ensures r.outcome.Pass? <==> (!d.loggedIn || signedOff.Pass?) && (!d.browser || quit.Pass?)
    ensures r.outcome.Pass? ==> !r.driver.loggedIn && !r.driver.browser
    ensures d.loggedIn && signedOff.Fail? ==> r.driver == d && r.outcome == signedOff
    ensures !d.loggedIn || signedOff.Pass? ==>
              && !r.driver.loggedIn
              && (r.driver.browser <==> d.browser && quit.Fail?)
              && (r.outcome.Fail? ==> r.outcome == quit)
    ensures Occurrences(r.driver.trace, LoggedOut) ==
              Occurrences(d.trace, LoggedOut) + (if d.loggedIn && signedOff.Pass? then 1 else 0)
    ensures Occurrences(r.driver.trace, BrowserQuit) ==
              Occurrences(d.trace, BrowserQuit) + (if (!d.loggedIn || signedOff.Pass?) && d.browser then 1 else 0)
    ensures Occurrences(r.driver.trace, LoggedIn) == Occurrences(d.trace, LoggedIn)
    ensures Occurrences(r.driver.trace, SessionClosed) == Occurrences(d.trace, SessionClosed)
    ensures Occurrences(r.driver.trace, WebDriverQuit) == Occurrences(d.trace, WebDriverQuit)
  {
    if d.loggedIn then
      var out := LogOut(d, signedOff);
      if out.outcome.Fail? then out else BaseClose(out.driver, quit)
    else BaseClose(d, quit)
  }

  /** One call of `close`: what its logout landmark check and its `driver.quit()` do. */
  datatype Attempt = Attempt(signedOff: Outcome<Error>, quit: Outcome<Error>)

  /** `close` called once per attempt; an attempt that throws does not stop the later
      ones. */
  function CloseRepeatedly(d: Driver, attempts: seq<Attempt>): Driver
    decreases |attempts|
  {
    if |attempts| == 0 then d
    else CloseRepeatedly(Close(d, attempts[0].signedOff, attempts[0].quit).driver, attempts[1..])
  }

  /** How many of the attempts have a `driver.quit()` that throws. */
  function FailedQuits(attempts: seq<Attempt>): (n: nat)
    ensures n <= |attempts|
    decreases |attempts|
  {
    if |attempts| == 0 then 0 else (if attempts[0].quit.Fail? then 1 else 0) + FailedQuits(attempts[1..])
  }

  /** However often `close` is called, the driver logs out at most once, and only if it
      was logged in; `driver.quit()` is called at most once more than the number of
      calls to it that threw, so exactly once when none throws. */
  lemma {:induction false} CloseAtMostOnce(d: Driver, attempts: seq<Attempt>)
    ensures var r := CloseRepeatedly(d, attempts);
            && Occurrences(r.trace, BrowserQuit) <=
                 Occurrences(d.trace, BrowserQuit) + (if d.browser then 1 else 0) + FailedQuits(attempts)
            && Occurrences(r.trace, LoggedOut) <= Occurrences(d.trace, LoggedOut) + (if d.loggedIn then 1 else 0)
    decreases |attempts|
  {
    if |attempts| > 0 {
      var c := Close(d, attempts[0].signedOff, attempts[0].quit);
      assert CloseRepeatedly(d, attempts) == CloseRepeatedly(c.driver, attempts[1..]);
      if !c.driver.loggedIn && !c.driver.browser {
        ClosedStaysClosed(c.driver, attempts[1..]);
      } else {
        CloseAtMostOnce(c.driver, attempts[1..]);
      }
    }
  }

  /** Once logged out and without a browser, further calls quit nothing and log out
      nothing. */
  lemma {:induction false} ClosedStaysClosed(d: Driver, attempts: seq<Attempt>)
    requires !d.loggedIn && !d.browser
    ensures var r := CloseRepeatedly(d, attempts);
            && Occurrences(r.trace, BrowserQuit) == Occurrences(d.trace, BrowserQuit)
            && Occurrences(r.trace, LoggedOut) == Occurrences(d.trace, LoggedOut)
    decreases |attempts|
  {
    if |attempts| > 0 {
      ClosedStaysClosed(Close(d, attempts[0].signedOff, attempts[0].quit).driver, attempts[1..]);
    }
  }

  /** `PcfinancialScraperDriver.run`: log in, scrape (its outcome is given), log out. */
  function PcfinancialRun(d: Driver, login: Outcome<Error>, scrape: Outcome<Error>, signedOff: Outcome<Error>): (r: Step)
    ensures r.outcome.Pass? <==> login.Pass? && scrape.Pass? && signedOff.Pass?
    ensures r.outcome.Pass? ==> !r.driver.loggedIn
    ensures r.driver.browser == d.browser
  {
    var inside := LogIn(d, login);
    if inside.outcome.Fail? then inside
    else if scrape.Fail? then Step(inside.driver, scrape)
    else LogOut(inside.driver, signedOff)
  }

  /** A successful run has already logged out, so the following `close` does not log
      out again, and releases the browser when its quit returns; a run that failed
      after logging in is logged out exactly once by `close`; a run whose login failed
      is never logged out. */
  lemma {:induction false} RunThenClose(d: Driver, login: Outcome<Error>, scrape: Outcome<Error>,
                     signedOff: Outcome<Error>, closeSignedOff: Outcome<Error>, quit: Outcome<Error>)
    requires !d.loggedIn
    ensures var r := PcfinancialRun(d, login, scrape, signedOff);
            var c := Close(r.driver, closeSignedOff, quit);
            && (r.outcome.Pass? ==> Occurrences(c.driver.trace, LoggedOut) == Occurrences(d.trace, LoggedOut) + 1)
            && (r.outcome.Pass? && quit.Pass? ==> c.outcome.Pass? && !c.driver.browser)
            && (login.Pass? && scrape.Fail? && closeSignedOff.Pass? ==>
                  Occurrences(c.driver.trace, LoggedOut) == Occurrences(d.trace, LoggedOut) + 1)
            && (login.Fail? ==> Occurrences(c.driver.trace, LoggedOut) == Occurrences(d.trace, LoggedOut))
  {
  }

  /** `MbnaScraperDriver.logIn`: an `errorMessage` element on the landing page fails
      the login before `super.logIn()` can set the flag. */
  function MbnaLogIn(d: Driver, errorShown: bool, checks: Outcome<Error>): (r: Step)
    ensures r.outcome.Pass? <==> !errorShown && checks.Pass?
    ensures r.driver.loggedIn <==> d.loggedIn || (!errorShown && checks.Pass?)
    ensures errorShown ==> r.outcome == Fail(LoginFailed) && r.driver == d
  {
    if errorShown then Step(d, Fail(LoginFailed)) else LogIn(d, checks)
  }
}

=== FILE: mbna.dfy ===
/** `MbnaScraperDriver`: the first displayed account link and its "ending in" digits,
    the snapshot and statements transaction tables of that one account, and the
    login that fails on an error message (`Lifecycle.MbnaLogIn`). */
module Mbna {
  import opened Wrappers
  import opened Text
  import opened Decimals
  import opened IsoDate
  import opened Statements
  import opened Sessions
  import opened Amounts
  import opened References
  import opened AccountLoop

  const Institution: string := "mbna"

  /** An "Account Snapshot" link: its text and whether it is displayed. */
  datatype Link = Link(text: string, displayed: bool)

  /** A `tr` of the transaction table: its `th` texts and its `td` texts. */
  datatype TableRow = TableRow(head: seq<string>, cells: seq<string>)

  /** The index of the first displayed link. */
  function FirstDisplayed(links: seq<Link>): (r: Option<nat>)
    ensures r.Some? ==> r.value < |links| && links[r.value].displayed
    ensures r.Some? ==> forall j :: 0 <= j < r.value ==> !links[j].displayed
    ensures r.None? <==> forall j :: 0 <= j < |links| ==> !links[j].displayed
    decreases |links|
  {
    if |links| == 0 then None
    else if links[0].displayed then Some(0)
    else
      var rest := FirstDisplayed(links[1..]);
      assert forall j :: 1 <= j < |links| ==> links[j] == links[1..][j - 1];
      if rest.None? then None else Some(rest.value + 1)
  }

  /** `checkState(link != null)`, then the digits after the first "ending in ". */
  function Reference(links: seq<Link>): (r: Result<string, Error>)
    ensures r.Success? <==> FirstDisplayed(links).Some? && MbnaReference(links[FirstDisplayed(links).value].text).Some?
    ensures r.Success? ==> r.value == MbnaReference(links[FirstDisplayed(links).value].text).value && IsDigits(r.value)
    ensures r.Failure? ==> r.error == StateCheckFailed
  {
    match FirstDisplayed(links)
    case None => Failure(StateCheckFailed)
    case Some(i) =>
      match MbnaReference(links[i].text)
      case None => Failure(StateCheckFailed)
      case Some(digits) => Success(digits)
  }

  /** Five `th` cells whose texts, runs of whitespace collapsed where the code does
      so, start with the expected column names. */
  predicate HeaderOk(head: seq<string>) {
    && |head| == 5
    && StartsWith(CollapseSpaces(head[0]), "Transaction date")
    && StartsWith(CollapseSpaces(head[1]), "Posting date")
    && StartsWith(head[2], "Description")
    && StartsWith(CollapseSpaces(head[3]), "Reference number")
    && StartsWith(head[4], "Amount")
  }

  /** A pending transaction: no posting date yet, and the reference "TEMP". */
  predicate Pending(cells: seq<string>)
    requires |cells| == 5
  {
    cells[1] == "" && cells[3] == "TEMP"
  }

  /** One transaction row: five cells; a pending one is passed over; otherwise the
      posting date, the trimmed description and the negated amount. */
  function ReadRow(cells: seq<string>, accountId: int, parse: DateParser): (r: Row)
    ensures |cells| != 5 ==> r == Reject(StateCheckFailed)
    ensures r.Skip? <==> |cells| == 5 && Pending(cells)
    ensures |cells| == 5 && !Pending(cells) && parse(cells[1]).None? ==> r == Reject(DateUnparseable)
    ensures r.Accept? <==> |cells| == 5 && !Pending(cells) && parse(cells[1]).Some? && NegatedAmount(cells[4], false).Success?
    ensures r.Accept? ==>
              && r.statement.accountId == accountId && r.statement.sequence == 0
              && r.statement.date == Some(FormatIso(parse(cells[1]).value))
              && r.statement.description == Some(NormalizeDescription(cells[2]))
              && r.statement.amount == Some(NegatedAmount(cells[4], false).value)
  {
    if |cells| != 5 then Reject(StateCheckFailed)
    else if Pending(cells) then Skip
    else match WithParsedDate(Blank.(accountId := accountId), cells[1], parse)
      case Failure(e) => Reject(e)
      case Success(dated) =>
        var described := WithDescription(dated, Trim(cells[2]));
        TrimBeforeNormalize(cells[2]);
        match NegatedAmount(cells[4], false)
        case Failure(e) => Reject(e)
        case Success(amount) => Accept(described.(amount := Some(amount)))
  }

  /** The cells of a transaction as the site shows it: a charge as "$" + its digits,
      a payment as "-$" + its digits. */
  function Shown(transactionDate: string, postingDate: string, description: string, reference: string,
                 amount: Decimal, payment: bool): seq<string> {
    [transactionDate, postingDate, description, reference, (if payment then "-$" else "$") + PlainString(amount)]
  }

  /** A posted transaction shown on the page is read back with charges negative and
      payments positive. */
  lemma {:induction false} ReadShownRow(d: LocalDate, transactionDate: string, postingDate: string, description: string,
                     reference: string, amount: Decimal, payment: bool, accountId: int, parse: DateParser)
    requires parse(postingDate) == Some(d) && IsDisplayable(amount)
    requires postingDate != "" || reference != "TEMP"
    ensures ReadRow(Shown(transactionDate, postingDate, description, reference, amount, payment), accountId, parse) ==
            Accept(Statement(Some(FormatIso(d)), accountId, Some(if payment then amount else Negate(amount)),
                             Some(NormalizeDescription(description)), 0))
  {
    var cells := Shown(transactionDate, postingDate, description, reference, amount, payment);
    assert |cells| == 5 && cells[1] == postingDate && cells[2] == description && cells[3] == reference;
    assert cells[4] == (if payment then "-$" else "$") + PlainString(amount);
    NegatedRoundTrip(amount, false);
  }

  /** The explicit `trim()` before `setDescription` changes nothing. */
  lemma {:induction false} TrimBeforeNormalize(text: string)
    ensures NormalizeDescription(Trim(text)) == NormalizeDescription(text)
  {
    var t := Trim(text);
    NormalizeIsTrimThenReplace(text);
    NormalizeIsTrimThenReplace(t);
    TrimKeeps(t);
  }

  /** A transaction table: a header row, then transactions. */
  function ReadTable(table: seq<TableRow>, accountId: int, parse: DateParser): (rows: seq<Row>)
    ensures |table| == 0 || !HeaderOk(table[0].head) ==> rows == [Reject(StateCheckFailed)]
    ensures |table| > 0 && HeaderOk(table[0].head) ==>
              |rows| == |table| - 1 && forall j :: 0 <= j < |rows| ==> rows[j] == ReadRow(table[j + 1].cells, accountId, parse)
    ensures forall j :: 0 <= j < |rows| && rows[j].Accept? ==> rows[j].statement.accountId == accountId
  {
    ReadHeaded(table, (row: TableRow) => HeaderOk(row.head), (row: TableRow) => ReadRow(row.cells, accountId, parse))
  }

  /** The one account: the snapshot table first, then the statements table, both under
      the accountId of the one lookup. */
  function ToAccount(links: seq<Link>, snapshot: seq<TableRow>, statements: seq<TableRow>, parse: DateParser): Account {
    Account(Reference(links), false, id => ReadTable(snapshot, id, parse) + ReadTable(statements, id, parse))
  }

  function Scrape(sess: Session, links: seq<Link>, snapshot: seq<TableRow>, statements: seq<TableRow>,
                  server: Server, parse: DateParser): (p: Progress)
    ensures Valid(sess) ==> Valid(p.session)
    ensures FirstDisplayed(links).None? ==> p == Progress(sess, [], Some(StateCheckFailed))
    ensures p.failure.None? ==> Reference(links).Success? && p.lookups == [Reference(links).value]
  {
    Visit(sess, [ToAccount(links, snapshot, statements, parse)], Institution, server)
  }

  /** Every statement a complete run records names the account linked to the
      reference: both tables are merged under the one accountId. */
  lemma {:induction false} OneAccountId(sess: Session, links: seq<Link>, snapshot: seq<TableRow>, statements: seq<TableRow>,
                     server: Server, parse: DateParser)
    ensures var p := Scrape(sess, links, snapshot, statements, server, parse);
            p.failure.None? ==>
              var id := server.lookup(AccountTarget(sess.url, Institution, Reference(links).value)).accountId;
              forall k :: |sess.recorded| <= k < |p.session.recorded| ==> p.session.recorded[k].accountId == id
  {
    var a := ToAccount(links, snapshot, statements, parse);
    if a.reference.Success? {
      var id := server.lookup(AccountTarget(sess.url, Institution, a.reference.value)).accountId;
      var rows := a.rows(id);
      assert rows == ReadTable(snapshot, id, parse) + ReadTable(statements, id, parse);
      SingleAccount(sess, a, Institution, server);
    }
  }
}

=== FILE: pcfinancial.dfy ===
/** `PcfinancialScraperDriver.run`: the deposit accounts of the account summary, the
    "(digits)" reference of each, and the five-column transaction table, merged through
    the base class (`ScraperDriverBase.merge`, which behaves as the session's `Merge`,
    see `Sessions.LegacyMergeAgrees`). */
module Pcfinancial {
  import opened Wrappers
  import opened Decimals
  import opened IsoDate
  import opened Statements
  import opened Sessions
  import opened Amounts
  import opened References
  import opened AccountLoop

  /** A `td` cell: its `class` attribute and its text. */
  datatype Cell = Cell(kind: string, text: string)

  /** A `tr` of the transaction table: its text and its `td` cells. */
  datatype TableRow = TableRow(text: string, cells: seq<Cell>)

  /** An account as reached from the summary: the selected option of the account
      selector, whether a `ui-alert` is shown, and the transaction table. */
  datatype AccountPage = AccountPage(name: string, alert: bool, table: seq<TableRow>)

  const Header: string := "Date Transactions Funds out Funds in Running Balance"
  const Columns: seq<string> := ["date", "transactions", "debit", "credit", "balance"]

  /** Five cells, classed date, transactions, debit, credit, balance. */
  predicate Shaped(cells: seq<Cell>) {
    |cells| == |Columns| && forall i :: 0 <= i < |cells| ==> cells[i].kind == Columns[i]
  }

  /** One transaction row. The description is stored as shown; the date goes through
      the site's "MMM d, yyyy" parser to ISO text. */
  function ReadRow(cells: seq<Cell>, accountId: int, parse: DateParser): (r: Row)
    ensures !r.Skip?
    ensures !Shaped(cells) ==> r == Reject(StateCheckFailed)
    ensures Shaped(cells) && parse(cells[0].text).None? ==> r == Reject(DateUnparseable)
    ensures r.Accept? <==>
              Shaped(cells) && parse(cells[0].text).Some? && PcfinancialAmount(cells[2].text, cells[3].text).Success?
    ensures r.Accept? ==>
              && r.statement.accountId == accountId && r.statement.sequence == 0
              && r.statement.date == Some(FormatIso(parse(cells[0].text).value))
              && r.statement.description == Some(cells[1].text)
              && r.statement.amount == Some(PcfinancialAmount(cells[2].text, cells[3].text).value)
  {
    if !Shaped(cells) then Reject(StateCheckFailed)
    else match parse(cells[0].text)
      case None => Reject(DateUnparseable)
      case Some(d) =>
        match PcfinancialAmount(cells[2].text, cells[3].text)
        case Failure(e) => Reject(e)
        case Success(amount) =>
          Accept(Blank.(accountId := accountId, date := Some(FormatIso(d)),
                        description := Some(cells[1].text), amount := Some(amount)))
  }

  /** The cells of a transaction as the site shows it: `dateText` is the site's text
      for the date, the amount is written "$" + its digits in one of the two columns. */
  function Shown(dateText: string, description: string, amount: Decimal, debit: bool, balance: string): seq<Cell> {
    var shown := "$" + PlainString(amount);
    [Cell("date", dateText), Cell("transactions", description),
     Cell("debit", if debit then shown else ""), Cell("credit", if debit then "" else shown),
     Cell("balance", balance)]
  }

  /** A transaction shown on the page is read back as that transaction, its amount
      negated when it sits in the "Funds out" column. */
  lemma {:induction false} ReadShownRow(d: LocalDate, dateText: string, description: string, amount: Decimal, debit: bool,
                     balance: string, accountId: int, parse: DateParser)
    requires parse(dateText) == Some(d) && IsDisplayable(amount)
    ensures ReadRow(Shown(dateText, description, amount, debit, balance), accountId, parse) ==
            Accept(Statement(Some(FormatIso(d)), accountId, Some(if debit then Negate(amount) else amount),
                             Some(description), 0))
  {
    var cells := Shown(dateText, description, amount, debit, balance);
    var shown := "$" + PlainString(amount);
    assert Shaped(cells) by {
      assert forall i :: 0 <= i < 5 ==> cells[i].kind == Columns[i];
    }
    assert cells[0].text == dateText && cells[1].text == description;
    assert PcfinancialAmount(cells[2].text, cells[3].text) == Success(if debit then Negate(amount) else amount) by {
      PcfinancialRoundTrip(amount);
    }
  }

  /** The transaction table: the first row must read exactly `Header`; every later row
      is a transaction. */
  function ReadTable(table: seq<TableRow>, accountId: int, parse: DateParser): (rows: seq<Row>)
    ensures |table| == 0 || table[0].text != Header ==> rows == [Reject(StateCheckFailed)]
    ensures |table| > 0 && table[0].text == Header ==>
              |rows| == |table| - 1 && forall j :: 0 <= j < |rows| ==> rows[j] == ReadRow(table[j + 1].cells, accountId, parse)
    ensures forall j :: 0 <= j < |rows| && rows[j].Accept? ==> rows[j].statement.accountId == accountId
  {
    ReadHeaded(table, (row: TableRow) => row.text == Header, (row: TableRow) => ReadRow(row.cells, accountId, parse))
  }

  /** `checkState(reference.matches("^[0-9]+$"))` after the "(digits)" extraction. */
  function Reference(name: string): (r: Result<string, Error>)
    ensures r.Success? <==> ParenReference(name).Some?
    ensures r.Success? ==> r.value == ParenReference(name).value
    ensures r.Failure? ==> r.error == StateCheckFailed
  {
    match ParenReference(name)
    case None => Failure(StateCheckFailed)
    case Some(digits) => Success(digits)
  }

  function ToAccount(page: AccountPage, parse: DateParser): Account {
    Account(Reference(page.name), page.alert, accountId => ReadTable(page.table, accountId, parse))
  }

  function Accounts(pages: seq<AccountPage>, parse: DateParser): (accounts: seq<Account>)
    ensures |accounts| == |pages|
    ensures forall i :: 0 <= i < |pages| ==> accounts[i] == ToAccount(pages[i], parse)
  {
    seq(|pages|, i requires 0 <= i < |pages| => ToAccount(pages[i], parse))
  }

  /** The references a complete run looks up: the "(digits)" of every account without
      an alert, in summary order (up to an account without one, where the run stops). */
  function AlertFreeReferences(pages: seq<AccountPage>): seq<string>
    decreases |pages|
  {
    if |pages| == 0 || ParenReference(pages[0].name).None? then []
    else
      (if pages[0].alert then [] else [ParenReference(pages[0].name).value]) + AlertFreeReferences(pages[1..])
  }

  /** The account loop of `run`, between `logIn` and `logOut`: the deposit table must
      list an account. */
  function Scrape(sess: Session, pages: seq<AccountPage>, institution: string, server: Server,
                  parse: DateParser): (p: Progress)
    ensures Valid(sess) ==> Valid(p.session)
    ensures |pages| == 0 ==> p == Progress(sess, [], Some(StateCheckFailed))
    ensures (exists i :: 0 <= i < |pages| && ParenReference(pages[i].name).None?) ==> p.failure.Some?
    ensures p.failure.None? ==> p.lookups == AlertFreeReferences(pages)
  {
    if |pages| == 0 then Progress(sess, [], Some(StateCheckFailed))
    else
      var accounts := Accounts(pages, parse);
      var p := Visit(sess, accounts, institution, server);
      if p.failure.None? then LookupsOfPages(pages, parse); p else p
  }

  lemma {:induction false} LookupsOfPages(pages: seq<AccountPage>, parse: DateParser)
    requires Readable(Accounts(pages, parse))
    ensures Lookups(Accounts(pages, parse)) == AlertFreeReferences(pages)
    decreases |pages|
  {
    if |pages| > 0 {
      var accounts := Accounts(pages, parse);
      assert Accounts(pages, parse)[1..] == Accounts(pages[1..], parse);
      assert accounts[0].reference.Success?;
      LookupsOfPages(pages[1..], parse);
    }
  }

  /** An account showing an alert is passed over as if the summary did not list it. */
  lemma {:induction false} AlertPageSkipped(sess: Session, pages: seq<AccountPage>, i: nat, institution: string, server: Server,
                         parse: DateParser)
    requires 1 < |pages| && i < |pages| && pages[i].alert && ParenReference(pages[i].name).Some?
    ensures Scrape(sess, pages, institution, server, parse) ==
            Scrape(sess, pages[..i] + pages[i + 1..], institution, server, parse)
  {
    var accounts := Accounts(pages, parse);
    AccountsWithout(pages, i, parse);
    AlertSkipped(sess, accounts, i, institution, server);
  }

  /** Removing a page removes its account and nothing else. */
  lemma {:induction false} AccountsWithout(pages: seq<AccountPage>, i: nat, parse: DateParser)
    requires i < |pages|
    ensures Accounts(pages[..i] + pages[i + 1..], parse) == Accounts(pages, parse)[..i] + Accounts(pages, parse)[i + 1..]
  {
    var without := pages[..i] + pages[i + 1..];
    var accounts := Accounts(pages, parse);
    var kept := accounts[..i] + accounts[i + 1..];
    assert |kept| == |without|;
    forall k | 0 <= k < |without|
      ensures Accounts(without, parse)[k] == kept[k]
    {
      var j := if k < i then k else k + 1;
      assert without[k] == pages[j] && kept[k] == accounts[j];
    }
  }
}

=== FILE: rbc.dfy ===
/** `RbcScraperDriver.scrape`: one account per link of the "Bank Accounts" table,
    the reference read from the "Letters digits-digits" label beside the link, and
    the transactions of the last 30 days, whose withdrawals carry their own "-". */
module Rbc {
  import opened Wrappers
  import opened Text
  import opened Decimals
  import opened IsoDate
  import opened Statements
  import opened Sessions
  import opened Amounts
  import opened References
  import opened AccountLoop

  const Institution: string := "rbc"
  const Header: string := "DATE DESCRIPTION WITHDRAWALS DEPOSIT BALANCE"

  /** A `tr` of the transactions table: its text and the texts of its cells. */
  datatype TableRow = TableRow(text: string, cells: seq<string>)

  /** A link of the accounts table: the label next to it and the transactions table
      of the account it opens. */
  datatype AccountPage = AccountPage(text: string, table: seq<TableRow>)

  /** The description as stored: runs of whitespace collapsed to one space, then the
      statement's own normalisation. */
  function Description(text: string): (r: string)
    ensures forall i :: 0 <= i < |r| - 1 ==> !(r[i] == ' ' && r[i + 1] == ' ')
    ensures forall i :: 0 <= i < |r| ==> !IsRegexSpace(r[i]) || r[i] == ' '
  {
    var collapsed := CollapseSpaces(text);
    SingleSpacedNormalized(collapsed);
    NormalizeDescription(collapsed)
  }

  /** Normalising text without two spaces in a row keeps it that way. */
  lemma {:induction false} SingleSpacedNormalized(s: string)
    requires forall i :: 0 <= i < |s| ==> (IsRegexSpace(s[i]) ==> s[i] == ' ')
    requires forall i :: 0 <= i < |s| - 1 ==> !(s[i] == ' ' && s[i + 1] == ' ')
    ensures var r := NormalizeDescription(s);
            forall i :: 0 <= i < |r| - 1 ==> !(r[i] == ' ' && r[i + 1] == ' ')
  {
    SpacesAlreadyReplaced(s);
    var r := Trim(s);
    var i, j :| 0 <= i <= j <= |s| && r == s[i..j];
    SingleSpacedSlice(s, i, j);
  }

  lemma {:induction false} SpacesAlreadyReplaced(s: string)
    requires forall i :: 0 <= i < |s| ==> (IsRegexSpace(s[i]) ==> s[i] == ' ')
    ensures ReplaceSpaces(s) == s
  {
    var r := ReplaceSpaces(s);
    assert forall k :: 0 <= k < |s| ==> r[k] == s[k];
  }

  lemma {:induction false} SingleSpacedSlice(s: string, i: nat, j: nat)
    requires i <= j <= |s|
    requires forall k :: 0 <= k < |s| - 1 ==> !(s[k] == ' ' && s[k + 1] == ' ')
    ensures var r := s[i..j]; forall k :: 0 <= k < |r| - 1 ==> !(r[k] == ' ' && r[k + 1] == ' ')
  {
    var r := s[i..j];
    forall k | 0 <= k < |r| - 1
      ensures !(r[k] == ' ' && r[k + 1] == ' ')
    {
      assert r[k] == s[i + k] && r[k + 1] == s[i + k + 1];
    }
  }

  /** One transaction row: five cells, the date, the description, then exactly one of
      withdrawal and deposit. */
  function ReadRow(cells: seq<string>, accountId: int, parse: DateParser): (r: Row)
    ensures !r.Skip?
    ensures |cells| != 5 ==> r == Reject(StateCheckFailed)
    ensures |cells| == 5 && parse(cells[0]).None? ==> r == Reject(DateUnparseable)
    ensures r.Accept? <==> |cells| == 5 && parse(cells[0]).Some? && RbcAmount(cells[2], cells[3]).Success?
    ensures r.Accept? ==>
              && r.statement.accountId == accountId && r.statement.sequence == 0
              && r.statement.date == Some(FormatIso(parse(cells[0]).value))
              && r.statement.description == Some(Description(cells[1]))
              && r.statement.amount == Some(RbcAmount(cells[2], cells[3]).value)
  {
    if |cells| != 5 then Reject(StateCheckFailed)
    else match WithParsedDate(Blank.(accountId := accountId), cells[0], parse)
      case Failure(e) => Reject(e)
      case Success(dated) =>
        var described := WithDescription(dated, CollapseSpaces(cells[1]));
        match RbcAmount(cells[2], cells[3])
        case Failure(e) => Reject(e)
        case Success(amount) => Accept(described.(amount := Some(amount)))
  }

  /** The cells of a transaction as the site shows it: a deposit as "$" + its digits,
      a withdrawal as "-$" + its digits. */
  function Shown(dateText: string, description: string, amount: Decimal, withdrawal: bool, balance: string): seq<string> {
    var shown := "$" + PlainString(amount);
    [dateText, description, if withdrawal then "-" + shown else "", if withdrawal then "" else shown, balance]
  }

  /** A transaction shown on the page is read back with the sign its column gives. */
  lemma {:induction false} ReadShownRow(d: LocalDate, dateText: string, description: string, amount: Decimal, withdrawal: bool,
                     balance: string, accountId: int, parse: DateParser)
    requires parse(dateText) == Some(d) && IsDisplayable(amount) && amount.scale == 2
    ensures ReadRow(Shown(dateText, description, amount, withdrawal, balance), accountId, parse) ==
            Accept(Statement(Some(FormatIso(d)), accountId, Some(if withdrawal then Negate(amount) else amount),
                             Some(Description(description)), 0))
  {
    var cells := Shown(dateText, description, amount, withdrawal, balance);
    ShownAmount(amount, withdrawal, cells[2], cells[3]);
    ReadRowOf(cells, accountId, parse, d, if withdrawal then Negate(amount) else amount);
  }

  /** The two amount cells of `Shown` read back as the amount, with its sign. */
  lemma {:induction false} ShownAmount(amount: Decimal, withdrawal: bool, withdrawn: string, deposited: string)
    requires IsDisplayable(amount) && amount.scale == 2
    requires withdrawn == (if withdrawal then "-" + ("$" + PlainString(amount)) else "")
    requires deposited == (if withdrawal then "" else "$" + PlainString(amount))
    ensures RbcAmount(withdrawn, deposited) == Success(if withdrawal then Negate(amount) else amount)
  {
    var p := PlainString(amount);
    if withdrawal {
      assert withdrawn == "-$" + p && deposited == "" by {
        assert "-$" + p == "-" + ("$" + p);
      }
      RbcWithdrawalRoundTrip(amount);
    } else {
      assert withdrawn == "" && deposited == "$" + p;
      RbcDepositRoundTrip(amount);
    }
  }

  /** A five-cell row whose date parses and whose amount cells read is accepted as
      the statement they give. */
  lemma {:induction false} ReadRowOf(cells: seq<string>, accountId: int, parse: DateParser, d: LocalDate, amount: Decimal)
    requires |cells| == 5 && parse(cells[0]) == Some(d) && RbcAmount(cells[2], cells[3]) == Success(amount)
    ensures ReadRow(cells, accountId, parse) ==
            Accept(Statement(Some(FormatIso(d)), accountId, Some(amount), Some(Description(cells[1])), 0))
  {
    var r := ReadRow(cells, accountId, parse);
    assert r.Accept?;
    assert r.statement == Statement(Some(FormatIso(d)), accountId, Some(amount), Some(Description(cells[1])), 0);
  }

  /** The transactions table: the first row must read exactly `Header`. */
  function ReadTable(table: seq<TableRow>, accountId: int, parse: DateParser): (rows: seq<Row>)
    ensures |table| == 0 || table[0].text != Header ==> rows == [Reject(StateCheckFailed)]
    ensures |table| > 0 && table[0].text == Header ==>
              |rows| == |table| - 1 && forall j :: 0 <= j < |rows| ==> rows[j] == ReadRow(table[j + 1].cells, accountId, parse)
    ensures forall j :: 0 <= j < |rows| && rows[j].Accept? ==> rows[j].statement.accountId == accountId
  {
    ReadHeaded(table, (row: TableRow) => row.text == Header, (row: TableRow) => ReadRow(row.cells, accountId, parse))
  }

  /** The label must match `^([A-Za-z]+) ([-0-9]+)$`; the reference is the second part
      without its dashes, and must not be empty. */
  function Reference(text: string): (r: Result<string, Error>)
    ensures r.Success? <==> RbcReference(text).Some?
    ensures r.Success? ==> r.value == RbcReference(text).value && IsDigits(r.value)
    ensures r.Failure? ==> r.error == StateCheckFailed
  {
    match RbcReference(text)
    case None => Failure(StateCheckFailed)
    case Some(digits) => Success(digits)
  }

  function Accounts(pages: seq<AccountPage>, parse: DateParser): (accounts: seq<Account>)
    ensures |accounts| == |pages|
    ensures forall i :: 0 <= i < |pages| ==>
              accounts[i] == Account(Reference(pages[i].text), false, id => ReadTable(pages[i].table, id, parse))
  {
    seq(|pages|, i requires 0 <= i < |pages| =>
      Account(Reference(pages[i].text), false, id => ReadTable(pages[i].table, id, parse)))
  }

  /** The loop over the links: there must be one, and each is visited in turn until
      the index reaches the number of links. */
  function Scrape(sess: Session, pages: seq<AccountPage>, server: Server, parse: DateParser): (p: Progress)
    ensures Valid(sess) ==> Valid(p.session)
    ensures |pages| == 0 ==> p == Progress(sess, [], Some(StateCheckFailed))
    ensures p.failure.None? ==>
              |p.lookups| == |pages| && forall i :: 0 <= i < |pages| ==>
                RbcReference(pages[i].text).Some? && p.lookups[i] == RbcReference(pages[i].text).value
  {
    if |pages| == 0 then Progress(sess, [], Some(StateCheckFailed))
    else
      var p := Visit(sess, Accounts(pages, parse), Institution, server);
      if p.failure.None? then EveryLinkLookedUp(pages, parse); p else p
  }

  lemma {:induction false} EveryLinkLookedUp(pages: seq<AccountPage>, parse: DateParser)
    requires Readable(Accounts(pages, parse))
    ensures var refs := Lookups(Accounts(pages, parse));
            |refs| == |pages| && forall i :: 0 <= i < |pages| ==>
              RbcReference(pages[i].text).Some? && refs[i] == RbcReference(pages[i].text).value
  {
    LookupsOfAlertFree(Accounts(pages, parse));
  }
}

=== FILE: references.dfy ===
/** Account references read off the institution pages: the text each driver passes
    to `getAccountId`. Each function returns `None` where the driver's `checkState`
    (or `matcher.find()`) fails. */
module References {
  import opened Wrappers
  import opened Text

  /** The end of the maximal run of digits starting at `i`. */
  function DigitRunEnd(s: string, i: nat): (k: nat)
    requires i <= |s|
    ensures i <= k <= |s|
    ensures forall j :: i <= j < k ==> IsDigit(s[j])
    ensures k < |s| ==> !IsDigit(s[k])
    decreases |s| - i
  {
    if i < |s| && IsDigit(s[i]) then DigitRunEnd(s, i + 1) else i
  }

  predicate HasLineTerminator(s: string) {
    exists i :: 0 <= i < |s| && IsLineTerminator(s[i])
  }

  // ----- "(digits)": PcfinancialScraperDriver, SimpliiScraperDriver, legacy pcfinancial -----

  /** `\(([0-9]+)\)` matches at `p`. */
  predicate GroupAt(s: string, p: nat) {
    && p < |s| && s[p] == '('
    && var q := DigitRunEnd(s, p + 1);
       q > p + 1 && q < |s| && s[q] == ')'
  }

  /** The digits of the group at `p`. */
  function GroupDigits(s: string, p: nat): (r: string)
    requires GroupAt(s, p)
    ensures IsDigits(r)
  {
    s[p + 1..DigitRunEnd(s, p + 1)]
  }

  /** A match of `\(([0-9]+)\)` at `p` ending at `q` is the one `GroupAt` describes: the
      digits cannot run past the closing parenthesis. */
  lemma {:induction false} GroupMatchIsUnique(s: string, p: nat, q: nat)
    requires p + 1 < q < |s| && s[p] == '(' && s[q] == ')'
    requires forall j :: p + 1 <= j < q ==> IsDigit(s[j])
    ensures GroupAt(s, p) && GroupDigits(s, p) == s[p + 1..q]
  {
  }

  /** The last position before `p` where a group starts. */
  function LastGroupBefore(s: string, p: nat): (r: Option<nat>)
    requires p <= |s|
    ensures r.Some? ==> r.value < p && GroupAt(s, r.value)
    ensures r.Some? ==> forall j :: r.value < j < p ==> !GroupAt(s, j)
    ensures r.None? ==> forall j :: 0 <= j < p ==> !GroupAt(s, j)
    decreases p
  {
    if p == 0 then None
    else if GroupAt(s, p - 1) then Some(p - 1)
    else LastGroupBefore(s, p - 1)
  }

  /** `accountName.replaceFirst(".*\\(([0-9]+)\\).*", "$1")` followed by
      `checkState(reference.matches("^[0-9]+$"))`.

      Without line terminators the greedy `.*` makes the match span the whole name and
      pick the last "(digits)" group, so the reference is its digits; with no group the
      name is kept and must itself be digits. `.` never matches a line terminator, so
      any line terminator in the name survives the replacement and fails the check. */
  function ParenReference(name: string): (r: Option<string>)
    ensures r.Some? ==> IsDigits(r.value)
    ensures HasLineTerminator(name) ==> r.None?
    ensures !HasLineTerminator(name) && (forall j :: 0 <= j < |name| ==> !GroupAt(name, j)) ==>
              r == (if IsDigits(name) then Some(name) else None)
    ensures forall p :: 0 <= p < |name| && !HasLineTerminator(name) && GroupAt(name, p)
                        && (forall j :: p < j < |name| ==> !GroupAt(name, j)) ==>
              r == Some(GroupDigits(name, p))
  {
    if HasLineTerminator(name) then None
    else
      match LastGroupBefore(name, |name|)
      case Some(p) => Some(GroupDigits(name, p))
      case None => if IsDigits(name) then Some(name) else None
  }

  /** A name with no '(' in it is its own reference when it is all digits, and
      has none otherwise. */
  lemma {:induction false} ParenReferenceWithoutParen(name: string)
    requires forall j :: 0 <= j < |name| ==> name[j] != '('
    ensures ParenReference(name) == (if IsDigits(name) then Some(name) else None)
  {
    if HasLineTerminator(name) {
      var i :| 0 <= i < |name| && IsLineTerminator(name[i]);
      assert !IsDigit(name[i]);
    }
    assert forall j :: 0 <= j < |name| ==> !GroupAt(name, j);
  }

  /** A name ending in "(digits)" yields those digits whatever precedes them, as long
      as there is no line terminator. */
  lemma {:induction false} ParenReferenceOfSuffix(front: string, digits: string)
    requires IsDigits(digits) && !HasLineTerminator(front)
    ensures ParenReference(front + "(" + digits + ")") == Some(digits)
  {
    var s := front + "(" + digits + ")";
    var p := |front|;
    var q := |s| - 1;
    assert s[p] == '(' && s[q] == ')';
    assert s[p + 1..q] == digits;
    assert forall j :: p + 1 <= j < q ==> s[j] == digits[j - p - 1];
    GroupMatchIsUnique(s, p, q);
    forall j | p < j < |s|
      ensures !GroupAt(s, j)
    {
      assert s[j] != '(' by {
        if j < q {
          assert s[j] == digits[j - p - 1];
        }
      }
    }
    assert !HasLineTerminator(s) by {
      forall i | 0 <= i < |s|
        ensures !IsLineTerminator(s[i])
      {
        if i < p {
          assert s[i] == front[i];
        } else if p < i < q {
          assert s[i] == digits[i - p - 1];
        }
      }
    }
  }

  /** A line terminator anywhere fails the reference, even after a good group. */
  lemma {:induction false} ParenReferenceRejectsTerminator(front: string)
    ensures ParenReference(front + "\n") == None
  {
    var s := front + "\n";
    assert IsLineTerminator(s[|s| - 1]);
  }

  // ----- RbcScraperDriver: `^([A-Za-z]+) ([-0-9]+)$` -----

  predicate IsLetters(s: string) {
    |s| > 0 && forall i :: 0 <= i < |s| ==> IsAsciiLetter(s[i])
  }

  /** `[-0-9]+`. */
  predicate IsDashDigits(s: string) {
    |s| > 0 && forall i :: 0 <= i < |s| ==> IsDigit(s[i]) || s[i] == '-'
  }

  /** What `$` lets `find()` leave after the match: nothing, or one final line
      terminator ("\r\n" counting as one). */
  predicate IsFinalTerminator(t: string) {
    t == "" || t == "\r\n" || (|t| == 1 && IsLineTerminator(t[0]))
  }

  function DropFinalTerminator(s: string): (r: string)
    ensures |r| <= |s| && s == r + s[|r|..] && IsFinalTerminator(s[|r|..])
  {
    if |s| >= 2 && s[|s| - 2..] == "\r\n" then s[..|s| - 2]
    else if |s| >= 1 && IsLineTerminator(s[|s| - 1]) then s[..|s| - 1]
    else s
  }

  /** `matcher.find()` and `matcher.group(2)` for `^([A-Za-z]+) ([-0-9]+)$`. */
  function RbcLabelNumber(name: string): (r: Option<string>)
    ensures r.Some? ==> IsDashDigits(r.value)
    ensures r.Some? ==> exists letters, tail :: IsLetters(letters) && IsFinalTerminator(tail)
                                                && name == letters + " " + r.value + tail
  {
    var k := IndexOf(name, ' ');
    if k == |name| || !IsLetters(name[..k]) then None
    else
      var rest := name[k + 1..];
      var body := DropFinalTerminator(rest);
      if !IsDashDigits(body) then None
      else
        assert name == name[..k] + " " + body + rest[|body|..];
        Some(body)
  }

  /** Every label of the shape is accepted, with its second part as the group. */
  lemma {:induction false} RbcLabelComplete(letters: string, number: string, tail: string)
    requires IsLetters(letters) && IsDashDigits(number) && IsFinalTerminator(tail)
    ensures RbcLabelNumber(letters + " " + number + tail) == Some(number)
  {
    var name := letters + " " + number + tail;
    assert name == letters + " " + (number + tail);
    SplitAtSpace(letters, number + tail);
    DropsFinalTerminator(number, tail);
  }

  /** The first space of a label comes right after its letters. */
  lemma {:induction false} SplitAtSpace(letters: string, rest: string)
    requires IsLetters(letters)
    ensures var name := letters + " " + rest;
            var k := IndexOf(name, ' ');
            k == |letters| && name[..k] == letters && name[k + 1..] == rest
  {
    var name := letters + " " + rest;
    var k := IndexOf(name, ' ');
    assert name[|letters|] == ' ';
  }

  /** `$` leaves exactly the final terminator behind a `[-0-9]+` body. */
  lemma {:induction false} DropsFinalTerminator(number: string, tail: string)
    requires IsDashDigits(number) && IsFinalTerminator(tail)
    ensures DropFinalTerminator(number + tail) == number
  {
    if tail == "\r\n" {
      DropsCrLf(number);
    } else if |tail| == 1 {
      DropsOneTerminator(number, tail[0]);
    } else {
      KeepsUnterminated(number);
    }
  }

  lemma {:induction false} DropsCrLf(number: string)
    requires IsDashDigits(number)
    ensures DropFinalTerminator(number + "\r\n") == number
  {
    var rest := number + "\r\n";
    assert rest[|rest| - 2..] == "\r\n";
    assert rest[..|rest| - 2] == number;
  }

  lemma {:induction false} DropsOneTerminator(number: string, c: char)
    requires IsDashDigits(number) && IsLineTerminator(c)
    ensures DropFinalTerminator(number + [c]) == number
  {
    var rest := number + [c];
    var last := number[|number| - 1];
    assert last != '\r' && last != '\n';
    assert rest[|rest| - 2] == last;
    assert rest[..|rest| - 1] == number;
  }

  lemma {:induction false} KeepsUnterminated(number: string)
    requires IsDashDigits(number)
    ensures DropFinalTerminator(number) == number
  {
    var last := number[|number| - 1];
    assert !IsLineTerminator(last);
    if |number| >= 2 {
      assert number[|number| - 2..][1] == last;
    }
  }

  /** The reference: group 2 with every non-digit removed, which must leave digits. */
  function RbcReference(name: string): (r: Option<string>)
    ensures r.Some? ==> IsDigits(r.value)
    ensures r.Some? ==> RbcLabelNumber(name).Some? && r.value == Filter(RbcLabelNumber(name).value, IsDigit)
  {
    match RbcLabelNumber(name)
    case None => None
    case Some(number) =>
      var digits := Filter(number, IsDigit);
      if IsDigits(digits) then Some(digits) else None
  }

  /** A label such as "Chequing 12345-1234567" refers to its two digit groups run
      together, "123451234567". */
  lemma {:induction false} RbcReferenceOfLabel(letters: string, branch: string, account: string)
    requires IsLetters(letters) && IsDigits(branch) && IsDigits(account)
    ensures RbcReference(letters + " " + branch + "-" + account) == Some(branch + account)
  {
    var number := branch + "-" + account;
    BranchAccountNumber(branch, account);
    RbcLabelUnterminated(letters, number);
    Regroup(letters + " ", branch, "-", account);
    RbcReferenceOfNumber(letters + " " + number, number, branch + account);
  }

  lemma {:induction false} Regroup(x: string, a: string, b: string, c: string)
    ensures x + a + b + c == x + (a + b + c)
  {
  }

  lemma {:induction false} RbcLabelUnterminated(letters: string, number: string)
    requires IsLetters(letters) && IsDashDigits(number)
    ensures RbcLabelNumber(letters + " " + number) == Some(number)
  {
    RbcLabelComplete(letters, number, "");
    assert letters + " " + number + "" == letters + " " + number;
  }

  lemma {:induction false} RbcReferenceOfNumber(name: string, number: string, digits: string)
    requires RbcLabelNumber(name) == Some(number)
    requires Filter(number, IsDigit) == digits && IsDigits(digits)
    ensures RbcReference(name) == Some(digits)
  {
  }

  /** "12345-1234567" is a `[-0-9]+` group whose digits are "123451234567". */
  lemma {:induction false} BranchAccountNumber(branch: string, account: string)
    requires IsDigits(branch) && IsDigits(account)
    ensures IsDashDigits(branch + "-" + account)
    ensures Filter(branch + "-" + account, IsDigit) == branch + account
    ensures IsDigits(branch + account)
  {
    DashJoinShape(branch, account);
    DashJoinDigits(branch, account);
    DigitsConcat(branch, account);
  }

  lemma {:induction false} DashJoinShape(branch: string, account: string)
    requires IsDigits(branch) && IsDigits(account)
    ensures IsDashDigits(branch + "-" + account)
  {
    var number := branch + "-" + account;
    forall i | 0 <= i < |number|
      ensures IsDigit(number[i]) || number[i] == '-'
    {
      if i < |branch| {
        assert number[i] == branch[i];
      } else if i > |branch| {
        assert number[i] == account[i - |branch| - 1];
      }
    }
  }

  lemma {:induction false} DashJoinDigits(branch: string, account: string)
    requires IsDigits(branch) && IsDigits(account)
    ensures Filter(branch + "-" + account, IsDigit) == branch + account
  {
    var dashed := "-" + account;
    assert branch + dashed == branch + "-" + account;
    FilterConcat(branch, dashed, IsDigit);
    FilterConcat("-", account, IsDigit);
    FilterDropsDash();
    assert Filter(dashed, IsDigit) == account;
  }

  lemma {:induction false} DigitsConcat(a: string, b: string)
    requires IsDigits(a) && IsDigits(b)
    ensures IsDigits(a + b)
  {
    forall i | 0 <= i < |a + b|
      ensures IsDigit((a + b)[i])
    {
      if i >= |a| {
        assert (a + b)[i] == b[i - |a|];
      }
    }
  }

  lemma {:induction false} FilterDropsDash()
    ensures Filter("-", IsDigit) == ""
  {
    assert "-"[1..] == "";
  }

  // ----- MbnaScraperDriver and legacy mbna: `ending in (\d+)` -----

  const EndingIn: string := "ending in "

  /** `ending in (\d+)` matches at `j`. */
  predicate EndingInAt(s: string, j: nat) {
    j + |EndingIn| < |s| && s[j..j + |EndingIn|] == EndingIn && IsDigit(s[j + |EndingIn|])
  }

  /** The first position from `i` on where the pattern matches: `matcher.find()`. */
  function FindEndingIn(s: string, i: nat): (r: Option<nat>)
    requires i <= |s|
    ensures r.Some? ==> i <= r.value && EndingInAt(s, r.value)
    ensures r.Some? ==> forall j :: i <= j < r.value ==> !EndingInAt(s, j)
    ensures r.None? ==> forall j :: i <= j <= |s| ==> !EndingInAt(s, j)
    decreases |s| - i
  {
    if EndingInAt(s, i) then Some(i)
    else if i == |s| then None
    else FindEndingIn(s, i + 1)
  }

  /** `matcher.group(1)`: the whole digit run after the first "ending in " that is
      followed by a digit. */
  function MbnaReference(text: string): (r: Option<string>)
    ensures r.Some? ==> IsDigits(r.value)
    ensures r.None? <==> forall j :: 0 <= j <= |text| ==> !EndingInAt(text, j)
    ensures r.Some? ==> exists j :: (0 <= j < |text| && EndingInAt(text, j)
                                     && (forall k :: 0 <= k < j ==> !EndingInAt(text, k))
                                     && r.value == text[j + |EndingIn|..DigitRunEnd(text, j + |EndingIn|)])
  {
    match FindEndingIn(text, 0)
    case None => None
    case Some(j) => Some(text[j + |EndingIn|..DigitRunEnd(text, j + |EndingIn|)])
  }

  /** A label whose only digits follow its "ending in " yields exactly those digits. */
  lemma {:induction false} MbnaReferenceOfSuffix(front: string, digits: string)
    requires IsDigits(digits)
    requires forall i :: 0 <= i < |front| ==> !IsDigit(front[i])
    ensures MbnaReference(front + EndingIn + digits) == Some(digits)
  {
    var s := front + EndingIn + digits;
    assert s == front + EndingIn + digits + "";
    var j0 := |front|;
    forall j | 0 <= j < j0
      ensures !EndingInAt(s, j)
    {
      var i := j + |EndingIn|;
      if i < j0 {
        assert s[i] == front[i];
      } else {
        assert s[i] == EndingIn[i - j0];
      }
    }
    MbnaReferenceOfFirstMatch(front, digits, "");
  }

  /** Whatever precedes and follows it, the first "ending in " followed by a digit
      run yields that whole run. */
  lemma {:induction false} MbnaReferenceOfFirstMatch(front: string, digits: string, back: string)
    requires IsDigits(digits) && |digits| > 0
    requires |back| > 0 ==> !IsDigit(back[0])
    requires forall k :: 0 <= k < |front| ==> !EndingInAt(front + EndingIn + digits + back, k)
    ensures MbnaReference(front + EndingIn + digits + back) == Some(digits)
  {
    var s := front + EndingIn + digits + back;
    var j0 := |front|;
    var d0 := j0 + |EndingIn|;
    var e := d0 + |digits|;
    assert s[j0..d0] == EndingIn;
    assert s[d0..e] == digits;
    assert s[d0] == digits[0];
    assert EndingInAt(s, j0);
    assert FindEndingIn(s, 0) == Some(j0);
    assert DigitRunEnd(s, d0) == e;
  }

  // ----- CapitalOneScraperDriver: "...1234" -----

  /** `checkState(ref.startsWith("..."))`, then `ref.substring(3)` must be digits. */
  function CapitalOneReference(text: string): (r: Option<string>)
    ensures r.Some? ==> IsDigits(r.value) && text == "..." + r.value
    ensures r.None? <==> !(StartsWith(text, "...") && IsDigits(text[3..]))
  {
    if StartsWith(text, "...") && IsDigits(text[3..]) then Some(text[3..]) else None
  }

  /** The masked number the site shows is read back as its digits. */
  lemma {:induction false} CapitalOneReferenceRoundTrip(digits: string)
    requires IsDigits(digits)
    ensures CapitalOneReference("..." + digits) == Some(digits)
  {
    assert ("..." + digits)[3..] == digits;
  }
}

=== FILE: scraper.dfy ===
/** The command-line entry point `Scraper`: option handling, the instance name, the
    choice of driver class, and the try/finally teardown of `scrape`. */
module ScraperMain {
  import opened Wrappers
  import opened Text
  import opened Lifecycle
  import KeePass

  const DefaultInstanceName: string := "ledgerdb"

  /** The instance name: "ledgerdb" without `-i`, "ledgerdb-" + value with it. */
  function InstanceName(instance: Option<string>): (r: string)
    ensures StartsWith(r, DefaultInstanceName)
    ensures instance.None? <==> r == DefaultInstanceName
  {
    match instance
    case None => DefaultInstanceName
    case Some(v) => DefaultInstanceName + "-" + v
  }

  /** Reads the `-i` value back out of an instance name. */
  function InstanceOption(name: string): Option<string> {
    var prefix := DefaultInstanceName + "-";
    if StartsWith(name, prefix) then Some(name[|prefix|..]) else None
  }

  /** Distinct `-i` values (or its absence) name distinct instances. */
  lemma {:induction false} InstanceNameRoundTrip(instance: Option<string>)
    ensures InstanceOption(InstanceName(instance)) == instance
  {
    if instance.Some? {
      var prefix := DefaultInstanceName + "-";
      assert InstanceName(instance)[..|prefix|] == prefix;
      assert InstanceName(instance)[|prefix|..] == instance.value;
    }
  }

  /** The options `Scraper` reads once commons-cli has parsed the arguments. */
  datatype CommandLine = CommandLine(
    help: bool,
    site: Option<string>,
    list: bool,
    instance: Option<string>,
    keep: bool)

  /** What the constructor leads to: `usage()` exits with 2; `list()` exits with 0 once
      the entries were listed, and otherwise its `IOException` escapes `main`;
      otherwise `scrape` runs for the site and instance. */
  datatype Startup = Usage | ListEntries(listed: Result<seq<string>, Error>) | Scrape(site: string, instance: string)

  /** The process exit status, when the constructor ends the process: an exception
      escaping `main` ends the JVM with status 1. */
  function ExitCode(s: Startup): (code: Option<int>)
    ensures code.Some? <==> !s.Scrape?
    ensures code == Some(0) <==> s.ListEntries? && s.listed.Success?
  {
    match s
    case Usage => Some(2)
    case ListEntries(listed) => if listed.Success? then Some(0) else Some(1)
    case Scrape(_, _) => None
  }

  /** `list()`: open the database named by `-f`/`-p` (or their defaults), then
      `listEntries`; either can throw. */
  function List(database: Result<KeePass.KPScript, Error>, process: KeePass.Process, eol: string): (r: Result<seq<string>, Error>)
    requires KeePass.IsLineSeparator(eol)
    ensures database.Failure? ==> r == Failure(database.error)
    ensures database.Success? ==> r == KeePass.ListEntries(database.value, process, eol)
    ensures r.Success? ==> forall i :: 0 <= i < |r.value| && StartsWith(r.value[i], KeePass.PasswordPrefix) ==>
                             StartsWith(r.value[i], KeePass.MaskedPassword)
  {
    var kp :- database;
    KeePass.ListEntries(kp, process, eol)
  }

  /** The `Scraper` constructor. A parse error and `-h` print usage; a missing `-s`
      lists entries when `-l` is given and prints usage otherwise. `listing` is what
      `list()` would produce; it is consulted only when `list()` runs. */
  function Start(parsed: Result<CommandLine, Error>, listing: Result<seq<string>, Error>): (r: Startup)
    ensures ExitCode(r) == Some(2) <==>
              parsed.Failure? || parsed.value.help || (parsed.value.site.None? && !parsed.value.list)
    ensures ExitCode(r) == Some(0) <==>
              parsed.Success? && !parsed.value.help && parsed.value.site.None? && parsed.value.list && listing.Success?
    ensures ExitCode(r) == Some(1) <==>
              parsed.Success? && !parsed.value.help && parsed.value.site.None? && parsed.value.list && listing.Failure?
    ensures r.ListEntries? ==> r.listed == listing
    ensures r.Scrape? ==> parsed.Success? && parsed.value.site == Some(r.site)
                          && r.instance == InstanceName(parsed.value.instance)
  {
    match parsed
    case Failure(_) => Usage
    case Success(cl) =>
      if cl.help then Usage
      else match cl.site
        case None => if cl.list then ListEntries(listing) else Usage
        case Some(site) => Scrape(site, InstanceName(cl.instance))
  }

  /** A `-s` given without `-h` always reaches `scrape`, with or without `-l`. */
  lemma {:induction false} SiteWins(cl: CommandLine, listing: Result<seq<string>, Error>)
    requires cl.site.Some? && !cl.help
    ensures Start(Success(cl), listing) == Scrape(cl.site.value, InstanceName(cl.instance))
  {
  }

  /** The package searched for the driver class of an institution. */
  function DriverPackage(institution: string): (r: string)
    ensures StartsWith(r, "ledgerdb.scraper.institution.")
  {
    "ledgerdb.scraper" + ".institution." + institution
  }

  /** A top-level class of that package, and whether it is a `ScraperDriverBase`. */
  datatype ClassInfo = ClassInfo(name: string, isDriver: bool)

  /** `filter(isAssignableFrom).findFirst().get()`: the first driver class in listing
      order; `NoSuchElementException` when there is none. */
  function SelectDriverClass(classes: seq<ClassInfo>): (r: Result<string, Error>)
    ensures r.Failure? <==> forall i :: 0 <= i < |classes| ==> !classes[i].isDriver
    ensures r.Failure? ==> r.error == NoSuchElement
    ensures r.Success? ==> exists i :: 0 <= i < |classes| && classes[i].isDriver && classes[i].name == r.value
                                     && forall j :: 0 <= j < i ==> !classes[j].isDriver
  {
    if |classes| == 0 then Failure(NoSuchElement)
    else if classes[0].isDriver then Success(classes[0].name)
    else
      var rest := SelectDriverClass(classes[1..]);
      if rest.Success? then
        ghost var i :| 0 <= i < |classes| - 1 && classes[1..][i].isDriver && classes[1..][i].name == rest.value
                       && forall j :: 0 <= j < i ==> !classes[1..][j].isDriver;
        assert classes[i + 1].isDriver && classes[i + 1].name == rest.value;
        rest
      else
        assert forall i :: 0 <= i < |classes| - 1 ==> !classes[1..][i].isDriver;
        rest
  }

  /** A driver class appended after the listing does not displace an earlier one. */
  lemma {:induction false} SelectDriverClassPrefers(classes: seq<ClassInfo>, later: seq<ClassInfo>)
    requires SelectDriverClass(classes).Success?
    ensures SelectDriverClass(classes + later) == SelectDriverClass(classes)
  {
    if classes[0].isDriver {
      assert (classes + later)[0] == classes[0];
    } else {
      assert (classes + later)[1..] == classes[1..] + later;
      SelectDriverClassPrefers(classes[1..], later);
    }
  }

  /** `provideRemoteWebDriver`: "org.openqa.selenium." + name when that class
      exists, the name as given otherwise; `ClassNotFoundException` when neither does. */
  function SeleniumDriverClass(name: string, exists_: string -> bool): (r: Result<string, Error>)
    ensures r.Success? ==> exists_(r.value)
    ensures exists_("org.openqa.selenium." + name) ==> r == Success("org.openqa.selenium." + name)
    ensures !exists_("org.openqa.selenium." + name) && exists_(name) ==> r == Success(name)
    ensures r.Failure? <==> !exists_("org.openqa.selenium." + name) && !exists_(name)
    ensures r.Failure? ==> r.error == ClassNotFound
  {
    var qualified := "org.openqa.selenium." + name;
    if exists_(qualified) then Success(qualified)
    else if exists_(name) then Success(name)
    else Failure(ClassNotFound)
  }

  /** The try/finally of `scrape`, from the driver as `run()` left it: the session is
      closed; then, unless `--keep`, the driver is closed (logging out, then its own
      `driver.quit()`, whose outcome is `baseQuit`) and the browser quit (`quit`). An
      exception in the finally block replaces the one `run` threw. */
  function Teardown(ran: Step, keep: bool, sessionClose: Outcome<Error>,
                    signedOff: Outcome<Error>, baseQuit: Outcome<Error>, quit: Outcome<Error>): (r: Step)
    ensures Occurrences(r.driver.trace, SessionClosed) == Occurrences(ran.driver.trace, SessionClosed) + 1
    ensures sessionClose.Fail? ==> r.outcome == sessionClose
    ensures keep || sessionClose.Fail? ==>
              && Occurrences(r.driver.trace, LoggedOut) == Occurrences(ran.driver.trace, LoggedOut)
              && Occurrences(r.driver.trace, BrowserQuit) == Occurrences(ran.driver.trace, BrowserQuit)
              && Occurrences(r.driver.trace, WebDriverQuit) == Occurrences(ran.driver.trace, WebDriverQuit)
    ensures !keep && sessionClose.Pass? ==>
              && Occurrences(r.driver.trace, LoggedOut) ==
                   Occurrences(ran.driver.trace, LoggedOut) + (if ran.driver.loggedIn && signedOff.Pass? then 1 else 0)
              && Occurrences(r.driver.trace, WebDriverQuit) ==
                   Occurrences(ran.driver.trace, WebDriverQuit) + (if ClosePasses(ran.driver, signedOff, baseQuit) then 1 else 0)
    ensures r.outcome.Pass? <==>
              && ran.outcome.Pass? && sessionClose.Pass?
              && (keep || (ClosePasses(ran.driver, signedOff, baseQuit) && quit.Pass?))
  {
    var closed := Record(ran.driver, SessionClosed);
    if sessionClose.Fail? then Step(closed, sessionClose)
    else if keep then Step(closed, ran.outcome)
    else ShutDown(closed, ran.outcome, signedOff, baseQuit, quit)
  }

  /** `scraperDriver.close()` returns: the logout, when one is due, and the base
      class's `driver.quit()`, when a browser is held, both pass. */
  predicate ClosePasses(d: Driver, signedOff: Outcome<Error>, baseQuit: Outcome<Error>) {
    (!d.loggedIn || signedOff.Pass?) && (!d.browser || baseQuit.Pass?)
  }

  /** The part of the finally block that `--keep` skips: `scraperDriver.close()`, and
      `driver.quit()` only if that returned. */
  function ShutDown(d: Driver, ranOutcome: Outcome<Error>, signedOff: Outcome<Error>,
                    baseQuit: Outcome<Error>, quit: Outcome<Error>): (r: Step)
    ensures Occurrences(r.driver.trace, SessionClosed) == Occurrences(d.trace, SessionClosed)
    ensures Occurrences(r.driver.trace, LoggedOut) ==
              Occurrences(d.trace, LoggedOut) + (if d.loggedIn && signedOff.Pass? then 1 else 0)
    ensures Occurrences(r.driver.trace, WebDriverQuit) ==
              Occurrences(d.trace, WebDriverQuit) + (if ClosePasses(d, signedOff, baseQuit) then 1 else 0)
    ensures r.outcome.Pass? <==> ranOutcome.Pass? && ClosePasses(d, signedOff, baseQuit) && quit.Pass?
  {
    var c := Close(d, signedOff, baseQuit);
    if c.outcome.Fail? then c
    else
      var quitted := Record(c.driver, WebDriverQuit);
      if quit.Fail? then Step(quitted, quit) else Step(quitted, ranOutcome)
  }

  /** "Scraper completed successfully" is logged only when both `run` and the
      teardown returned normally. */
  predicate CompletedSuccessfully(ran: Step, keep: bool, sessionClose: Outcome<Error>,
                                  signedOff: Outcome<Error>, baseQuit: Outcome<Error>, quit: Outcome<Error>)
  {
    Teardown(ran, keep, sessionClose, signedOff, baseQuit, quit).outcome.Pass?
  }

  /** When the driver closes, the teardown runs in the order session close, driver
      close (logout, counts, the base class's quit), browser quit, whatever `run` did. */
  lemma {:induction false} TeardownOrder(ran: Step, signedOff: Outcome<Error>, baseQuit: Outcome<Error>, quit: Outcome<Error>)
    requires ClosePasses(ran.driver, signedOff, baseQuit)
    ensures Teardown(ran, false, Pass, signedOff, baseQuit, quit).driver.trace ==
              ran.driver.trace + [SessionClosed]
              + (if ran.driver.loggedIn then [LoggedOut] else [])
              + [CountsReported]
              + (if ran.driver.browser then [BrowserQuit] else [])
              + [WebDriverQuit]
  {
    var closed := Record(ran.driver, SessionClosed);
    CloseTrace(closed, signedOff, baseQuit);
  }

  /** The calls `close` makes once its logout, if due, passed, in order; the base
      class's `driver.quit()` is called whether or not it then throws. */
  lemma {:induction false} CloseTrace(d: Driver, signedOff: Outcome<Error>, baseQuit: Outcome<Error>)
    requires !d.loggedIn || signedOff.Pass?
    ensures Close(d, signedOff, baseQuit).driver.trace ==
              d.trace
              + (if d.loggedIn then [LoggedOut] else [])
              + [CountsReported]
              + (if d.browser then [BrowserQuit] else [])
  {
  }

  /** With `--keep` a successful run is reported as successful as long as the
      session closes, and the browser is left alone. */
  lemma {:induction false} KeepLeavesBrowser(ran: Step, signedOff: Outcome<Error>, baseQuit: Outcome<Error>, quit: Outcome<Error>)
    requires ran.outcome.Pass?
    ensures CompletedSuccessfully(ran, true, Pass, signedOff, baseQuit, quit)
    ensures Teardown(ran, true, Pass, signedOff, baseQuit, quit).driver.browser == ran.driver.browser
    ensures Teardown(ran, true, Pass, signedOff, baseQuit, quit).driver.loggedIn == ran.driver.loggedIn
  {
  }
}

=== FILE: session.dfy ===
/** The reconciliation session with the ledger server: `ServerSession.java`, and the
    older copy of the same logic inside `ScraperDriverBase.java`.

    The server is an input. `Server.lookup` is its answer to the account-link GET and
    `Server.post` its answer to the statement POST; HTTP transport, authentication,
    JSON encoding and console output are not part of this model. */
module Sessions {
  import opened Wrappers
  import opened Text
  import opened Statements

  /** A request URL: the instance URL followed by path segments. */
  datatype Target = Target(baseUrl: string, segments: seq<string>)

  /** The answer to the statement POST: HTTP status and the text body. */
  datatype Reply = Reply(status: int, body: string)

  /** The answer to the account-link GET: HTTP status and the `accountId` of the
      decoded `InstitutionLinkDTO`. */
  datatype LookupReply = LookupReply(status: int, accountId: int)

  datatype Server = Server(lookup: Target -> LookupReply, post: (Target, Statement) -> Reply)

  /** `processedStatements` is `recorded`, oldest first. */
  datatype Session = Session(
    url: string,
    institution: string,
    recorded: seq<Statement>,
    countProcessed: int,
    countInserted: int)

  /** The session's invariant: one record per processed statement, no more insertions
      than statements, and each record numbered after its earlier duplicates. */
  predicate Valid(sess: Session) {
    && sess.countProcessed == |sess.recorded|
    && 0 <= sess.countInserted <= sess.countProcessed
    && Sequenced(sess.recorded)
  }

  /** A new session: nothing processed yet. The reachability probe of the constructor
      ignores its answer and is not modelled. */
  function Open(url: string, institution: string): (r: Session)
    ensures Valid(r) && r.recorded == [] && r.countInserted == 0
    ensures r.url == url && r.institution == institution
  {
    Session(url, institution, [], 0, 0)
  }

  /** How many records of `rs` equal `s` except for the sequence. */
  function CountEqual(rs: seq<Statement>, s: Statement): (n: nat)
    ensures n <= |rs|
  {
    if |rs| == 0 then 0
    else CountEqual(rs[..|rs| - 1], s) + (if EqualsExceptSequence(rs[|rs| - 1], s) then 1 else 0)
  }

  /** Every record carries one more than the number of its duplicates before it. */
  predicate Sequenced(rs: seq<Statement>) {
    forall i :: 0 <= i < |rs| ==> rs[i].sequence == 1 + CountEqual(rs[..i], rs[i])
  }

  /** The statement as `merge` posts it: numbered one past its recorded duplicates. */
  function Posted(sess: Session, s: Statement): (p: Statement)
    ensures EqualsExceptSequence(p, s)
    ensures 1 <= p.sequence <= |sess.recorded| + 1
  {
    WithSequence(s, 1 + CountEqual(sess.recorded, s))
  }

  function AccountTarget(url: string, institution: string, reference: string): Target {
    Target(url, ["institution_link", institution, reference])
  }

  function StatementTarget(url: string): Target {
    Target(url, ["statement"])
  }

  /** `checkStatus`: anything but 200 fails, and the message never carries the body,
      because the catch-all handler replaces the exception that would. */
  function CheckStatus(status: int): (r: Outcome<Error>)
    ensures r.Pass? <==> status == 200
    ensures r.Fail? ==> r.error == ServerRequestFailed
  {
    if status == 200 then Pass else Fail(ServerRequestFailed)
  }

  /** `getAccountId(reference)`: GET `<url>/institution_link/<institution>/<reference>`
      and return the account it links to. The session's own institution is the one
      passed by the drivers; the session itself is left as it was. */
  function GetAccountId(sess: Session, institution: string, reference: string, server: Server): (r: Result<int, Error>)
    ensures var reply := server.lookup(AccountTarget(sess.url, institution, reference));
            && (r.Success? <==> reply.status == 200)
            && (r.Success? ==> r.value == reply.accountId)
            && (r.Failure? ==> r.error == ServerRequestFailed)
  {
    var reply := server.lookup(AccountTarget(sess.url, institution, reference));
    match CheckStatus(reply.status)
    case Fail(e) => Failure(e)
    case Pass => Success(reply.accountId)
  }

  /** `merge(s)`: number the statement, POST it, demand a non-negative integer body,
      then record it; the insertion count grows exactly when the body is not "0".
      On any failure nothing is recorded. */
  function Merge(sess: Session, s: Statement, server: Server): (r: Result<Session, Error>)
    ensures var reply := server.post(StatementTarget(sess.url), Posted(sess, s));
            && (r.Success? <==> reply.status == 200 && IsDigits(reply.body))
            && (reply.status != 200 ==> r == Failure(ServerRequestFailed))
            && (reply.status == 200 && !IsDigits(reply.body) ==> r == Failure(StateCheckFailed))
            && (r.Success? ==> r.value.countInserted == sess.countInserted + (if reply.body == "0" then 0 else 1))
    ensures r.Success? ==>
            && r.value.url == sess.url && r.value.institution == sess.institution
            && r.value.recorded == sess.recorded + [Posted(sess, s)]
            && r.value.countProcessed == sess.countProcessed + 1
    ensures Valid(sess) && r.Success? ==> Valid(r.value)
  {
    var p := Posted(sess, s);
    var reply := server.post(StatementTarget(sess.url), p);
    match CheckStatus(reply.status)
    case Fail(e) => Failure(e)
    case Pass =>
      if !IsDigits(reply.body) then Failure(StateCheckFailed)
      else
        CountRespectsEquals(sess.recorded, p, s);
        SequencedAppend(sess.recorded, p);
        Success(sess.(recorded := sess.recorded + [p],
                      countProcessed := sess.countProcessed + 1,
                      countInserted := sess.countInserted + (if reply.body == "0" then 0 else 1)))
  }

  /** Counting duplicates depends on the statement only up to its sequence. */
  lemma {:induction false} CountRespectsEquals(rs: seq<Statement>, a: Statement, b: Statement)
    requires EqualsExceptSequence(a, b)
    ensures CountEqual(rs, a) == CountEqual(rs, b)
    decreases |rs|
  {
    if |rs| > 0 {
      CountRespectsEquals(rs[..|rs| - 1], a, b);
    }
  }

  /** Appending a statement numbered after its duplicates keeps the numbering. */
  lemma {:induction false} SequencedAppend(rs: seq<Statement>, p: Statement)
    requires p.sequence == 1 + CountEqual(rs, p)
    ensures Sequenced(rs) ==> Sequenced(rs + [p])
  {
    if !Sequenced(rs) {
      return;
    }
    var t := rs + [p];
    forall i | 0 <= i < |t|
      ensures t[i].sequence == 1 + CountEqual(t[..i], t[i])
    {
      if i < |rs| {
        assert t[..i] == rs[..i];
      } else {
        assert t[..i] == rs;
      }
    }
  }

  /** A statement with no recorded duplicate is posted with sequence 1. */
  lemma {:induction false} FreshStartsAtOne(sess: Session, s: Statement)
    requires forall i :: 0 <= i < |sess.recorded| ==> !EqualsExceptSequence(sess.recorded[i], s)
    ensures Posted(sess, s).sequence == 1
  {
    CountNone(sess.recorded, s);
  }

  lemma {:induction false} CountNone(rs: seq<Statement>, s: Statement)
    requires forall i :: 0 <= i < |rs| ==> !EqualsExceptSequence(rs[i], s)
    ensures CountEqual(rs, s) == 0
    decreases |rs|
  {
    if |rs| > 0 {
      CountNone(rs[..|rs| - 1], s);
    }
  }

  /** Extending a prefix by one record counts that record if it is a duplicate. */
  lemma {:induction false} CountStep(rs: seq<Statement>, i: nat, s: Statement)
    requires i < |rs|
    ensures CountEqual(rs[..i + 1], s) == CountEqual(rs[..i], s) + (if EqualsExceptSequence(rs[i], s) then 1 else 0)
  {
    assert rs[..i + 1][..i] == rs[..i];
  }

  /** Counting over a longer prefix never counts less. */
  lemma {:induction false} CountMonotone(rs: seq<Statement>, i: nat, j: nat, s: Statement)
    requires i <= j <= |rs|
    ensures CountEqual(rs[..i], s) <= CountEqual(rs[..j], s)
    decreases j - i
  {
    if i < j {
      CountStep(rs, j - 1, s);
      CountMonotone(rs, i, j - 1, s);
    }
  }

  /** Among duplicates, a later record carries a strictly larger sequence. */
  lemma {:induction false} DuplicatesIncrease(rs: seq<Statement>, i: nat, j: nat)
    requires Sequenced(rs) && i < j < |rs|
    requires EqualsExceptSequence(rs[i], rs[j])
    ensures rs[i].sequence < rs[j].sequence
  {
    CountRespectsEquals(rs[..i], rs[i], rs[j]);
    CountStep(rs, i, rs[j]);
    CountMonotone(rs, i + 1, j, rs[j]);
  }

  /** What the session records is pairwise distinct, sequence included: a run never
      posts the same statement twice. */
  lemma {:induction false} RecordedDistinct(rs: seq<Statement>)
    requires Sequenced(rs)
    ensures forall i, j :: 0 <= i < j < |rs| ==> rs[i] != rs[j]
  {
    forall i, j | 0 <= i < j < |rs|
      ensures rs[i] != rs[j]
    {
      if rs[i] == rs[j] {
        DuplicatesIncrease(rs, i, j);
      }
    }
  }

  /** What a driver makes of one page row: a statement to merge, a row to pass over,
      or an exception that ends the run. */
  datatype Row = Accept(statement: Statement) | Skip | Reject(error: Error)

  /** A driver's loop over a transaction table: every row after the `header` rows it
      has checked, read in page order by the driver's own row reader. */
  function ReadRows<R, T>(table: seq<R>, header: nat, read: R -> T): (rows: seq<T>)
    requires header <= |table|
    ensures |rows| == |table| - header
    ensures forall j :: 0 <= j < |rows| ==> rows[j] == read(table[j + header])
  {
    seq(|table| - header, j requires 0 <= j < |table| - header => read(table[j + header]))
  }

  /** A table whose first row is a header the driver checks: a missing or wrong
      header fails the state check, and otherwise every later row is read. */
  function ReadHeaded<R>(table: seq<R>, headerOk: R -> bool, read: R -> Row): (rows: seq<Row>)
    ensures |table| == 0 || !headerOk(table[0]) ==> rows == [Reject(StateCheckFailed)]
    ensures |table| > 0 && headerOk(table[0]) ==>
              |rows| == |table| - 1 && forall j :: 0 <= j < |rows| ==> rows[j] == read(table[j + 1])
  {
    if |table| == 0 || !headerOk(table[0]) then [Reject(StateCheckFailed)]
    else ReadRows(table, 1, read)
  }

  /** The session after merging a run of rows, and the exception that stopped the run
      if there was one. */
  datatype Merged = Merged(session: Session, failure: Option<Error>)

  /** The statements of the accepted rows, in page order. */
  function Accepted(rows: seq<Row>): (r: seq<Statement>)
    ensures |r| <= |rows|
  {
    if |rows| == 0 then []
    else (if rows[0].Accept? then [rows[0].statement] else []) + Accepted(rows[1..])
  }

  /** The drivers' loop `for (row : rows) { ...; merge(s); }`: rows are merged in order
      until one throws; a row that throws, or whose merge fails, ends the run with the
      session as it stood before that row. */
  function MergeRows(sess: Session, rows: seq<Row>, server: Server): (m: Merged)
    ensures m.session.url == sess.url && m.session.institution == sess.institution
    ensures |sess.recorded| <= |m.session.recorded| && m.session.recorded[..|sess.recorded|] == sess.recorded
    ensures |m.session.recorded| <= |sess.recorded| + |Accepted(rows)|
    ensures m.failure.None? ==> forall k :: 0 <= k < |rows| ==> !rows[k].Reject?
    ensures m.failure.None? ==>
            && |m.session.recorded| == |sess.recorded| + |Accepted(rows)|
            && forall k :: 0 <= k < |Accepted(rows)| ==>
                 EqualsExceptSequence(m.session.recorded[|sess.recorded| + k], Accepted(rows)[k])
    decreases |rows|
  {
    if |rows| == 0 then Merged(sess, None)
    else
      match rows[0]
      case Skip =>
        var m := MergeRows(sess, rows[1..], server);
        SkipExtends(sess, rows, m);
        m
      case Reject(e) => Merged(sess, Some(e))
      case Accept(s) =>
        match Merge(sess, s, server)
        case Failure(e) => Merged(sess, Some(e))
        case Success(next) =>
          var m := MergeRows(next, rows[1..], server);
          AcceptExtends(sess, next, rows, m);
          m
  }

  /** Merging a run of rows keeps a session well-formed: every record it adds is
      numbered one past its duplicates before it. */
  lemma {:induction false} MergeRowsValid(sess: Session, rows: seq<Row>, server: Server)
    ensures Valid(sess) ==> Valid(MergeRows(sess, rows, server).session)
    decreases |rows|
  {
    if |rows| > 0 && Valid(sess) {
      match rows[0]
      case Skip =>
        MergeRowsValid(sess, rows[1..], server);
      case Reject(_) =>
      case Accept(s) =>
        var merged := Merge(sess, s, server);
        if merged.Success? {
          MergeRowsValid(merged.value, rows[1..], server);
        }
    }
  }

  /** What merging `rows` from `sess` leaves behind in `m`: the records only grow, by
      at most one per accepted statement, and by exactly those statements (up to
      numbering) when nothing was rejected. */
  predicate Extends(sess: Session, rows: seq<Row>, m: Merged) {
    && |sess.recorded| <= |m.session.recorded| && m.session.recorded[..|sess.recorded|] == sess.recorded
    && |m.session.recorded| <= |sess.recorded| + |Accepted(rows)|
    && (m.failure.None? ==> forall k :: 0 <= k < |rows| ==> !rows[k].Reject?)
    && (m.failure.None? ==>
          && |m.session.recorded| == |sess.recorded| + |Accepted(rows)|
          && forall k :: 0 <= k < |Accepted(rows)| ==>
               EqualsExceptSequence(m.session.recorded[|sess.recorded| + k], Accepted(rows)[k]))
  }

  /** A skipped row adds nothing to what the rows after it leave behind. */
  lemma {:induction false} SkipExtends(sess: Session, rows: seq<Row>, m: Merged)
    requires |rows| > 0 && rows[0].Skip?
    requires Extends(sess, rows[1..], m)
    ensures Extends(sess, rows, m)
  {
    assert Accepted(rows) == Accepted(rows[1..]);
    assert forall k :: 1 <= k < |rows| ==> rows[k] == rows[1..][k - 1];
  }

  /** An accepted row that merged into `next` comes first among the records that the
      rows after it leave behind. */
  lemma {:induction false} AcceptExtends(sess: Session, next: Session, rows: seq<Row>, m: Merged)
    requires |rows| > 0 && rows[0].Accept?
    requires |next.recorded| == |sess.recorded| + 1 && next.recorded[..|sess.recorded|] == sess.recorded
    requires EqualsExceptSequence(next.recorded[|sess.recorded|], rows[0].statement)
    requires Extends(next, rows[1..], m)
    ensures Extends(sess, rows, m)
  {
    var s := rows[0].statement;
    assert Accepted(rows) == [s] + Accepted(rows[1..]);
    assert forall k :: 1 <= k < |rows| ==> rows[k] == rows[1..][k - 1];
    PrefixOfPrefix(m.session.recorded, next.recorded, sess.recorded);
    if m.failure.None? {
      RecordsExtend(sess.recorded, next.recorded, m.session.recorded, s, Accepted(rows[1..]));
    }
  }

  lemma PrefixOfPrefix<T>(c: seq<T>, b: seq<T>, a: seq<T>)
    requires |b| <= |c| && c[..|b|] == b && |a| <= |b| && b[..|a|] == a
    ensures c[..|a|] == a
  {
    assert c[..|a|] == c[..|b|][..|a|];
  }

  /** One merged statement followed by a run of merged rows: the records added
      match the accepted statements one by one. */
  lemma RecordsExtend(before: seq<Statement>, next: seq<Statement>, after: seq<Statement>,
                      s: Statement, rest: seq<Statement>)
    requires |next| == |before| + 1 && EqualsExceptSequence(next[|before|], s)
    requires |next| <= |after| && after[..|next|] == next
    requires |after| == |next| + |rest|
    requires forall k :: 0 <= k < |rest| ==> EqualsExceptSequence(after[|next| + k], rest[k])
    ensures |after| == |before| + |[s] + rest|
    ensures forall k :: 0 <= k < |[s] + rest| ==> EqualsExceptSequence(after[|before| + k], ([s] + rest)[k])
  {
    forall k | 0 <= k < |[s] + rest|
      ensures EqualsExceptSequence(after[|before| + k], ([s] + rest)[k])
    {
      if k == 0 {
        assert after[|before|] == next[|before|];
      } else {
        assert after[|before| + k] == after[|next| + (k - 1)];
      }
    }
  }

  /** A run of statements that are all duplicates of `x` is numbered consecutively,
      continuing from the duplicates of `x` already recorded. */
  lemma {:induction false} DuplicateRunNumbering(sess: Session, xs: seq<Statement>, x: Statement, server: Server)
    requires Valid(sess)
    requires forall k :: 0 <= k < |xs| ==> EqualsExceptSequence(xs[k], x)
    requires MergeRows(sess, AcceptAll(xs), server).failure.None?
    ensures var added := MergeRows(sess, AcceptAll(xs), server).session.recorded[|sess.recorded|..];
            && |added| == |xs|
            && forall k :: 0 <= k < |xs| ==> added[k].sequence == CountEqual(sess.recorded, x) + k + 1
  {
    var rs := MergeRows(sess, AcceptAll(xs), server).session.recorded;
    var n := |sess.recorded|;
    MergeRowsValid(sess, AcceptAll(xs), server);
    assert Sequenced(rs) && |rs| == n + |xs| && rs[..n] == sess.recorded;
    assert Accepted(AcceptAll(xs)) == xs;
    MergedDuplicates(sess, AcceptAll(xs), x, server);
    SequencedRun(rs, n, |xs|, x);
  }

  /** Rows whose statements all duplicate `x` record only duplicates of `x`. */
  lemma {:induction false} MergedDuplicates(sess: Session, rows: seq<Row>, x: Statement, server: Server)
    requires MergeRows(sess, rows, server).failure.None?
    requires forall k :: 0 <= k < |Accepted(rows)| ==> EqualsExceptSequence(Accepted(rows)[k], x)
    ensures var rs := MergeRows(sess, rows, server).session.recorded;
            forall k :: |sess.recorded| <= k < |rs| ==> EqualsExceptSequence(rs[k], x)
  {
    var rs := MergeRows(sess, rows, server).session.recorded;
    var n := |sess.recorded|;
    forall k | n <= k < |rs|
      ensures EqualsExceptSequence(rs[k], x)
    {
      assert EqualsExceptSequence(rs[n + (k - n)], Accepted(rows)[k - n]);
    }
  }

  /** In a numbered record, a stretch of duplicates of `x` carries consecutive
      sequences after the count of duplicates before it. */
  lemma {:induction false} SequencedRun(rs: seq<Statement>, n: nat, len: nat, x: Statement)
    requires Sequenced(rs) && n + len <= |rs|
    requires forall k :: n <= k < n + len ==> EqualsExceptSequence(rs[k], x)
    ensures forall k :: 0 <= k < len ==> rs[n..][k].sequence == CountEqual(rs[..n], x) + k + 1
  {
    CountRun(rs, n, len, x);
    forall k | 0 <= k < len
      ensures rs[n..][k].sequence == CountEqual(rs[..n], x) + k + 1
    {
      assert rs[n..][k] == rs[n + k];
      CountRespectsEquals(rs[..n + k], rs[n + k], x);
    }
  }

  /** Over a stretch of duplicates of `x`, the count of duplicates grows by one per
      record. */
  lemma {:induction false} CountRun(rs: seq<Statement>, n: nat, len: nat, x: Statement)
    requires n + len <= |rs|
    requires forall k :: n <= k < n + len ==> EqualsExceptSequence(rs[k], x)
    ensures forall j :: n <= j <= n + len ==> CountEqual(rs[..j], x) == CountEqual(rs[..n], x) + (j - n)
    decreases len
  {
    if len > 0 {
      CountRun(rs, n, len - 1, x);
      CountStep(rs, n + len - 1, x);
    }
  }

  /** Rows that accept each statement of `xs` in turn. */
  function AcceptAll(xs: seq<Statement>): (rows: seq<Row>)
    ensures |rows| == |xs|
    ensures forall k :: 0 <= k < |xs| ==> rows[k] == Accept(xs[k])
    ensures Accepted(rows) == xs
  {
    if |xs| == 0 then []
    else
      var rows := [Accept(xs[0])] + AcceptAll(xs[1..]);
      assert rows[1..] == AcceptAll(xs[1..]);
      rows
  }

  /** How many records of `rs` equal `s` under the older reflective `equals`. */
  function LegacyCount(rs: seq<Statement>, s: Statement): (n: nat)
    ensures n <= |rs|
  {
    if |rs| == 0 then 0
    else LegacyCount(rs[..|rs| - 1], s) + (if LegacyEquals(rs[|rs| - 1], s) then 1 else 0)
  }

  /** `ScraperDriverBase.merge`: the same steps as `ServerSession.merge`, with the
      duplicate test done by the reflective `equals`. */
  function LegacyMerge(sess: Session, s: Statement, server: Server): (r: Result<Session, Error>)
    ensures r.Success? ==> r.value.countProcessed == sess.countProcessed + 1
    ensures r.Success? ==> |r.value.recorded| == |sess.recorded| + 1
  {
    var p := s.(sequence := 1 + LegacyCount(sess.recorded, s));
    var reply := server.post(StatementTarget(sess.url), p);
    match CheckStatus(reply.status)
    case Fail(e) => Failure(e)
    case Pass =>
      if !IsDigits(reply.body) then Failure(StateCheckFailed)
      else
        Success(sess.(recorded := sess.recorded + [p],
                      countProcessed := sess.countProcessed + 1,
                      countInserted := sess.countInserted + (if reply.body == "0" then 0 else 1)))
  }

  lemma {:induction false} LegacyCountAgrees(rs: seq<Statement>, s: Statement)
    ensures LegacyCount(rs, s) == CountEqual(rs, s)
    decreases |rs|
  {
    if |rs| > 0 {
      LegacyCountAgrees(rs[..|rs| - 1], s);
      LegacyEqualsAgrees(rs[|rs| - 1], s);
    }
  }

  /** The older base-class merge and the session's merge behave identically. */
  lemma {:induction false} LegacyMergeAgrees(sess: Session, s: Statement, server: Server)
    ensures LegacyMerge(sess, s, server) == Merge(sess, s, server)
  {
    LegacyCountAgrees(sess.recorded, s);
  }
}

=== FILE: simplii.dfy ===
/** `SimpliiScraperDriver.scrape`: four account tables of the summary in a fixed
    order, the same "(digits)" reference and five-column rows as the PC Financial
    pages, with the date parsed and the description normalised by the statement
    record's own setters, and the amount signed by prefixing "-". */
module Simplii {
  import opened Wrappers
  import opened Text
  import opened Decimals
  import opened IsoDate
  import opened Statements
  import opened Sessions
  import opened Amounts
  import opened References
  import opened AccountLoop
  import Pcfinancial

  type Cell = Pcfinancial.Cell
  type TableRow = Pcfinancial.TableRow
  type AccountPage = Pcfinancial.AccountPage

  const Institution: string := "simplii"

  /** The account tables, by class name, in the order they are scraped. */
  const TableOrder: seq<string> := ["DEPOSIT", "NON_REGISTERED_INVESTMENT", "REGISTERED_INVESTMENT", "CREDIT"]

  /** The text of the placeholder row of an account table without accounts. */
  const NoAccounts: string := "You don't have any"

  const Caption: string := "Transaction List"

  /** One transaction row: shape, date, description, then the amount. */
  function ReadRow(cells: seq<Cell>, accountId: int, parse: DateParser): (r: Row)
    ensures !r.Skip?
    ensures !Pcfinancial.Shaped(cells) ==> r == Reject(StateCheckFailed)
    ensures Pcfinancial.Shaped(cells) && parse(cells[0].text).None? ==> r == Reject(DateUnparseable)
    ensures r.Accept? <==>
              Pcfinancial.Shaped(cells) && parse(cells[0].text).Some?
              && PcfinancialAmount(cells[2].text, cells[3].text).Success?
    ensures r.Accept? ==>
              && r.statement.accountId == accountId && r.statement.sequence == 0
              && r.statement.date == Some(FormatIso(parse(cells[0].text).value))
              && r.statement.description == Some(NormalizeDescription(cells[1].text))
              && r.statement.amount == Some(PcfinancialAmount(cells[2].text, cells[3].text).value)
  {
    if !Pcfinancial.Shaped(cells) then Reject(StateCheckFailed)
    else match WithParsedDate(Blank.(accountId := accountId), cells[0].text, parse)
      case Failure(e) => Reject(e)
      case Success(dated) =>
        var described := WithDescription(dated, cells[1].text);
        SimpliiAgreesWithPcfinancial(cells[2].text, cells[3].text);
        match SimpliiAmount(cells[2].text, cells[3].text)
        case Failure(e) => Reject(e)
        case Success(amount) => Accept(described.(amount := Some(amount)))
  }

  /** A transaction shown on the page is read back with its description normalised
      and its amount negated when it sits in the "Funds out" column. */
  lemma {:induction false} ReadShownRow(d: LocalDate, dateText: string, description: string, amount: Decimal, debit: bool,
                     balance: string, accountId: int, parse: DateParser)
    requires parse(dateText) == Some(d) && IsDisplayable(amount)
    ensures ReadRow(Pcfinancial.Shown(dateText, description, amount, debit, balance), accountId, parse) ==
            Accept(Statement(Some(FormatIso(d)), accountId, Some(if debit then Negate(amount) else amount),
                             Some(NormalizeDescription(description)), 0))
  {
    var cells := Pcfinancial.Shown(dateText, description, amount, debit, balance);
    var shown := "$" + PlainString(amount);
    assert Pcfinancial.Shaped(cells) && cells[0].text == dateText && cells[1].text == description;
    assert cells[2].text == (if debit then shown else "") && cells[3].text == (if debit then "" else shown);
    PcfinancialRoundTrip(amount);
    assert PcfinancialAmount(cells[2].text, cells[3].text) == Success(if debit then Negate(amount) else amount);
  }

  /** The transaction list: a caption row, the column header row, then transactions. */
  function ReadTable(table: seq<TableRow>, accountId: int, parse: DateParser): (rows: seq<Row>)
    ensures |table| < 2 || table[0].text != Caption || table[1].text != Pcfinancial.Header ==>
              rows == [Reject(StateCheckFailed)]
    ensures |table| >= 2 && table[0].text == Caption && table[1].text == Pcfinancial.Header ==>
              |rows| == |table| - 2 && forall j :: 0 <= j < |rows| ==> rows[j] == ReadRow(table[j + 2].cells, accountId, parse)
    ensures forall j :: 0 <= j < |rows| && rows[j].Accept? ==> rows[j].statement.accountId == accountId
  {
    if |table| < 2 || table[0].text != Caption || table[1].text != Pcfinancial.Header then [Reject(StateCheckFailed)]
    else ReadRows(table, 2, (row: TableRow) => ReadRow(row.cells, accountId, parse))
  }

  function ToAccount(page: AccountPage, parse: DateParser): Account {
    Account(Pcfinancial.Reference(page.name), page.alert, accountId => ReadTable(page.table, accountId, parse))
  }

  /** A `tbody/tr` of an account table and the account page its link leads to. */
  datatype Listing = Listing(text: string, page: AccountPage)

  function Accounts(listing: seq<Listing>, parse: DateParser): (accounts: seq<Account>)
    ensures |accounts| == |listing|
    ensures forall i :: 0 <= i < |listing| ==> accounts[i] == ToAccount(listing[i].page, parse)
  {
    seq(|listing|, i requires 0 <= i < |listing| => ToAccount(listing[i].page, parse))
  }

  /** The placeholder a table shows when the customer holds no such account. */
  predicate HoldsNone(listing: seq<Listing>) {
    |listing| == 1 && Contains(listing[0].text, NoAccounts)
  }

  /** `scrapeTable`: a placeholder table is passed over; any other must list an
      account. */
  function ScrapeTable(sess: Session, listing: seq<Listing>, server: Server, parse: DateParser): (p: Progress)
    ensures Valid(sess) ==> Valid(p.session)
    ensures HoldsNone(listing) ==> p == Progress(sess, [], None)
    ensures |listing| == 0 ==> p == Progress(sess, [], Some(StateCheckFailed))
    ensures !HoldsNone(listing) && p.failure.None? ==>
              forall i :: 0 <= i < |listing| ==> ParenReference(listing[i].page.name).Some?
  {
    if HoldsNone(listing) then Progress(sess, [], None)
    else if |listing| == 0 then Progress(sess, [], Some(StateCheckFailed))
    else Visit(sess, Accounts(listing, parse), Institution, server)
  }

  /** The tables named in `names`, in that order, each from the session the previous
      one left; the first exception ends the run. */
  function ScrapeTables(sess: Session, names: seq<string>, tables: string -> seq<Listing>, server: Server,
                        parse: DateParser): (p: Progress)
    ensures Valid(sess) ==> Valid(p.session)
    ensures |sess.recorded| <= |p.session.recorded| && p.session.recorded[..|sess.recorded|] == sess.recorded
    decreases |names|
  {
    if |names| == 0 then Progress(sess, [], None)
    else
      var first := ScrapeTable(sess, tables(names[0]), server, parse);
      if first.failure.Some? then first
      else
        var rest := ScrapeTables(first.session, names[1..], tables, server, parse);
        assert rest.session.recorded[..|sess.recorded|] ==
               rest.session.recorded[..|first.session.recorded|][..|sess.recorded|];
        Progress(rest.session, first.lookups + rest.lookups, rest.failure)
  }

  function Scrape(sess: Session, tables: string -> seq<Listing>, server: Server, parse: DateParser): (p: Progress)
    ensures Valid(sess) ==> Valid(p.session)
  {
    ScrapeTables(sess, TableOrder, tables, server, parse)
  }

  /** Tables holding no accounts contribute nothing: a customer with deposit accounts
      only is scraped exactly as the deposit table alone. */
  lemma {:induction false} OnlyDeposits(sess: Session, tables: string -> seq<Listing>, server: Server, parse: DateParser)
    requires forall k :: 1 <= k < |TableOrder| ==> HoldsNone(tables(TableOrder[k]))
    ensures var deposits := ScrapeTable(sess, tables("DEPOSIT"), server, parse);
            Scrape(sess, tables, server, parse) == deposits
  {
    var deposits := ScrapeTable(sess, tables("DEPOSIT"), server, parse);
    if deposits.failure.None? {
      PlaceholdersOnly(deposits.session, TableOrder[1..], tables, server, parse);
      assert deposits.lookups + [] == deposits.lookups;
    }
  }

  lemma {:induction false} PlaceholdersOnly(sess: Session, names: seq<string>, tables: string -> seq<Listing>,
                                             server: Server, parse: DateParser)
    requires forall k :: 0 <= k < |names| ==> HoldsNone(tables(names[k]))
    ensures ScrapeTables(sess, names, tables, server, parse) == Progress(sess, [], None)
    decreases |names|
  {
    if |names| > 0 {
      PlaceholdersOnly(sess, names[1..], tables, server, parse);
    }
  }
}

=== FILE: splits.dfy ===
/** Splitting and joining text on a literal separator: `String.split(sep)` for a
    separator without regular-expression metacharacters (the line separator, or two
    of them), and `Collectors.joining(sep)`. */
module Splits {

  /** `sep` occurs in `s` at position `i`. */
  predicate At(s: string, i: nat, sep: string) {
    i + |sep| <= |s| && s[i..i + |sep|] == sep
  }

  /** The first occurrence of `sep` at or after `i`; `|s|` when there is none. */
  function Find(s: string, sep: string, i: nat): (k: nat)
    requires |sep| > 0 && i <= |s|
    ensures i <= k <= |s|
    ensures k < |s| ==> At(s, k, sep)
    ensures forall j :: i <= j < k ==> !At(s, j, sep)
    decreases |s| - i
  {
    if i == |s| then |s| else if At(s, i, sep) then i else Find(s, sep, i + 1)
  }

  /** `Find` is pinned down by its contract: the first occurrence, or `|s|`. */
  lemma {:induction false} FindIs(s: string, sep: string, k: nat)
    requires |sep| > 0 && k <= |s|
    requires k < |s| ==> At(s, k, sep)
    requires forall j :: 0 <= j < k ==> !At(s, j, sep)
    ensures Find(s, sep, 0) == k
  {
  }

  /** The pieces between the leftmost non-overlapping occurrences of `sep`, keeping
      empty pieces everywhere. */
  function SplitAll(s: string, sep: string): (parts: seq<string>)
    requires |sep| > 0
    ensures |parts| >= 1
    ensures Find(s, sep, 0) == |s| ==> parts == [s]
    decreases |s|
  {
    var k := Find(s, sep, 0);
    if k == |s| then [s] else [s[..k]] + SplitAll(s[k + |sep|..], sep)
  }

  lemma {:induction false} SplitAllStep(s: string, sep: string, k: nat)
    requires |sep| > 0 && k < |s| && Find(s, sep, 0) == k
    ensures k + |sep| <= |s|
    ensures SplitAll(s, sep) == [s[..k]] + SplitAll(s[k + |sep|..], sep)
  {
  }

  /** `Collectors.joining(sep)`. */
  function Join(parts: seq<string>, sep: string): string
    decreases |parts|
  {
    if |parts| == 0 then ""
    else if |parts| == 1 then parts[0]
    else parts[0] + sep + Join(parts[1..], sep)
  }

  /** `sep` repeated `k` times. */
  function Repeat(sep: string, k: nat): (r: string)
    ensures |r| == k * |sep|
  {
    if k == 0 then "" else Repeat(sep, k - 1) + sep
  }

  /** Drops the trailing empty strings. */
  function DropTrailingEmpty(parts: seq<string>): (r: seq<string>)
    ensures |r| <= |parts| && r == parts[..|r|]
    ensures |r| > 0 ==> r[|r| - 1] != ""
    ensures forall i :: |r| <= i < |parts| ==> parts[i] == ""
    decreases |parts|
  {
    if |parts| > 0 && parts[|parts| - 1] == "" then DropTrailingEmpty(parts[..|parts| - 1]) else parts
  }

  /** `s.split(sep)`: the input itself when `sep` does not occur, and otherwise the
      pieces with trailing empty strings removed (so "\n".split("\n") is empty). */
  function JavaSplit(s: string, sep: string): (r: seq<string>)
    requires |sep| > 0
    ensures |r| > 0 ==> r[|r| - 1] != "" || r == [s]
  {
    if Find(s, sep, 0) == |s| then [s] else DropTrailingEmpty(SplitAll(s, sep))
  }

  /** How many separators `JavaSplit` drops from the end of `s`. */
  function Trailing(s: string, sep: string): nat
    requires |sep| > 0
  {
    if Find(s, sep, 0) == |s| then 0
    else
      var parts := SplitAll(s, sep);
      var kept := DropTrailingEmpty(parts);
      |parts| - |kept| - (if |kept| == 0 then 1 else 0)
  }

  /** Joining the pieces gives the text back. */
  lemma {:induction false} SplitAllJoin(s: string, sep: string)
    requires |sep| > 0
    ensures Join(SplitAll(s, sep), sep) == s
    decreases |s|
  {
    var k := Find(s, sep, 0);
    if k < |s| {
      var rest := s[k + |sep|..];
      SplitAllJoin(rest, sep);
      assert s == s[..k] + sep + rest by {
        assert s[k..k + |sep|] == sep;
      }
    }
  }

  lemma {:induction false} JoinSnoc(parts: seq<string>, x: string, sep: string)
    requires |parts| > 0
    ensures Join(parts + [x], sep) == Join(parts, sep) + sep + x
    decreases |parts|
  {
    if |parts| > 1 {
      assert (parts + [x])[1..] == parts[1..] + [x];
      JoinSnoc(parts[1..], x, sep);
    }
  }

  /** What dropping the trailing empty strings removes from the joined text: one
      separator per empty string, one fewer when nothing is left. */
  lemma {:induction false} JoinDropTrailing(parts: seq<string>, sep: string)
    requires |parts| > 0
    ensures var kept := DropTrailingEmpty(parts);
            Join(parts, sep) == Join(kept, sep) + Repeat(sep, |parts| - |kept| - (if |kept| == 0 then 1 else 0))
    decreases |parts|
  {
    var n := |parts|;
    if parts[n - 1] == "" && n > 1 {
      var front := parts[..n - 1];
      assert parts == front + [""];
      JoinSnoc(front, "", sep);
      JoinDropTrailing(front, sep);
    }
  }

  /** `split` loses nothing but the trailing separators. */
  lemma {:induction false} JavaSplitJoin(s: string, sep: string)
    requires |sep| > 0
    ensures s == Join(JavaSplit(s, sep), sep) + Repeat(sep, Trailing(s, sep))
  {
    if Find(s, sep, 0) < |s| {
      var parts := SplitAll(s, sep);
      var kept := DropTrailingEmpty(parts);
      var t := |parts| - |kept| - (if |kept| == 0 then 1 else 0);
      calc {
        Join(JavaSplit(s, sep), sep) + Repeat(sep, Trailing(s, sep));
        Join(kept, sep) + Repeat(sep, t);
        { JoinDropTrailing(parts, sep); }
        Join(parts, sep);
        { SplitAllJoin(s, sep); }
        s;
      }
    } else {
      assert JavaSplit(s, sep) == [s] && Trailing(s, sep) == 0;
      assert Join([s], sep) + Repeat(sep, 0) == s;
    }
  }
}

=== FILE: statement.dfy ===
/** The statement record sent to the ledger server: `dto/StatementDTO.java`, and the
    older inner `StatementDTO` class of `ScraperDriverBase.java`, which has the same
    public fields. A field Java leaves `null` is `None`. */
module Statements {
  import opened Wrappers
  import opened Text
  import opened Decimals
  import opened IsoDate

  datatype Statement = Statement(
    date: Option<string>,
    accountId: int,
    amount: Option<Decimal>,
    description: Option<string>,
    sequence: int)
  {
    /** Both classes declare `source` final and initialise it to "". */
    const source: string := ""
  }

  /** `new StatementDTO()`: every reference field null, every int field 0. */
  const Blank: Statement := Statement(None, 0, None, None, 0)

  /** The text `setDescription` stores: `replaceAll("\\s", " ")` then `trim()`. */
  function NormalizeDescription(text: string): (r: string)
    ensures forall i :: 0 <= i < |r| ==> !IsRegexSpace(r[i]) || r[i] == ' '
    ensures |r| > 0 ==> !IsTrimmable(r[0]) && !IsTrimmable(r[|r| - 1])
  {
    Trim(ReplaceSpaces(text))
  }

  /** `setDescription`. */
  function WithDescription(s: Statement, text: string): Statement {
    s.(description := Some(NormalizeDescription(text)))
  }

  /** `setDate(LocalDate)`: the ISO text of the date. */
  function WithDate(s: Statement, d: LocalDate): Statement {
    s.(date := Some(FormatIso(d)))
  }

  /** `setDate(String text, String format)`: parse with the site's pattern, then store
      the ISO text; an unparseable text throws and sets nothing. */
  function WithParsedDate(s: Statement, text: string, parse: DateParser): (r: Result<Statement, Error>)
    ensures r.Success? <==> parse(text).Some?
    ensures r.Success? ==> r.value == WithDate(s, parse(text).value)
    ensures r.Failure? ==> r.error == DateUnparseable
  {
    match parse(text)
    case None => Failure(DateUnparseable)
    case Some(d) => Success(WithDate(s, d))
  }

  /** `setSequence`; `getSequence` reads back what it set, and the record is otherwise
      the same statement. */
  function WithSequence(s: Statement, n: int): (r: Statement)
    ensures r.sequence == n
    ensures EqualsExceptSequence(r, s) && r.source == s.source
  {
    s.(sequence := n)
  }

  /** `equalsExceptSequence`: `Objects.equal` on date, accountId, amount and
      description, so two nulls are equal and amounts compare scale and all. */
  predicate EqualsExceptSequence(a: Statement, b: Statement) {
    && a.date == b.date
    && a.accountId == b.accountId
    && a.amount == b.amount
    && a.description == b.description
  }

  /** The inner class's `equals(StatementDTO)`: `Objects.equal` on every public field
      found by reflection except `sequence` (which is not public), so `source` too. */
  predicate LegacyEquals(a: Statement, b: Statement) {
    && a.date == b.date
    && a.accountId == b.accountId
    && a.amount == b.amount
    && a.description == b.description
    && a.source == b.source
  }

  /** Equality except sequence is exactly equality once the sequences are cleared. */
  lemma {:induction false} EqualsExceptSequenceIgnoresOnlySequence(a: Statement, b: Statement)
    ensures EqualsExceptSequence(a, b) <==> WithSequence(a, 0) == WithSequence(b, 0)
  {
  }

  lemma {:induction false} EqualsExceptSequenceIsEquivalence(a: Statement, b: Statement, c: Statement)
    ensures EqualsExceptSequence(a, a)
    ensures EqualsExceptSequence(a, b) ==> EqualsExceptSequence(b, a)
    ensures EqualsExceptSequence(a, b) && EqualsExceptSequence(b, c) ==> EqualsExceptSequence(a, c)
  {
  }

  /** Since `source` is always "", the two equalities are the same relation. */
  lemma {:induction false} LegacyEqualsAgrees(a: Statement, b: Statement)
    ensures LegacyEquals(a, b) <==> EqualsExceptSequence(a, b)
  {
  }

  /** Statements whose amounts are the same number at different scales are not
      duplicates of each other. */
  lemma {:induction false} AmountScaleMatters(s: Statement, d: Decimal, k: nat)
    ensures SameValue(d, Rescale(d, k))
    ensures EqualsExceptSequence(s.(amount := Some(d)), s.(amount := Some(Rescale(d, k)))) <==> k == 0
  {
    EqualsIsScaleSensitive(d, k);
  }

  /** `replaceAll` then `trim` equals `trim` then `replaceAll`: every whitespace
      character the replacement touches is itself at most U+0020. */
  lemma {:induction false} NormalizeIsTrimThenReplace(text: string)
    ensures NormalizeDescription(text) == ReplaceSpaces(Trim(text))
  {
    TrimStartReplace(text);
    TrimEndReplace(TrimStart(text));
  }

  lemma {:induction false} TrimStartReplace(s: string)
    ensures TrimStart(ReplaceSpaces(s)) == ReplaceSpaces(TrimStart(s))
    decreases |s|
  {
    if |s| > 0 && IsTrimmable(s[0]) {
      assert ReplaceSpaces(s)[1..] == ReplaceSpaces(s[1..]);
      TrimStartReplace(s[1..]);
    }
  }

  lemma {:induction false} TrimEndReplace(s: string)
    ensures TrimEnd(ReplaceSpaces(s)) == ReplaceSpaces(TrimEnd(s))
    decreases |s|
  {
    if |s| > 0 && IsTrimmable(s[|s| - 1]) {
      var front := s[..|s| - 1];
      assert ReplaceSpaces(s)[..|s| - 1] == ReplaceSpaces(front);
      TrimEndReplace(front);
    }
  }

  /** `setDescription` is idempotent: a normalised description normalises to itself. */
  lemma {:induction false} NormalizeIdempotent(text: string)
    ensures NormalizeDescription(NormalizeDescription(text)) == NormalizeDescription(text)
  {
    var r := NormalizeDescription(text);
    ReplaceSpacesFixes(r);
    TrimKeeps(r);
  }

  /** A text whose only whitespace is the plain space is left as it is by the
      replacement. */
  lemma {:induction false} ReplaceSpacesFixes(r: string)
    requires forall i :: 0 <= i < |r| ==> !IsRegexSpace(r[i]) || r[i] == ' '
    ensures ReplaceSpaces(r) == r
  {
    var t := ReplaceSpaces(r);
    assert |t| == |r|;
    forall i | 0 <= i < |r|
      ensures t[i] == r[i]
    {
    }
  }

  /** Runs of whitespace are not collapsed: each character becomes its own space. */
  lemma {:induction false} NormalizeKeepsRuns(text: string)
    requires |text| > 0 ==> !IsTrimmable(text[0]) && !IsTrimmable(text[|text| - 1])
    ensures |NormalizeDescription(text)| == |text|
    ensures forall i :: 0 <= i < |text| ==>
              NormalizeDescription(text)[i] == (if IsRegexSpace(text[i]) then ' ' else text[i])
  {
    TrimKeeps(ReplaceSpaces(text));
  }
}

=== FILE: text.dfy ===
/** Java string primitives the scrapers rely on, over `string = seq<char>`.

    Each predicate or function names the Java call or regular expression it stands
    for. Character classes follow `java.util.regex.Pattern` without flags: `\s` and
    `\p{Space}` are ASCII only, and `\d` is `[0-9]`.
 */
module Text {

  /** `\s` and `\p{Space}`: one of space, \t, \n, \x0B, \f, \r. */
  predicate IsRegexSpace(c: char) {
    c == ' ' || c == '\t' || c == '\n' || c == '\U{000B}' || c == '\U{000C}' || c == '\r'
  }

  predicate IsNotRegexSpace(c: char) {
    !IsRegexSpace(c)
  }

  /** A character `String.trim()` removes: any code point up to U+0020. */
  predicate IsTrimmable(c: char) {
    c <= ' '
  }

  /** `\d` and `[0-9]`. */
  predicate IsDigit(c: char) {
    '0' <= c <= '9'
  }

  /** `[A-Za-z]`. */
  predicate IsAsciiLetter(c: char) {
    'A' <= c <= 'Z' || 'a' <= c <= 'z'
  }

  /** The line terminators of `Pattern`: `.` never matches them. */
  predicate IsLineTerminator(c: char) {
    c == '\n' || c == '\r' || c == '\U{0085}' || c == '\U{2028}' || c == '\U{2029}'
  }

  /** `Character.isWhitespace` (Unicode 6.3 and later), as used by `StringUtils.isBlank`. */
  predicate IsWhitespace(c: char) {
    || ('\t' <= c <= '\r')
    || ('\U{001C}' <= c <= ' ')
    || c == '\U{1680}'
    || ('\U{2000}' <= c <= '\U{2006}')
    || ('\U{2008}' <= c <= '\U{200A}')
    || c == '\U{2028}' || c == '\U{2029}' || c == '\U{205F}' || c == '\U{3000}'
  }

  /** `s.matches("^[0-9]+$")`: a non-empty run of ASCII digits and nothing else. */
  predicate IsDigits(s: string) {
    |s| > 0 && forall i :: 0 <= i < |s| ==> IsDigit(s[i])
  }

  /** `StringUtils.isBlank` of a non-null string. */
  predicate IsBlank(s: string) {
    forall i :: 0 <= i < |s| ==> IsWhitespace(s[i])
  }

  predicate StartsWith(s: string, prefix: string) {
    |prefix| <= |s| && s[..|prefix|] == prefix
  }

  predicate EndsWith(s: string, suffix: string) {
    |suffix| <= |s| && s[|s| - |suffix|..] == suffix
  }

  /** `s.contains(part)`. */
  predicate Contains(s: string, part: string)
    decreases |s|
  {
    StartsWith(s, part) || (|s| > 0 && Contains(s[1..], part))
  }

  /** `s.indexOf(c)`, with `|s|` standing for "not found". */
  function IndexOf(s: string, c: char): (k: nat)
    ensures k <= |s|
    ensures k < |s| ==> s[k] == c
    ensures forall i :: 0 <= i < k ==> s[i] != c
  {
    if |s| == 0 then 0
    else if s[0] == c then 0
    else 1 + IndexOf(s[1..], c)
  }

  /** The characters of `s` that `keep` accepts, in order; `replaceAll("[^…]", "")`
      for the class `keep` describes. */
  function Filter(s: string, keep: char -> bool): (r: string)
    ensures |r| <= |s|
    ensures forall i :: 0 <= i < |r| ==> keep(r[i])
    ensures (forall i :: 0 <= i < |s| ==> keep(s[i])) ==> r == s
  {
    if |s| == 0 then ""
    else (if keep(s[0]) then [s[0]] else []) + Filter(s[1..], keep)
  }

  /** Filtering distributes over concatenation: filtering a string piecewise is
      filtering it whole. */
  lemma {:induction false} FilterConcat(a: string, b: string, keep: char -> bool)
    ensures Filter(a + b, keep) == Filter(a, keep) + Filter(b, keep)
    decreases |a|
  {
    if |a| > 0 {
      assert (a + b)[1..] == a[1..] + b;
      FilterConcat(a[1..], b, keep);
    } else {
      assert a + b == b;
    }
  }

  /** `s.replaceAll("\\s", " ")`: every whitespace character becomes one space,
      and runs are not collapsed. */
  function ReplaceSpaces(s: string): (r: string)
    ensures |r| == |s|
    ensures forall i :: 0 <= i < |s| ==> r[i] == (if IsRegexSpace(s[i]) then ' ' else s[i])
  {
    if |s| == 0 then ""
    else [if IsRegexSpace(s[0]) then ' ' else s[0]] + ReplaceSpaces(s[1..])
  }

  /** The leading half of `String.trim()`: what is left after dropping every leading
      character up to U+0020. */
  function TrimStart(s: string): (r: string)
    ensures |r| <= |s| && r == s[|s| - |r|..]
    ensures forall k :: 0 <= k < |s| - |r| ==> IsTrimmable(s[k])
    ensures |r| > 0 ==> !IsTrimmable(r[0])
  {
    if |s| > 0 && IsTrimmable(s[0]) then TrimStart(s[1..]) else s
  }

  /** The trailing half of `String.trim()`. */
  function TrimEnd(s: string): (r: string)
    ensures |r| <= |s| && r == s[..|r|]
    ensures forall k :: |r| <= k < |s| ==> IsTrimmable(s[k])
    ensures |r| > 0 ==> !IsTrimmable(r[|r| - 1])
  {
    if |s| > 0 && IsTrimmable(s[|s| - 1]) then TrimEnd(s[..|s| - 1]) else s
  }

  /** `String.trim()`: the infix `s[i..j]` that drops every character up to U+0020
      at both ends and keeps everything between. */
  function Trim(s: string): (r: string)
    ensures exists i, j :: 0 <= i <= j <= |s| && r == s[i..j]
                           && (forall k :: 0 <= k < i ==> IsTrimmable(s[k]))
                           && (forall k :: j <= k < |s| ==> IsTrimmable(s[k]))
    ensures |r| > 0 ==> !IsTrimmable(r[0]) && !IsTrimmable(r[|r| - 1])
  {
    var t := TrimStart(s);
    var r := TrimEnd(t);
    TrimInfix(s, t, r);
    r
  }

  lemma {:induction false} TrimInfix(s: string, t: string, r: string)
    requires |t| <= |s| && t == s[|s| - |t|..] && forall k :: 0 <= k < |s| - |t| ==> IsTrimmable(s[k])
    requires |r| <= |t| && r == t[..|r|] && forall k :: |r| <= k < |t| ==> IsTrimmable(t[k])
    ensures exists i, j :: 0 <= i <= j <= |s| && r == s[i..j]
                           && (forall k :: 0 <= k < i ==> IsTrimmable(s[k]))
                           && (forall k :: j <= k < |s| ==> IsTrimmable(s[k]))
  {
    var i, j := |s| - |t|, |s| - |t| + |r|;
    assert r == s[i..j];
    assert forall k :: j <= k < |s| ==> IsTrimmable(s[k]) by {
      assert forall k :: j <= k < |s| ==> s[k] == t[k - i];
    }
  }

  /** A string whose ends are not trimmable is its own trim. */
  lemma {:induction false} TrimKeeps(s: string)
    requires |s| > 0 ==> !IsTrimmable(s[0]) && !IsTrimmable(s[|s| - 1])
    ensures Trim(s) == s
  {
  }

  /** Drops the leading `\s` characters: the rest of a `\s+` match. */
  function DropSpaces(s: string): (r: string)
    ensures |r| <= |s| && r == s[|s| - |r|..]
    ensures forall k :: 0 <= k < |s| - |r| ==> IsRegexSpace(s[k])
    ensures |r| > 0 ==> !IsRegexSpace(r[0])
  {
    if |s| > 0 && IsRegexSpace(s[0]) then DropSpaces(s[1..]) else s
  }

  /** `s.replaceAll("\\s+", " ")` (equally `"\\p{Space}+"`): every maximal run of
      whitespace becomes a single space; `CollapseKeepsContent` shows nothing else
      changes. */
  function CollapseSpaces(s: string): (r: string)
    ensures |r| <= |s|
    ensures |r| == 0 <==> |s| == 0
    ensures |r| > 0 ==> (r[0] == ' ' <==> IsRegexSpace(s[0]))
    ensures forall i :: 0 <= i < |r| ==> (IsRegexSpace(r[i]) ==> r[i] == ' ')
    ensures forall i :: 0 <= i < |r| - 1 ==> !(r[i] == ' ' && r[i + 1] == ' ')
    decreases |s|
  {
    if |s| == 0 then ""
    else if IsRegexSpace(s[0]) then " " + CollapseSpaces(DropSpaces(s[1..]))
    else [s[0]] + CollapseSpaces(s[1..])
  }

  /** Collapsing whitespace keeps every other character, in order. */
  lemma {:induction false} CollapseKeepsContent(s: string)
    ensures Filter(CollapseSpaces(s), IsNotRegexSpace) == Filter(s, IsNotRegexSpace)
    decreases |s|
  {
    if |s| == 0 {
    } else if IsRegexSpace(s[0]) {
      var tail := CollapseSpaces(DropSpaces(s[1..]));
      CollapseKeepsContent(DropSpaces(s[1..]));
      DropSpacesFilter(s[1..]);
      FilterConcat(" ", tail, IsNotRegexSpace);
    } else {
      var tail := CollapseSpaces(s[1..]);
      CollapseKeepsContent(s[1..]);
      FilterConcat([s[0]], tail, IsNotRegexSpace);
    }
  }

  /** Dropping leading whitespace loses no non-whitespace character. */
  lemma {:induction false} DropSpacesFilter(s: string)
    ensures Filter(DropSpaces(s), IsNotRegexSpace) == Filter(s, IsNotRegexSpace)
    decreases |s|
  {
    if |s| > 0 && IsRegexSpace(s[0]) {
      DropSpacesFilter(s[1..]);
    }
  }
}

=== FILE: wrappers.dfy ===
/** Failure-carrying values shared by every module of the model.

    Java exceptions become `Failure`/`Fail` values; `Error` names the exception the
    source throws, so that a reader can match each error path with its `throw` or
    `checkState`.
 */
module Wrappers {

  /** A Java reference that may be `null`. */
  datatype Option<+T> = None | Some(value: T)

  /** The value of an expression that either returns normally or throws. */
  datatype Result<+R, +E> = Success(value: R) | Failure(error: E) {
    predicate IsFailure() { Failure? }
    function PropagateFailure<U>(): Result<U, E>
      requires Failure?
    {
      Failure(error)
    }
    function Extract(): R
      requires Success?
    {
      value
    }
  }

  /** The completion of a `void` Java statement: normal, or by an exception. */
  datatype Outcome<+E> = Pass | Fail(error: E) {
    predicate IsFailure() { Fail? }
    function PropagateFailure(): Outcome<E>
      requires Fail?
    {
      this
    }
  }

  /** The exceptions the modelled code raises, named after their Java origin. */
  datatype Error =
    /** `IllegalStateException("Server request failed")` from `checkStatus`. */
    | ServerRequestFailed
    /** `IllegalStateException` from a failed Guava `checkState`. */
    | StateCheckFailed
    /** `IllegalStateException("Login failed")` from the MBNA login. */
    | LoginFailed
    /** `NumberFormatException` from `new BigDecimal(String)`. */
    | NumberFormat
    /** `DateTimeParseException` from `LocalDate.parse`. */
    | DateUnparseable
    /** `NoSuchElementException`: a page element, a driver class or a list entry is missing. */
    | NoSuchElement
    /** `IndexOutOfBoundsException` from `List.get`. */
    | IndexOutOfBounds
    /** `FileNotFoundException`: the KeePass database file does not exist. */
    | FileNotFound
    /** `ClassNotFoundException` from `Class.forName`. */
    | ClassNotFound
    /** `RuntimeException("KPScript failed, exit value N")`. */
    | KPScriptExit(exitValue: int)
    /** `RuntimeException("KPScript failed")`. */
    | KPScriptFailed
    /** An exception thrown by a collaborator outside the model (browser, network). */
    | External
}
